=== FILE: README.md ===
# DevDotNetSdk templating engine and model types, in Dafny

A model of the templating engine of DevDotNetSdk (`TemplateBase<TInput>`, `TemplateProvider`,
`TemplateSource`, `ManualTemplateSource`) and of the three sum types of `DevDotNetSdk.Models`
(`Option`, `Result`, `Variant`), with proofs of what the code promises.

A template is a document looked up by the name of its template type. Rendering works in steps:

1. The document loses an optional `---` front-matter block.
2. It is split into sections on lines that hold only `---`.
3. Each section is scanned for `{{ … }}` directives.
4. Each directive becomes an item: a variable path, `if:`, `include:` or `foreach:`.
5. Each `if`, `include` and `foreach` item owns an instance of its sub-template.

A render walks the items in order and concatenates their text. Variable paths are resolved against
the input by walking dotted property names.

Modules, in dependency order:

- `Runtime`: C# `null` as `Nullable<T>`, the exceptions the core throws as `Error`, and `Outcome<T>` (a value or a thrown exception).
- `Text`: `String.Trim`, `Split(char)`, `Split(char, count)`, ASCII `OrdinalIgnoreCase` prefixes, integer formatting.
- `Options`, `Results`, `Variants`: the model types. Type arguments are taken to be reference types, so `default` is null. These structs never look inside what they hold, so one carrier type, `Runtime.Ref`, stands for every type argument.
- `Sources`, `ManualSources`, `Providers`: template lookup by name. A source has an optional content cache. The provider asks its sources from the last added to the first.
- `Values`: runtime values and `GetValueFromInput`, the property-path walk.
- `Documents`: the front-matter regex and the section-split regex, written out as scanners.
- `Tokens`: the lazy `\{\{(.*?)\}\}` scan of a section.
- `Directives`: the classification of one directive into an item.
- `Parsing`: `ParseSectionIntoItems` and `ParseTemplate`.
- `Engine`: `Render` with per-instance item caching and sub-template instances. `fuel` stands for the call stack.
- `Evaluation`: a stateless reference reading of `Render`, and the proof that instance caching is invisible.

The model follows the code in these details, which the directive syntax alone does not suggest:

- Only `include:` rejects a blank argument. `if::Name` is accepted with an empty condition. `foreach:` arguments are not checked for blanks.
- `foreach:` splits into at most three parts, so the sub-template name may contain `:`.
- Front matter needs a newline run after the closing `---`. A document that ends right after the closing `---` has no front matter.
- Items are parsed lazily, on the first render that finds none. A template whose document yields no items is parsed again on every render.

## Model

| member | source | states |
|---|---|---|
| `Options.Unwrap` | DevDotNetSdk/Models/Option.cs:28 | Succeeds exactly when the stored value is non-null and returns it; otherwise throws the no-value exception, whatever `IsSet` says. |
| `Options.FromSome` | DevDotNetSdk/Models/Option.cs:8-20 | Never None; Some exactly when the value is non-null; `Unwrap` gives the value back, and throws for a null one. |
| `Options.FromNone` | DevDotNetSdk/Models/Option.cs:14-22 | None, not Some, and `Unwrap` throws. |
| `Options.NeitherSomeNorNone` | DevDotNetSdk/Models/Option.cs:24-26 | In every reachable state `IsSome` and `IsNone` never both hold. Both are false exactly for `FromSome(null)`. |
| `Options.IsSome` | DevDotNetSdk/Models/Option.cs:24 | Some exactly when the option is set and `Unwrap` succeeds. |
| `Options.IsNone` | DevDotNetSdk/Models/Option.cs:26 | None is never Some. A reachable None holds null, and unwrapping it throws the no-value exception. |
| `Results.Unwrap` | DevDotNetSdk/Models/Result.cs:32 | Looks only at the value: succeeds with it exactly when it is non-null, never consulting `IsOk`. |
| `Results.UnwrapError` | DevDotNetSdk/Models/Result.cs:34 | Succeeds with the error exactly when it is non-null; otherwise throws. |
| `Results.NewResult` | DevDotNetSdk/Models/Result.cs:8-13 | The default result is an error with nothing to unwrap on either side. |
| `Results.Ok` | DevDotNetSdk/Models/Result.cs:22 | Is ok; unwraps to the value given (throws for a null value); has no error. |
| `Results.Fail` | DevDotNetSdk/Models/Result.cs:24 | Is an error; unwraps its error back; has no value. |
| `Results.ErrorIsNotOk` | DevDotNetSdk/Models/Result.cs:26-28 | `IsError` is the negation of `IsOk`, for both result types. |
| `Results.UnitUnwrapError` | DevDotNetSdk/Models/Result.cs:60 | Succeeds with the error exactly when it is non-null. |
| `Results.NewUnitResult` | DevDotNetSdk/Models/Result.cs:41-45 | `new Result<TError>()`, the public parameterless constructor, is ok with no error. |
| `Results.UnitResultAsWritten` | DevDotNetSdk/Models/Result.cs:47-50 | The private constructor as written: the result is never ok, whatever flag is passed. |
| `Results.UnitOk` | DevDotNetSdk/Models/Result.cs:52 | As written, `Ok()` yields a result that reports not ok and is an error. |
| `Results.UnitFail` | DevDotNetSdk/Models/Result.cs:54 | A failed result is an error and unwraps its error back. |
| `Results.UnitResultCorrected` | DevDotNetSdk/Models/Result.cs:47-50 | The corrected constructor keeps both the error and the flag it is given. |
| `Results.CorrectedUnitOk` | DevDotNetSdk/Models/Result.cs:52 | With the corrected constructor, `Ok()` is ok and equals the result of the public parameterless constructor. |
| `Variants.IsFrom` | DevDotNetSdk/Models/Variant.cs:34-39 | The position checks from `k` on hold exactly when the tag is at or after `k` and the type argument names that position. |
| `Variants.Is` | DevDotNetSdk/Models/Variant.cs:34-39 | True exactly when the tag is a position and the type argument names it, so never for the default struct. |
| `Variants.GetFrom` | DevDotNetSdk/Models/Variant.cs:51-60 | The non-null checks give the tagged slot's value exactly when its position matches and it is non-null; otherwise they throw the null-value exception. |
| `Variants.Get` | DevDotNetSdk/Models/Variant.cs:44-61 | Throws "does not hold" exactly when `Is` fails, and "value is null" exactly when it holds over a null slot. Otherwise it returns the tagged slot's value. |
| `Variants.TryGet` | DevDotNetSdk/Models/Variant.cs:64-75 | `(false, null)` exactly when `Is` fails. It throws exactly when `Is` holds over a null slot. When `Is` holds over a non-null slot it returns `true` with that slot's value, which is what `Get` returns. |
| `Variants.DefaultVariant` | DevDotNetSdk/Models/Variant.cs:5-9 | The default struct (tag 0) holds no type at all. |
| `Variants.Construct` | DevDotNetSdk/Models/Variant.cs:14-29 | A constructor tags its position, and `Is` then holds exactly for the types naming that position. |
| `Variants.GetAfterConstruct` | DevDotNetSdk/Models/Variant.cs:14-61 | Round trip: `Get` of the constructed type returns the value stored, or throws the null-value exception for null. |
| `Sources.NewSource` | DevDotNetSdk.Templating/TemplateSource.cs:5-8 | A new source has the given flag and store, and its (empty) cache agrees with the store. |
| `Sources.TryGetTemplateContent` | DevDotNetSdk.Templating/TemplateSource.cs:10-25 | Cache hits answer without the store. Without caching the store answers and nothing changes. A successful lookup is cached when caching is on and a failed one changes nothing. Cached entries are never dropped and no other name is added. |
| `Sources.CacheIsTransparent` | DevDotNetSdk.Templating/TemplateSource.cs:10-25 | For a source whose cache agrees with its store, every lookup answers what the store answers and the cache keeps agreeing. |
| `Sources.CachedContentIgnoresStore` | DevDotNetSdk.Templating/TemplateSource.cs:12-15 | A cached name is answered from the cache whatever the store now holds. |
| `Sources.TryGetTemplateType` | DevDotNetSdk.Templating/TemplateSource.cs:27-34 | Found exactly when the store has the name, with the stored type; the cache plays no part. |
| `Sources.StoreContent` | DevDotNetSdk.Templating/ManualTemplateSource.cs:23-32 | Found exactly when the name is registered, with the registered content. |
| `Sources.StoreType` | DevDotNetSdk.Templating/ManualTemplateSource.cs:34-43 | Found exactly when the name is registered, with the registered type. |
| `ManualSources.NewManualSource` | DevDotNetSdk.Templating/ManualTemplateSource.cs:5-8 | A new manual source knows no content and no type, and has caching off unless asked. |
| `ManualSources.AddTemplate` | DevDotNetSdk.Templating/ManualTemplateSource.cs:10-21 | Throws the duplicate-template exception exactly when the type name is already registered. Otherwise it registers content and type under that name and leaves everything else alone. |
| `ManualSources.LookupsAfterAdd` | DevDotNetSdk.Templating/ManualTemplateSource.cs:10-43 | After a registration the new name yields its content and type, and every other name answers as before. |
| `ManualSources.RegisteredContent` | DevDotNetSdk.Templating/ManualTemplateSource.cs:23-32 | A coherent source answers a registered name with its content and an unregistered one with nothing. |
| `Providers.NewProvider` | DevDotNetSdk.Templating/TemplateProvider.cs:7-10 | A new provider answers null to every lookup and changes nothing. |
| `Providers.AddSource` | DevDotNetSdk.Templating/TemplateProvider.cs:12-15 | Appends the source after the existing ones, in order, keeping every cache coherent. |
| `Providers.KnowsContentIsLookup` | DevDotNetSdk.Templating/TemplateSource.cs:10-25 | A source answers a content lookup exactly when the name is cached or in its store. |
| `Providers.KnowsTypeIsLookup` | DevDotNetSdk.Templating/TemplateSource.cs:27-34 | A source answers a type lookup exactly when its store has the name. |
| `Providers.LastContentSource` | DevDotNetSdk.Templating/TemplateProvider.cs:19-25 | The downward scan finds the highest-indexed source that knows the name, or reports that none does. |
| `Providers.LastTypeSource` | DevDotNetSdk.Templating/TemplateProvider.cs:31-37 | The same for types. |
| `Providers.GetTemplate` | DevDotNetSdk.Templating/TemplateProvider.cs:17-27 | Null exactly when no source knows the name, and then nothing changes. Otherwise it returns the answer of the last-added source that knows the name, and only that source's cache may change. |
| `Providers.GetTemplateType` | DevDotNetSdk.Templating/TemplateProvider.cs:29-39 | Null exactly when no source knows the type; otherwise the type from the last-added source that does. |
| `Providers.LastAddedWins` | DevDotNetSdk.Templating/TemplateProvider.cs:12-39 | A newly added source that knows a name answers for it. One that does not leaves both lookups as they were. |
| `Providers.EarlierSourcesIgnored` | DevDotNetSdk.Templating/TemplateProvider.cs:17-39 | Once a source answers, the sources added before it play no part in the answer. |
| `Providers.WinnerAnswers` | DevDotNetSdk.Templating/TemplateProvider.cs:17-27 | The content answer is the winning source's own answer. |
| `Providers.TypeWinnerAnswers` | DevDotNetSdk.Templating/TemplateProvider.cs:29-39 | The type answer is the winning source's own answer. |
| `Providers.SameStoresSameLookups` | DevDotNetSdk.Templating/TemplateProvider.cs:17-39 | Coherent providers whose sources have the same stores give the same answers, whatever their caches hold. |
| `Providers.LookupKeepsStores` | DevDotNetSdk.Templating/TemplateProvider.cs:17-27 | A content lookup changes no store and keeps the provider coherent. |
| `Providers.LookupKeepsAnswers` | DevDotNetSdk.Templating/TemplateProvider.cs:17-27 | After a content lookup every later lookup, of any name, answers as it would have before. |
| `Values.Utf16Length` | DevDotNetSdk.Templating/TemplateBase.cs:248-254 | `String.Length` counts UTF-16 code units. It lies between the character count and twice it, and equals the character count exactly when every character is in the Basic Multilingual Plane. |
| `Values.Property` | DevDotNetSdk.Templating/TemplateBase.cs:237-249 | A key/value pair exposes exactly `Key` and `Value`, each with its component. A string exposes exactly `Length`, its UTF-16 length, and the indexer `Chars`. Another object exposes exactly its declared properties, each with its getter. `Boolean`, `Int32` and `Char` expose none. |
| `Values.Access` | DevDotNetSdk.Templating/TemplateBase.cs:237-254 | One step of the walk returns the property's value exactly when the property exists and its getter returns. A missing property throws not-found with the segment and type name. An indexer throws a parameter-count mismatch. Several properties of the name throw an ambiguous match. A property without a get accessor throws get-method-not-found, unwrapped. A throwing getter's exception comes back wrapped. |
| `Values.Walk` | DevDotNetSdk.Templating/TemplateBase.cs:231-256 | An empty path gives the input back and a null input gives null. Every exception it throws is one a lookup or property read throws. |
| `Values.WalkCharacterized` | DevDotNetSdk.Templating/TemplateBase.cs:229-257 | The walk ends in one of three ways. It gives the value reached through every segment. It gives null when a null is met before the last segment. Or it throws what the first failing step throws, at the first present value whose property is missing, ambiguous, an indexer, without a get accessor or has a throwing getter. |
| `Values.NullShortCircuits` | DevDotNetSdk.Templating/TemplateBase.cs:232-235 | Reaching null after any prefix of the path yields null, whatever the remaining segments name. |
| `Values.Resolve` | DevDotNetSdk.Templating/TemplateBase.cs:229-257 | A null input gives null. A path without a dot is exactly one property read. Every exception is an access error. |
| `Values.ResolveCharacterized` | DevDotNetSdk.Templating/TemplateBase.cs:229-257 | The segments are the dot-free pieces that join back to the path. Resolving ends in the value reached through all of them, a null met on the way, or the first failing read's exception. |
| `Values.ResolveNullShortCircuits` | DevDotNetSdk.Templating/TemplateBase.cs:232-235 | A null reached after any number of the path's segments makes the whole path resolve to null. |
| `Values.ToText` | DevDotNetSdk.Templating/TemplateBase.cs:43 | `True` or `False` by the boolean, an integer's decimal text that reads back as the integer, a character or string as itself, a pair in brackets, an object's own text. |
| `Values.Elements` | DevDotNetSdk.Templating/TemplateBase.cs:97-98 | A string enumerates its characters in order, an enumerable object its elements. A null, a boolean, an integer, a character or a pair is not a collection. |
| `Text.TrimStart` | DevDotNetSdk.Templating/TemplateBase.cs:136 | The result is a suffix of the input preceded only by white space and not starting with white space. |
| `Text.TrimEnd` | DevDotNetSdk.Templating/TemplateBase.cs:136 | The result is a prefix of the input followed only by white space and not ending with white space. |
| `Text.Trim` | DevDotNetSdk.Templating/TemplateBase.cs:136 | The result is a slice with only white space cut from both ends. Neither end of the result is white space. It is empty exactly when the input is all white space. |
| `Text.TrimOfTrimmed` | DevDotNetSdk.Templating/TemplateBase.cs:136 | Trimming a string with no white space at either end changes nothing. |
| `Text.StartsWithIgnoreCase` | DevDotNetSdk.Templating/TemplateBase.cs:137 | Holds exactly when the text's prefix of the prefix's length equals the prefix once both are upper-cased. |
| `Text.NaturalText` | DevDotNetSdk.Templating/TemplateBase.cs:43 | At least one decimal digit, no leading zero, and the digits read back as the number. |
| `Text.IntegerText` | DevDotNetSdk.Templating/TemplateBase.cs:43 | A `-` exactly for a negative number, then decimal digits, and the text reads back as the number. |
| `Text.Split` | DevDotNetSdk.Templating/TemplateBase.cs:232 | At least one part, and no part contains the separator. |
| `Text.JoinSplit` | DevDotNetSdk.Templating/TemplateBase.cs:232 | Joining the parts with the separator gives the input back. |
| `Text.SplitJoin` | DevDotNetSdk.Templating/TemplateBase.cs:232 | Splitting the join of separator-free parts gives the parts back. |
| `Text.SplitN` | DevDotNetSdk.Templating/TemplateBase.cs:196 | Between one part and `count` parts; every part but the last is separator-free. |
| `Text.SplitNLength` | DevDotNetSdk.Templating/TemplateBase.cs:196 | The counted split has `min(count, parts of the full split)` parts. All but its last agree with the full split. |
| `Text.JoinSplitN` | DevDotNetSdk.Templating/TemplateBase.cs:196 | Joining the counted split gives the input back. |
| `Text.SplitNJoin` | DevDotNetSdk.Templating/TemplateBase.cs:196 | The counted split of a join of `count` parts, all but the last separator-free, gives the parts back. |
| `Documents.FindClosing` | DevDotNetSdk.Templating/TemplateBase.cs:267 | Finds the first position from `j` where a newline run, `---` and a newline run follow, or reports that none does. |
| `Documents.Cut` | DevDotNetSdk.Templating/TemplateBase.cs:267 | The pieces of a match concatenate to the document. The three newline groups are non-empty runs, and the body starts after the whole trailing run. |
| `Documents.FrontMatterMatch` | DevDotNetSdk.Templating/TemplateBase.cs:112-115 | Soundness: a match splits the document into `---`, a newline run, the block, a newline run, `---`, a newline run and the body. |
| `Documents.FrontMatterFound` | DevDotNetSdk.Templating/TemplateBase.cs:267-268 | Completeness: every document of that shape matches. |
| `Documents.TemplateBody` | DevDotNetSdk.Templating/TemplateBase.cs:112-115 | Without front matter the body is the whole document. With it, the body is what follows the closing `---` and its newline run, and does not start with a newline. |
| `Documents.SeparatorHasShape` | DevDotNetSdk.Templating/TemplateBase.cs:270-271 | A separator match from a line start is white space, `---`, then white space. |
| `Documents.FindSeparator` | DevDotNetSdk.Templating/TemplateBase.cs:270-271 | Finds the first separator match at or after `from`, or reports that there is none. |
| `Documents.SectionsTile` | DevDotNetSdk.Templating/TemplateBase.cs:116 | Sections and separators alternate, with one more section than separators. Together they rebuild the body exactly. |
| `Documents.SeparatorsHaveShape` | DevDotNetSdk.Templating/TemplateBase.cs:116 | Every text removed by the split is a separator line. |
| `Documents.SplitSections` | DevDotNetSdk.Templating/TemplateBase.cs:116 | One more section than removed separators. Interleaved with them the sections rebuild the body, and each removed piece is a separator line. |
| `Documents.SeparatorFound` | DevDotNetSdk.Templating/TemplateBase.cs:270-271 | Completeness of the separator pattern. At a line start, white space, `---` and white space running to the end of the text or to a `\n` is a match, and the match reaches at least that far. |
| `Documents.SeparatorLineNotSkipped` | DevDotNetSdk.Templating/TemplateBase.cs:116 | The split never steps over a separator line. Searching from any earlier offset finds a match that starts at or before the line. |
| `Documents.NoSeparatorOneSection` | DevDotNetSdk.Templating/TemplateBase.cs:116 | A body with no separator is one section, itself. |
| `Tokens.FindPair` | DevDotNetSdk.Templating/TemplateBase.cs:273-274 | What it finds is a `{{` (or `}}`) at or after `from`. |
| `Tokens.FindPairFirst` | DevDotNetSdk.Templating/TemplateBase.cs:273-274 | The pair found is the first at or after `from`, and when none is found there is none. |
| `Tokens.TokenizeHead` | DevDotNetSdk.Templating/TemplateBase.cs:127-135 | The scan yields no tokens exactly at the end of the text. A first literal is a non-empty prefix of the rest, and a first directive starts at a `{{`. |
| `Tokens.Scan` | DevDotNetSdk.Templating/TemplateBase.cs:273-274 | The scan of a section tiles it and meets the reference scan conditions. |
| `Tokens.TokenizeScans` | DevDotNetSdk.Templating/TemplateBase.cs:127-135 | The tokens rebuild the section exactly. Every literal is non-empty. A literal before a directive holds no `{{`, so a match starts at the leftmost one. A trailing literal holds no complete match. Every directive body stops at the first `}}`. |
| `Tokens.ScansUnique` | DevDotNetSdk.Templating/TemplateBase.cs:219-225 | Any token sequence meeting those conditions is the scan: it is determined by the section. |
| `Tokens.ScanCharacterized` | DevDotNetSdk.Templating/TemplateBase.cs:273-274 | A token sequence is the scan of a section exactly when it meets those conditions. |
| `Directives.TrimmedParts` | DevDotNetSdk.Templating/TemplateBase.cs:139 | One part per colon-separated piece, each trimmed, none removed. |
| `Directives.KeywordOf` | DevDotNetSdk.Templating/TemplateBase.cs:137-194 | Each keyword is found exactly when the trimmed text starts with it, ignoring case, and none exactly when it starts with none. |
| `Directives.KeywordsExclusive` | DevDotNetSdk.Templating/TemplateBase.cs:137-194 | No text starts with two of `include:`, `if:` and `foreach:`, so the order of the tests does not matter. |
| `Directives.SubTemplate` | DevDotNetSdk.Templating/TemplateBase.cs:160-161 | Throws not-found exactly when no source knows the type; otherwise the type of the last-added source that does. |
| `Directives.ClassifyInclude` | DevDotNetSdk.Templating/TemplateBase.cs:137-170 | Syntax error exactly for a blank argument or a part count other than 2 or 3. Otherwise it gives an include of the named type, or not-found. The path is absent exactly when missing or `this`. |
| `Directives.IncludeParts` | DevDotNetSdk.Templating/TemplateBase.cs:140-169 | The same, stated on the trimmed parts. |
| `Directives.ClassifyIf` | DevDotNetSdk.Templating/TemplateBase.cs:171-193 | Syntax error exactly for a part count other than 3 or 4. Otherwise it gives an if item with the condition, the named type and the optional path, or not-found. |
| `Directives.IfParts` | DevDotNetSdk.Templating/TemplateBase.cs:174-192 | The same, stated on the trimmed parts. |
| `Directives.ClassifyLoop` | DevDotNetSdk.Templating/TemplateBase.cs:194-214 | Syntax error exactly when the split into at most three parts gives fewer. Otherwise it gives a loop over the trimmed second part with the type named by the trimmed third part, or not-found. |
| `Directives.LoopParts` | DevDotNetSdk.Templating/TemplateBase.cs:197-213 | The same, stated on the untrimmed parts. |
| `Directives.Classify` | DevDotNetSdk.Templating/TemplateBase.cs:136-218 | A trimmed body without a keyword is exactly a variable naming that text, and never fails. One with a keyword yields that keyword's item, or a syntax error for that keyword, or not-found. |
| `Directives.ClassifyAs` | DevDotNetSdk.Templating/TemplateBase.cs:137-218 | The same, once the keyword is known. |
| `Directives.DirectiveTextParts` | DevDotNetSdk.Templating/TemplateBase.cs:139 | A directive written from trimmed, colon-free arguments splits and trims back to them and is already trimmed. |
| `Directives.IncludeReadsBack` | DevDotNetSdk.Templating/TemplateBase.cs:137-170 | Round trip: `include:Name[:path]` written from clean arguments is read back as an include of `Name`'s type with that path (`this` dropped), or not-found. |
| `Directives.IfReadsBack` | DevDotNetSdk.Templating/TemplateBase.cs:171-193 | Round trip for `if:cond:Name[:path]`. |
| `Directives.ForeachReadsBack` | DevDotNetSdk.Templating/TemplateBase.cs:194-214 | Round trip for `foreach:coll:Name`. |
| `Directives.LoopTextReadsBack` | DevDotNetSdk.Templating/TemplateBase.cs:194-214 | The same round trip for any keyword spelling the classifier reads as `foreach:`. |
| `Parsing.ClassifierNeverText` | DevDotNetSdk.Templating/TemplateBase.cs:136-218 | A directive never becomes a text item. |
| `Parsing.ParseTokens` | DevDotNetSdk.Templating/TemplateBase.cs:129-220 | Succeeds exactly when every token's item does, with one item per token in order. Otherwise it fails with the exception of the first failing token. |
| `Parsing.ParseSectionOutcome` | DevDotNetSdk.Templating/TemplateBase.cs:124-227 | Succeeds exactly when every token of the section's scan becomes an item, with one item per token. A failure comes from the first failing token, which is a directive. |
| `Parsing.ParseSections` | DevDotNetSdk.Templating/TemplateBase.cs:116-121 | Succeeds exactly when every section does; otherwise it fails with the first failing section's exception. |
| `Parsing.ParseTemplate` | DevDotNetSdk.Templating/TemplateBase.cs:109-122 | Succeeds exactly when every section of the body after the front matter parses. Otherwise it throws what the first failing section throws. |
| `Parsing.ParseTokensAppend` | DevDotNetSdk.Templating/TemplateBase.cs:124-227 | Parsing two token runs one after the other is parsing their concatenation. |
| `Parsing.SectionsAreOneStream` | DevDotNetSdk.Templating/TemplateBase.cs:116-121 | Parsing sections one by one equals parsing all their tokens as one stream: section boundaries leave no trace. |
| `Parsing.SectionItems` | DevDotNetSdk.Templating/TemplateBase.cs:124-227 | A parsed section has one item per token. Its text items are exactly its literal tokens, all non-empty, and the tokens rebuild the section. |
| `Parsing.PlainSection` | DevDotNetSdk.Templating/TemplateBase.cs:221-225 | A section without directives is no items when empty, else one text item holding it. |
| `Parsing.PlainDocument` | DevDotNetSdk.Templating/TemplateBase.cs:109-122 | A non-empty document with no front matter, separator or directive parses to one text item holding it all. |
| `Engine.NewInstance` | DevDotNetSdk.Templating/TemplateBase.cs:20-24 | A new instance has its type and no items. |
| `Engine.Instantiate` | DevDotNetSdk.Templating/TemplateBase.cs:163-169 | Each parsed item gets a fresh, unrendered sub-template instance of its type and keeps its shape. |
| `Engine.InstantiateAll` | DevDotNetSdk.Templating/TemplateBase.cs:117-121 | The items of a parse, in order, each with a fresh sub-instance. |
| `Engine.Load` | DevDotNetSdk.Templating/TemplateBase.cs:259-265 | Throws template-not-found when no source has the type name's document. Otherwise its result is the parse of that document, including the syntax error the parse throws. |
| `Engine.LoadFailureSurfaces` | DevDotNetSdk.Templating/TemplateBase.cs:28-31 | A first render throws whatever loading its template throws: template-not-found, or the syntax error in its document. |
| `Engine.ItemsFor` | DevDotNetSdk.Templating/TemplateBase.cs:28-31 | Cached items are reused. With none, the document is parsed and the items have the parse's shapes, or its exception is thrown. |
| `Engine.Wrap` | DevDotNetSdk.Templating/TemplateBase.cs:69-70 | A sub-render's exception is wrapped, and a success passes through unchanged. |
| `Engine.VariableText` | DevDotNetSdk.Templating/TemplateBase.cs:41-43 | A null value shows the directive as written. A present value shows its `ToString()` text. |
| `Engine.SubInput` | DevDotNetSdk.Templating/TemplateBase.cs:65-67 | No path gives the fallback: the input for an include, null for an if (lines 82-84). A path resolves against the input: null for a null input, and only access errors are thrown. |
| `Engine.Render` | DevDotNetSdk.Templating/TemplateBase.cs:26-58 | The instance keeps its type. Cached items keep their shapes, and fresh items are exactly the parse of its document. |
| `Engine.RenderItems` | DevDotNetSdk.Templating/TemplateBase.cs:32-56 | The items keep their shapes across a render. |
| `Engine.RenderItem` | DevDotNetSdk.Templating/TemplateBase.cs:35-55 | An item keeps its shape across a render. |
| `Engine.RenderLoop` | DevDotNetSdk.Templating/TemplateBase.cs:92-107 | The one sub-instance keeps its type and item shapes across all elements. |
| `Engine.Invoke` | DevDotNetSdk.Templating/TemplateBase.cs:69-70 | The sub-instance keeps its type and shapes. Past the nesting bound the call throws the recursion-limit exception. |
| `Evaluation.NewInstanceConsistent` | DevDotNetSdk.Templating/TemplateBase.cs:20-24 | A fresh instance has no cache to disagree with the provider. |
| `Evaluation.InstantiatedConsistent` | DevDotNetSdk.Templating/TemplateBase.cs:163-169 | Freshly attached sub-instances are consistent. |
| `Evaluation.Eval` | DevDotNetSdk.Templating/TemplateBase.cs:26-58 | The reference render throws what loading throws, and renders nothing for a template with no items. |
| `Evaluation.EvalNode` | DevDotNetSdk.Templating/TemplateBase.cs:35-55 | A text item is its text. A variable throws only access errors, and shows the directive as written for null. An if whose condition is not `true` renders nothing. A loop throws only access errors, not-a-collection, wrapped sub-render errors or the recursion bound. |
| `Evaluation.EvalEach` | DevDotNetSdk.Templating/TemplateBase.cs:101-106 | No elements render nothing. A failure is always a wrapped sub-render exception or the recursion bound. |
| `Evaluation.RenderIsEval` | DevDotNetSdk.Templating/TemplateBase.cs:26-58 | A consistent instance renders the text of a fresh look-up-and-parse evaluation, or throws the same exception. It stays consistent. |
| `Evaluation.ItemsAreEval` | DevDotNetSdk.Templating/TemplateBase.cs:32-56 | The item loop gives the concatenated reference texts of the items' shapes, or the first exception. |
| `Evaluation.ItemIsEval` | DevDotNetSdk.Templating/TemplateBase.cs:35-55 | One item renders its reference text: a variable's value or the directive as written, an if only when the condition is `true`, an include, or a loop. |
| `Evaluation.LoopIsEval` | DevDotNetSdk.Templating/TemplateBase.cs:92-107 | Reusing one sub-instance for all elements gives the concatenation of fresh evaluations, one per element in order. |
| `Evaluation.InvokeIsEval` | DevDotNetSdk.Templating/TemplateBase.cs:60-90 | A sub-template call renders its fresh evaluation, wrapped on failure. |
| `Evaluation.RenderTwice` | DevDotNetSdk.Templating/TemplateBase.cs:26-31 | A new template renders its reference text. Rendering again, with any input, the instance its first render left gives that input's reference text. |
| `Evaluation.EvalEachAppend` | DevDotNetSdk.Templating/TemplateBase.cs:101-106 | A loop over two collections in sequence gives the texts of each, concatenated, or the first failure. |
| `Evaluation.EvalFuel` | DevDotNetSdk.Templating/TemplateBase.cs:26-58 | A render that succeeds within a nesting bound gives the same text under any larger bound. |

## Left out

- `AssemblyTemplateSource`, `TemplateBuilder`, `TypeUtils` and the `*TemplateItem` records. The items are part of `Engine.Item`; the others are not part of this model.
- The static `TemplateCache` and the YAML deserializer in `TemplateBase.cs` are declared but never used by the code modelled.
- Front matter content is matched and discarded, as in the code. It is never deserialized.
- `Activator.CreateInstance` and `GetMethod("Render")` failures are left out. Every registered type is taken to be a template type with a usable constructor and `Render`.
- The argument checks of `MethodInfo.Invoke` are left out: an input of the wrong type for the sub-template's `TInput` is not modelled.
- The "did not return a valid string" checks are unreachable because `Render` never returns null, so they are left out.
- Deep or cyclic includes: the code recurses until the stack overflows. `Engine.Invoke` stops at a `fuel` bound with a recursion-limit exception instead. `Evaluation.EvalFuel` shows that extra fuel never changes a successful result.
- The state an instance is left in after an exception is left out. The model returns the exception and no instance.
- The provider is taken as fixed during a render, and sub-renders ignore the cache update of a content lookup. `Providers.LookupKeepsAnswers` shows this update changes no later answer for a coherent provider.
- Value types as type arguments of `Option`, `Result` and `Variant` are left out. Their `default` is not null, so `Unwrap` of a default value-type option would not throw.
- Reflection is abstracted. A value's public instance properties are the `properties` map of `Values.Value`, each with what reading it does: it returns a value, is an indexer, has no get accessor, shares its name with another property, or throws. Enumerability is its `elements`.
- `Values.Elements`: a string enumerates its characters as Unicode scalar values. .NET enumerates UTF-16 code units, so a character above U+FFFF is one element here and two surrogate halves there. A Dafny `char` cannot hold a lone surrogate. `Values.Elements` states that the two counts agree when every character is in the Basic Multilingual Plane.
- `Values.Value`: a `Char` value is a Unicode scalar value, not a UTF-16 code unit, for the same reason. `String.Length` is modelled in code units by `Values.Utf16Length`.
- `ToString()` of arbitrary objects is a given non-null text. Only `Boolean`, `Int32`, `Char`, `String` and `KeyValuePair` are spelled out. A `ToString()` that returns null is left out; the source renders that case as `{{expr}}` through the `??` fallback. A `ToString()` that throws is also left out.
- `Text.IntegerText`: the 32-bit range of `Int32` is not enforced. It formats under the invariant culture and always writes `-`; the current culture's negative sign (U+2212 under some cultures) is left out.
- `Text.Trim`: white space is the `Char.IsWhiteSpace` set written out. Case-insensitive keyword matching folds ASCII letters only; `OrdinalIgnoreCase` folding outside ASCII is left out.
- `Engine.Render`: its contract states only what happens to the instance. Its text is stated by `Evaluation.RenderIsEval` against the reference reading.
- `Documents.FrontMatterMatch`: it states soundness, and `Documents.FrontMatterFound` states completeness. Which match the regex picks among several is followed in the function but not stated in a contract.

## Findings

| source | as written | input that shows it | evidently intended | confidence | as-written member | corrected member |
|---|---|---|---|---|---|---|
| DevDotNetSdk/Models/Result.cs:47-52 | The private constructor of `Result<TError>` never assigns `IsOk`, so `Ok()` (which passes `true`) yields a result with `IsOk == false` and `IsError == true`. | `Result<string>.Ok()` | `Ok()` is ok, like the public parameterless constructor | high (not executed) | `Results.UnitOk` | `Results.CorrectedUnitOk` |

=== FILE: directives.dfy ===
/** Template parsing of DevDotNetSdk.Templating/TemplateBase.cs: the classification of
    each `{{ … }}` directive (`ParseSectionIntoItems`) and the whole of
    `ParseTemplate` (front matter, section split, per-section scan). A parsed item
    names its sub-template by type; the engine gives each one its own instance. */
module Directives {
  import opened Runtime
  import opened Text
  import opened Sources
  import opened Providers
  import opened Documents
  import opened Tokens

  /** The template items, before sub-template instances are attached. */
  datatype Node =
    | TextNode(text: string)
    | VariableNode(path: string)
    | IfNode(condition: string, kind: TemplateType, input: Nullable<string>)
    | IncludeNode(kind: TemplateType, input: Nullable<string>)
    | LoopNode(collection: string, kind: TemplateType)

  /** `Split(':', StringSplitOptions.TrimEntries)`: every part trimmed, none removed. */
  function TrimmedParts(e: string): (parts: seq<string>)
    ensures |parts| == |Split(e, ':')|
    ensures forall i :: 0 <= i < |parts| ==> parts[i] == Trim(Split(e, ':')[i])
  {
    var raw := Split(e, ':');
    seq(|raw|, i requires 0 <= i < |raw| => Trim(raw[i]))
  }

  /** The provider's type for a sub-template name, or the not-found error. */
  function SubTemplate(p: Provider, name: string): (r: Outcome<TemplateType>)
    ensures r.Thrown? <==> forall i :: 0 <= i < |p.sources| ==> !KnowsType(p.sources[i], name)
    ensures r.Thrown? ==> r.error == SubTemplateNotFound(name)
    ensures r.Done? ==> exists i :: TypeWinner(p.sources, name, i) && NonNull(r.value) == TryGetTemplateType(p.sources[i], name)
  {
    match GetTemplateType(p, name)
    case Null => Thrown(SubTemplateNotFound(name))
    case NonNull(t) => Done(t)
  }

  /** Some part after the keyword is blank. */
  predicate BlankArgument(parts: seq<string>) {
    exists i :: 1 <= i < |parts| && AllWhiteSpace(parts[i])
  }

  /** An `include:` directive: `include:Name` or `include:Name:path`, every part
      trimmed; the path `this` means the current input. */
  function ClassifyInclude(e: string, p: Provider): (r: Outcome<Node>)
    ensures r.Thrown? && r.error.InvalidSyntax? <==>
      BlankArgument(TrimmedParts(e)) || |Split(e, ':')| < 2 || |Split(e, ':')| > 3
    ensures r.Thrown? && r.error.InvalidSyntax? ==> r.error == InvalidSyntax(IncludeKeyword, e)
    ensures r.Thrown? && !r.error.InvalidSyntax? ==> r.error == SubTemplateNotFound(TrimmedParts(e)[1])
    ensures r.Done? ==> r.value.IncludeNode? && NonNull(r.value.kind) == GetTemplateType(p, TrimmedParts(e)[1])
    ensures r.Done? ==> (r.value.input.Null? <==> |Split(e, ':')| == 2 || TrimmedParts(e)[2] == "this")
    ensures r.Done? && r.value.input.NonNull? ==> r.value.input.value == TrimmedParts(e)[2]
  {
    IncludeParts(TrimmedParts(e), e, p)
  }

  /** The include classification once the directive is split into trimmed parts. */
  function IncludeParts(parts: seq<string>, e: string, p: Provider): (r: Outcome<Node>)
    ensures r.Thrown? && r.error.InvalidSyntax? <==> BlankArgument(parts) || |parts| < 2 || |parts| > 3
    ensures r.Thrown? && r.error.InvalidSyntax? ==> r.error == InvalidSyntax(IncludeKeyword, e)
    ensures r.Thrown? && !r.error.InvalidSyntax? ==> r.error == SubTemplateNotFound(parts[1])
    ensures r.Done? ==> r.value.IncludeNode? && NonNull(r.value.kind) == GetTemplateType(p, parts[1])
    ensures r.Done? ==> (r.value.input.Null? <==> |parts| == 2 || parts[2] == "this")
    ensures r.Done? && r.value.input.NonNull? ==> r.value.input.value == parts[2]
  {
    if BlankArgument(parts) then Thrown(InvalidSyntax(IncludeKeyword, e))
    else if |parts| < 2 || |parts| > 3 then Thrown(InvalidSyntax(IncludeKeyword, e))
    else
      var input := if |parts| == 3 && parts[2] != "this" then NonNull(parts[2]) else Null;
      var t :- SubTemplate(p, parts[1]);
      Done(IncludeNode(t, input))
  }

  /** An `if:` directive: `if:condition:Name` or `if:condition:Name:path`, every
      part trimmed; blank parts are not rejected. */
  function ClassifyIf(e: string, p: Provider): (r: Outcome<Node>)
    ensures r.Thrown? && r.error.InvalidSyntax? <==> |Split(e, ':')| < 3 || |Split(e, ':')| > 4
    ensures r.Thrown? && r.error.InvalidSyntax? ==> r.error == InvalidSyntax(IfKeyword, e)
    ensures r.Thrown? && !r.error.InvalidSyntax? ==> r.error == SubTemplateNotFound(TrimmedParts(e)[2])
    ensures r.Done? ==> r.value.IfNode? && r.value.condition == TrimmedParts(e)[1]
    ensures r.Done? ==> NonNull(r.value.kind) == GetTemplateType(p, TrimmedParts(e)[2])
    ensures r.Done? ==> (r.value.input.Null? <==> |Split(e, ':')| == 3)
    ensures r.Done? && r.value.input.NonNull? ==> r.value.input.value == TrimmedParts(e)[3]
  {
    IfParts(TrimmedParts(e), e, p)
  }

  /** The if classification once the directive is split into trimmed parts. */
  function IfParts(parts: seq<string>, e: string, p: Provider): (r: Outcome<Node>)
    ensures r.Thrown? && r.error.InvalidSyntax? <==> |parts| < 3 || |parts| > 4
    ensures r.Thrown? && r.error.InvalidSyntax? ==> r.error == InvalidSyntax(IfKeyword, e)
    ensures r.Thrown? && !r.error.InvalidSyntax? ==> r.error == SubTemplateNotFound(parts[2])
    ensures r.Done? ==> r.value.IfNode? && r.value.condition == parts[1]
    ensures r.Done? ==> NonNull(r.value.kind) == GetTemplateType(p, parts[2])
    ensures r.Done? ==> (r.value.input.Null? <==> |parts| == 3)
    ensures r.Done? && r.value.input.NonNull? ==> r.value.input.value == parts[3]
  {
    if |parts| < 3 || |parts| > 4 then Thrown(InvalidSyntax(IfKeyword, e))
    else
      var t :- SubTemplate(p, parts[2]);
      Done(IfNode(parts[1], t, if |parts| == 4 then NonNull(parts[3]) else Null))
  }

  /** A `foreach:` directive: split into at most three parts, so the name part keeps
      any further `:`; only the collection and the name are trimmed. */
  function ClassifyLoop(e: string, p: Provider): (r: Outcome<Node>)
    ensures r.Thrown? && r.error.InvalidSyntax? <==> |SplitN(e, ':', 3)| < 3
    ensures r.Thrown? && r.error.InvalidSyntax? ==> r.error == InvalidSyntax(ForeachKeyword, e)
    ensures r.Thrown? && !r.error.InvalidSyntax? ==> r.error == SubTemplateNotFound(Trim(SplitN(e, ':', 3)[2]))
    ensures r.Done? ==> r.value.LoopNode? && r.value.collection == Trim(SplitN(e, ':', 3)[1])
    ensures r.Done? ==> NonNull(r.value.kind) == GetTemplateType(p, Trim(SplitN(e, ':', 3)[2]))
  {
    LoopParts(SplitN(e, ':', 3), e, p)
  }

  /** The foreach classification once the directive is split into at most three
      untrimmed parts. */
  function LoopParts(parts: seq<string>, e: string, p: Provider): (r: Outcome<Node>)
    ensures r.Thrown? && r.error.InvalidSyntax? <==> |parts| != 3
    ensures r.Thrown? && r.error.InvalidSyntax? ==> r.error == InvalidSyntax(ForeachKeyword, e)
    ensures r.Thrown? && !r.error.InvalidSyntax? ==> r.error == SubTemplateNotFound(Trim(parts[2]))
    ensures r.Done? ==> r.value.LoopNode? && r.value.collection == Trim(parts[1])
    ensures r.Done? ==> NonNull(r.value.kind) == GetTemplateType(p, Trim(parts[2]))
  {
    if |parts| != 3 then Thrown(InvalidSyntax(ForeachKeyword, e))
    else
      var t :- SubTemplate(p, Trim(parts[2]));
      Done(LoopNode(Trim(parts[1]), t))
  }

  /** The keyword a trimmed directive starts with, ignoring ASCII case, tried in
      the order `include:`, `if:`, `foreach:`. No text starts with two of them, so
      the order does not matter: each keyword is found exactly when the text starts
      with it. */
  function KeywordOf(e: string): (r: Nullable<Keyword>)
    ensures r == NonNull(IncludeKeyword) <==> StartsWithIgnoreCase(e, "include:")
    ensures r == NonNull(IfKeyword) <==> StartsWithIgnoreCase(e, "if:")
    ensures r == NonNull(ForeachKeyword) <==> StartsWithIgnoreCase(e, "foreach:")
    ensures r.Null? <==>
      !StartsWithIgnoreCase(e, "include:") && !StartsWithIgnoreCase(e, "if:") && !StartsWithIgnoreCase(e, "foreach:")
  {
    KeywordsExclusive(e);
    if StartsWithIgnoreCase(e, "include:") then NonNull(IncludeKeyword)
    else if StartsWithIgnoreCase(e, "if:") then NonNull(IfKeyword)
    else if StartsWithIgnoreCase(e, "foreach:") then NonNull(ForeachKeyword)
    else Null
  }

  /** The three keywords differ in their first two letters whatever the case. */
  lemma KeywordsExclusive(e: string)
    ensures !(StartsWithIgnoreCase(e, "include:") && StartsWithIgnoreCase(e, "if:"))
    ensures !(StartsWithIgnoreCase(e, "include:") && StartsWithIgnoreCase(e, "foreach:"))
    ensures !(StartsWithIgnoreCase(e, "if:") && StartsWithIgnoreCase(e, "foreach:"))
  {
    if StartsWithIgnoreCase(e, "include:") {
      assert ToUpperAscii(e[1]) == ToUpperAscii("include:"[1]);
    }
    if StartsWithIgnoreCase(e, "foreach:") {
      assert ToUpperAscii(e[0]) == ToUpperAscii("foreach:"[0]);
    }
  }

  /** One directive: the body is trimmed and classified by its keyword; anything
      without one is a variable path. A directive without a keyword is a variable
      naming its trimmed text and never fails; one with a keyword yields the item of
      that keyword or fails with a syntax error for that keyword or a not-found
      sub-template. */
  function Classify(body: string, p: Provider): (r: Outcome<Node>)
    ensures KeywordOf(Trim(body)).Null? <==> r == Done(VariableNode(Trim(body)))
    ensures KeywordOf(Trim(body)) == NonNull(IncludeKeyword) && r.Done? ==> r.value.IncludeNode?
    ensures KeywordOf(Trim(body)) == NonNull(IfKeyword) && r.Done? ==> r.value.IfNode?
    ensures KeywordOf(Trim(body)) == NonNull(ForeachKeyword) && r.Done? ==> r.value.LoopNode?
    ensures r.Thrown? ==> r.error == InvalidSyntax(KeywordOf(Trim(body)).value, Trim(body)) || r.error.SubTemplateNotFound?
  {
    ClassifyAs(KeywordOf(Trim(body)), Trim(body), p)
  }

  /** The classification of a trimmed directive `e` once its keyword is known. */
  function ClassifyAs(keyword: Nullable<Keyword>, e: string, p: Provider): (r: Outcome<Node>)
    ensures keyword.Null? <==> r == Done(VariableNode(e))
    ensures keyword == NonNull(IncludeKeyword) && r.Done? ==> r.value.IncludeNode?
    ensures keyword == NonNull(IfKeyword) && r.Done? ==> r.value.IfNode?
    ensures keyword == NonNull(ForeachKeyword) && r.Done? ==> r.value.LoopNode?
    ensures r.Thrown? ==> r.error == InvalidSyntax(keyword.value, e) || r.error.SubTemplateNotFound?
  {
    match keyword
    case Null => Done(VariableNode(e))
    case NonNull(IncludeKeyword) => ClassifyInclude(e, p)
    case NonNull(IfKeyword) => ClassifyIf(e, p)
    case NonNull(ForeachKeyword) => ClassifyLoop(e, p)
  }

  /** A string made of a prefix and more starts with that prefix in any case. */
  lemma StartsWithPrefix(e: string, prefix: string, rest: string)
    requires e == prefix + rest
    ensures StartsWithIgnoreCase(e, prefix)
  {
    assert forall i :: 0 <= i < |prefix| ==> e[i] == prefix[i];
  }

  /** The directive text a template author writes for each item: the keyword and
      the arguments joined with `:`. */
  function DirectiveText(keyword: string, arguments: seq<string>): string {
    Join([keyword] + arguments, ':')
  }

  function OptionalPath(input: Nullable<string>): seq<string> {
    if input.NonNull? then [input.value] else []
  }

  function IncludeText(name: string, input: Nullable<string>): string {
    DirectiveText("include", [name] + OptionalPath(input))
  }

  function IfText(condition: string, name: string, input: Nullable<string>): string {
    DirectiveText("if", [condition, name] + OptionalPath(input))
  }

  function ForeachText(collection: string, name: string): string {
    DirectiveText("foreach", [collection, name])
  }

  /** A directive argument as written: no `:` and no white space at either end. */
  predicate Argument(a: string) {
    ':' !in a && (a == [] || (!IsWhiteSpace(a[0]) && !IsWhiteSpace(a[|a| - 1])))
  }

  lemma NoBlankArgument(parts: seq<string>)
    requires forall i :: 1 <= i < |parts| ==> Argument(parts[i]) && parts[i] != []
    ensures !BlankArgument(parts)
  {
    forall i | 1 <= i < |parts|
      ensures !AllWhiteSpace(parts[i])
    {
      assert !IsWhiteSpace(parts[i][0]);
    }
  }

  /** A written directive starts with its keyword and a colon, and splits back into
      its keyword and arguments. */
  lemma DirectiveTextParts(keyword: string, arguments: seq<string>)
    requires |arguments| >= 1 && Argument(keyword) && keyword != []
    requires forall i :: 0 <= i < |arguments| ==> Argument(arguments[i]) && arguments[i] != []
    ensures Split(DirectiveText(keyword, arguments), ':') == [keyword] + arguments
    ensures TrimmedParts(DirectiveText(keyword, arguments)) == [keyword] + arguments
    ensures Trim(DirectiveText(keyword, arguments)) == DirectiveText(keyword, arguments)
  {
    var parts := [keyword] + arguments;
    PartsAreArguments(keyword, arguments);
    SplitJoin(parts, ':');
    TrimmedPartsOfArguments(DirectiveText(keyword, arguments), parts);
    DirectiveTextTrimmed(keyword, arguments);
  }

  lemma PartsAreArguments(keyword: string, arguments: seq<string>)
    requires Argument(keyword)
    requires forall i :: 0 <= i < |arguments| ==> Argument(arguments[i])
    ensures forall i :: 0 <= i < |[keyword] + arguments| ==> Argument(([keyword] + arguments)[i])
  {
    forall i | 0 <= i < |[keyword] + arguments|
      ensures Argument(([keyword] + arguments)[i])
    {
      if i > 0 {
        assert ([keyword] + arguments)[i] == arguments[i - 1];
      }
    }
  }

  /** Parts that are all arguments are left as they are by the trimming split. */
  lemma TrimmedPartsOfArguments(e: string, parts: seq<string>)
    requires Split(e, ':') == parts
    requires forall i :: 0 <= i < |parts| ==> Argument(parts[i])
    ensures TrimmedParts(e) == parts
  {
    var t := TrimmedParts(e);
    forall i | 0 <= i < |parts|
      ensures t[i] == parts[i]
    {
      var a := parts[i];
      assert Argument(a);
      TrimOfTrimmed(a);
    }
  }

  /** A directive text begins with its keyword and ends with its last argument,
      so trimming leaves it alone. */
  lemma DirectiveTextTrimmed(keyword: string, arguments: seq<string>)
    requires |arguments| >= 1 && Argument(keyword) && keyword != []
    requires Argument(arguments[|arguments| - 1]) && arguments[|arguments| - 1] != []
    ensures Trim(DirectiveText(keyword, arguments)) == DirectiveText(keyword, arguments)
  {
    var e := DirectiveText(keyword, arguments);
    var parts := [keyword] + arguments;
    assert parts[1..] == arguments;
    assert e == keyword + [':'] + Join(arguments, ':');
    LastOfJoin(arguments, ':');
    assert e[0] == keyword[0];
    assert e[|e| - 1] == Join(arguments, ':')[|Join(arguments, ':')| - 1];
    TrimOfTrimmed(e);
  }

  /** The last character of a join is that of the last part, when it has one. */
  lemma {:induction false} LastOfJoin(parts: seq<string>, sep: char)
    requires |parts| >= 1 && parts[|parts| - 1] != []
    ensures var j := Join(parts, sep); |j| > 0 && j[|j| - 1] == parts[|parts| - 1][|parts[|parts| - 1]| - 1]
  {
    if |parts| > 1 {
      LastOfJoin(parts[1..], sep);
    }
  }

  lemma IncludeKeywordOf(name: string, input: Nullable<string>)
    ensures KeywordOf(IncludeText(name, input)) == NonNull(IncludeKeyword)
  {
    var arguments := [name] + OptionalPath(input);
    assert ([ "include"] + arguments)[1..] == arguments;
    StartsWithPrefix(IncludeText(name, input), "include:", Join(arguments, ':'));
  }

  lemma IfKeywordOf(condition: string, name: string, input: Nullable<string>)
    ensures KeywordOf(IfText(condition, name, input)) == NonNull(IfKeyword)
  {
    var arguments := [condition, name] + OptionalPath(input);
    var e := IfText(condition, name, input);
    assert (["if"] + arguments)[1..] == arguments;
    StartsWithPrefix(e, "if:", Join(arguments, ':'));
    assert !StartsWithIgnoreCase(e, "include:") by {
      if |e| >= 8 {
        assert ToUpperAscii(e[1]) != ToUpperAscii("include:"[1]);
      }
    }
  }

  lemma ForeachKeywordOf(collection: string, name: string)
    ensures KeywordOf(ForeachText(collection, name)) == NonNull(ForeachKeyword)
  {
    var arguments := [collection, name];
    var e := ForeachText(collection, name);
    assert (["foreach"] + arguments)[1..] == arguments;
    StartsWithPrefix(e, "foreach:", Join(arguments, ':'));
    assert !StartsWithIgnoreCase(e, "include:") by {
      assert ToUpperAscii(e[0]) != ToUpperAscii("include:"[0]);
    }
    assert !StartsWithIgnoreCase(e, "if:") by {
      assert ToUpperAscii(e[0]) != ToUpperAscii("if:"[0]);
    }
  }

  /** An include written with a non-blank name and path reads back as the include
      of that name's type with that path, except that the path `this` reads back as
      no path; a name the provider does not know reads back as not found. */
  lemma IncludeReadsBack(name: string, input: Nullable<string>, p: Provider)
    requires Argument(name) && name != []
    requires input.NonNull? ==> Argument(input.value) && input.value != []
    ensures var r := Classify(IncludeText(name, input), p);
      && (GetTemplateType(p, name).NonNull? ==>
            r == Done(IncludeNode(GetTemplateType(p, name).value,
                                  if input.NonNull? && input.value != "this" then input else Null)))
      && (GetTemplateType(p, name).Null? ==> r == Thrown(SubTemplateNotFound(name)))
  {
    var e := IncludeText(name, input);
    var parts := ["include"] + ([name] + OptionalPath(input));
    assert Trim(e) == e && TrimmedParts(e) == parts by {
      DirectiveTextParts("include", [name] + OptionalPath(input));
    }
    assert Classify(e, p) == IncludeParts(parts, e, p) by {
      IncludeKeywordOf(name, input);
      Dispatch(e, p);
    }
    IncludeOutcome(parts, e, name, input, p);
  }

  /** An if written with non-blank parts reads back as the if of that condition,
      that name's type and that path. */
  lemma IfReadsBack(condition: string, name: string, input: Nullable<string>, p: Provider)
    requires Argument(condition) && condition != [] && Argument(name) && name != []
    requires input.NonNull? ==> Argument(input.value) && input.value != []
    ensures var r := Classify(IfText(condition, name, input), p);
      && (GetTemplateType(p, name).NonNull? ==> r == Done(IfNode(condition, GetTemplateType(p, name).value, input)))
      && (GetTemplateType(p, name).Null? ==> r == Thrown(SubTemplateNotFound(name)))
  {
    var e := IfText(condition, name, input);
    var parts := ["if"] + ([condition, name] + OptionalPath(input));
    assert Trim(e) == e && TrimmedParts(e) == parts by {
      DirectiveTextParts("if", [condition, name] + OptionalPath(input));
    }
    assert Classify(e, p) == IfParts(parts, e, p) by {
      IfKeywordOf(condition, name, input);
      Dispatch(e, p);
    }
    IfOutcome(parts, e, condition, name, input, p);
  }

  /** A foreach written with a non-blank collection and name reads back as the loop
      over that collection with that name's type. */
  lemma ForeachReadsBack(collection: string, name: string, p: Provider)
    requires Argument(collection) && collection != [] && Argument(name) && name != []
    ensures var r := Classify(ForeachText(collection, name), p);
      && (GetTemplateType(p, name).NonNull? ==> r == Done(LoopNode(collection, GetTemplateType(p, name).value)))
      && (GetTemplateType(p, name).Null? ==> r == Thrown(SubTemplateNotFound(name)))
  {
    ForeachKeywordOf(collection, name);
    LoopTextReadsBack("foreach", collection, name, p);
  }

  /** `ForeachReadsBack` for whichever keyword text classifies as a foreach. */
  lemma LoopTextReadsBack(keyword: string, collection: string, name: string, p: Provider)
    requires Argument(keyword) && keyword != []
    requires Argument(collection) && collection != [] && Argument(name) && name != []
    requires KeywordOf(DirectiveText(keyword, [collection, name])) == NonNull(ForeachKeyword)
    ensures var r := Classify(DirectiveText(keyword, [collection, name]), p);
      && (GetTemplateType(p, name).NonNull? ==> r == Done(LoopNode(collection, GetTemplateType(p, name).value)))
      && (GetTemplateType(p, name).Null? ==> r == Thrown(SubTemplateNotFound(name)))
  {
    var e := DirectiveText(keyword, [collection, name]);
    var parts := SplitN(e, ':', 3);
    assert Trim(e) == e by {
      DirectiveTextTrimmed(keyword, [collection, name]);
    }
    assert Classify(e, p) == LoopParts(parts, e, p) by {
      Dispatch(e, p);
    }
    assert parts == [keyword, collection, name] by {
      TwoArgumentsSplit(keyword, collection, name);
    }
    LoopOutcome(keyword, collection, name, e, p);
  }

  /** A directive of two arguments splits back into them under a split of at most
      three parts too. */
  lemma TwoArgumentsSplit(keyword: string, first: string, second: string)
    requires Argument(keyword) && Argument(first)
    ensures SplitN(DirectiveText(keyword, [first, second]), ':', 3) == [keyword, first, second]
  {
    var parts := [keyword] + [first, second];
    assert parts == [keyword, first, second];
    SplitNJoin(parts, ':', 3);
  }

  /** A directive already trimmed goes to the classifier of its keyword. */
  lemma Dispatch(e: string, p: Provider)
    requires Trim(e) == e
    ensures KeywordOf(e) == NonNull(IncludeKeyword) ==> Classify(e, p) == IncludeParts(TrimmedParts(e), e, p)
    ensures KeywordOf(e) == NonNull(IfKeyword) ==> Classify(e, p) == IfParts(TrimmedParts(e), e, p)
    ensures KeywordOf(e) == NonNull(ForeachKeyword) ==> Classify(e, p) == LoopParts(SplitN(e, ':', 3), e, p)
  {
    match KeywordOf(e)
    case Null =>
    case NonNull(IncludeKeyword) =>
      assert Classify(e, p) == ClassifyInclude(e, p);
    case NonNull(IfKeyword) =>
      assert Classify(e, p) == ClassifyIf(e, p);
    case NonNull(ForeachKeyword) =>
      assert Classify(e, p) == ClassifyLoop(e, p);
  }

  lemma IncludeOutcome(parts: seq<string>, e: string, name: string, input: Nullable<string>, p: Provider)
    requires parts == ["include"] + ([name] + OptionalPath(input))
    requires name != [] && Argument(name) && (input.NonNull? ==> Argument(input.value) && input.value != [])
    ensures GetTemplateType(p, name).NonNull? ==>
      IncludeParts(parts, e, p) == Done(IncludeNode(GetTemplateType(p, name).value,
                                                    if input.NonNull? && input.value != "this" then input else Null))
    ensures GetTemplateType(p, name).Null? ==> IncludeParts(parts, e, p) == Thrown(SubTemplateNotFound(name))
  {
    NoBlankArgument(parts);
  }

  lemma IfOutcome(parts: seq<string>, e: string, condition: string, name: string, input: Nullable<string>, p: Provider)
    requires parts == ["if"] + ([condition, name] + OptionalPath(input))
    ensures GetTemplateType(p, name).NonNull? ==>
      IfParts(parts, e, p) == Done(IfNode(condition, GetTemplateType(p, name).value, input))
    ensures GetTemplateType(p, name).Null? ==> IfParts(parts, e, p) == Thrown(SubTemplateNotFound(name))
  {
  }

  lemma LoopOutcome(keyword: string, collection: string, name: string, e: string, p: Provider)
    requires Argument(collection) && Argument(name)
    ensures GetTemplateType(p, name).NonNull? ==>
      LoopParts([keyword, collection, name], e, p) == Done(LoopNode(collection, GetTemplateType(p, name).value))
    ensures GetTemplateType(p, name).Null? ==> LoopParts([keyword, collection, name], e, p) == Thrown(SubTemplateNotFound(name))
  {
    var parts := [keyword, collection, name];
    assert parts[1] == collection && parts[2] == name;
    TrimOfTrimmed(collection);
    TrimOfTrimmed(name);
    LoopOfThree(parts, e, p);
  }

  /** Three parts: the loop item, or the not-found error for the trimmed name. */
  lemma LoopOfThree(parts: seq<string>, e: string, p: Provider)
    requires |parts| == 3
    ensures GetTemplateType(p, Trim(parts[2])).NonNull? ==>
      LoopParts(parts, e, p) == Done(LoopNode(Trim(parts[1]), GetTemplateType(p, Trim(parts[2])).value))
    ensures GetTemplateType(p, Trim(parts[2])).Null? ==> LoopParts(parts, e, p) == Thrown(SubTemplateNotFound(Trim(parts[2])))
  {
  }
}

=== FILE: documents.dfy ===
/** The document-level scanners of `ParseTemplate` (DevDotNetSdk.Templating/TemplateBase.cs):
    the front-matter pattern `^---[\r\n]+(.*?)[\r\n]+---[\r\n]+(.*)$` (single-line
    mode) and the section separator `^\s*---\s*$` (multi-line mode) used with
    `Regex.Split`. Both are written as explicit scanners that follow the .NET
    backtracking order. */
module Documents {
  import opened Runtime
  import opened Text

  predicate IsNewline(c: char) {
    c == '\r' || c == '\n'
  }

  /** A non-empty run of `[\r\n]`. */
  predicate NewlineRun(t: string) {
    |t| > 0 && forall i :: 0 <= i < |t| ==> IsNewline(t[i])
  }

  predicate DashesAt(s: string, i: nat) {
    i + 3 <= |s| && s[i] == '-' && s[i + 1] == '-' && s[i + 2] == '-'
  }

  lemma DashesText(s: string, i: nat)
    requires DashesAt(s, i)
    ensures s[i..i + 3] == "---"
  {
    var t := s[i..i + 3];
    assert |t| == 3 && t[0] == '-' && t[1] == '-' && t[2] == '-';
  }

  lemma DashesFromText(s: string, i: nat)
    requires i + 3 <= |s| && s[i..i + 3] == "---"
    ensures DashesAt(s, i)
  {
    var w := s[i..i + 3];
    assert s[i] == w[0] && s[i + 1] == w[1] && s[i + 2] == w[2];
  }

  /** The end of the longest `[\r\n]` run starting at `i`. */
  function NewlineRunEnd(s: string, i: nat): (e: nat)
    requires i <= |s|
    ensures i <= e <= |s|
    ensures forall k :: i <= k < e ==> IsNewline(s[k])
    ensures e == |s| || !IsNewline(s[e])
    decreases |s| - i
  {
    if i < |s| && IsNewline(s[i]) then NewlineRunEnd(s, i + 1) else i
  }

  /** Starting anywhere inside a run leads to the same end. */
  lemma NewlineRunEndInside(s: string, i: nat, j: nat)
    requires i <= |s| && i <= j <= NewlineRunEnd(s, i)
    ensures NewlineRunEnd(s, j) == NewlineRunEnd(s, i)
  {
  }

  /** `[\r\n]+---[\r\n]` matches at `j`, the greedy newline run being the only
      choice that can be followed by `---`. */
  predicate ClosingAt(s: string, j: nat)
    requires j <= |s|
  {
    && j < |s| && IsNewline(s[j])
    && var e := NewlineRunEnd(s, j);
    && DashesAt(s, e) && e + 3 < |s| && IsNewline(s[e + 3])
  }

  /** The lazy block: the first position from `j` where the closing delimiter matches. */
  function FindClosing(s: string, j: nat): (r: Nullable<nat>)
    requires j <= |s|
    ensures r.NonNull? ==> j <= r.value < |s| && ClosingAt(s, r.value)
    ensures r.NonNull? ==> forall k :: j <= k < r.value ==> !ClosingAt(s, k)
    ensures r.Null? ==> forall k :: j <= k <= |s| ==> !ClosingAt(s, k)
    decreases |s| - j
  {
    if j >= |s| then Null
    else if ClosingAt(s, j) then NonNull(j)
    else FindClosing(s, j + 1)
  }

  /** A front-matter match, cut into the pieces the pattern matched: the newline
      runs after the opening delimiter, before and after the closing one, group 1
      (`block`) and group 2 (`body`). */
  datatype FrontMatter = FrontMatter(opening: string, block: string, closing: string, trailing: string, body: string)

  /** The match whose opening run ends at `b` and whose closing run starts at `j`. */
  function Cut(s: string, b: nat, j: nat): (m: FrontMatter)
    requires 3 < b <= j < |s| && ClosingAt(s, j)
    requires DashesAt(s, 0) && forall k :: 3 <= k < b ==> IsNewline(s[k])
    ensures s == "---" + m.opening + m.block + m.closing + "---" + m.trailing + m.body
    ensures NewlineRun(m.opening) && NewlineRun(m.closing) && NewlineRun(m.trailing)
    ensures m.body == [] || !IsNewline(m.body[0])
  {
    var e := NewlineRunEnd(s, j);
    var f := NewlineRunEnd(s, e + 3);
    var m := FrontMatter(s[3..b], s[b..j], s[j..e], s[e + 3..f], s[f..]);
    assert s[..3] == "---" && s[e..e + 3] == "---" by {
      DashesText(s, 0);
      DashesText(s, e);
      assert s[..3] == s[0..3];
    }
    JoinSeven(s, 3, b, j, e, e + 3, f, "---", m.opening, m.block, m.closing, "---", m.trailing, m.body);
    RunSlice(s, 3, b);
    RunSlice(s, j, e);
    RunSlice(s, e + 3, f);
    assert m.body == [] || m.body[0] == s[f];
    m
  }

  lemma RunSlice(s: string, i: nat, e: nat)
    requires i < e <= |s| && forall k :: i <= k < e ==> IsNewline(s[k])
    ensures NewlineRun(s[i..e])
  {
    forall n | 0 <= n < e - i
      ensures IsNewline(s[i..e][n])
    {
      assert s[i..e][n] == s[i + n];
    }
  }

  /** `FrontMatterRegex().Match(document)`. The opening run is first taken whole
      and the block grown one character at a time; only when that finds no closing
      delimiter does the opening run give back a character, which can succeed only
      with an empty block right before `---`. */
  function FrontMatterMatch(s: string): (r: Nullable<FrontMatter>)
    ensures r.NonNull? ==> s == "---" + r.value.opening + r.value.block + r.value.closing + "---" + r.value.trailing + r.value.body
    ensures r.NonNull? ==> NewlineRun(r.value.opening) && NewlineRun(r.value.closing) && NewlineRun(r.value.trailing)
    ensures r.NonNull? ==> r.value.body == [] || !IsNewline(r.value.body[0])
  {
    if !(DashesAt(s, 0) && 3 < |s| && IsNewline(s[3])) then Null
    else
      var e0 := NewlineRunEnd(s, 3);
      match FindClosing(s, e0)
      case NonNull(j) => NonNull(Cut(s, e0, j))
      case Null =>
        if e0 - 3 >= 2 && ClosingAt(s, e0 - 1) then NonNull(Cut(s, e0 - 1, e0 - 1)) else Null
  }

  /** Every document of the front-matter shape matches: the shape is also
      sufficient, whatever the block holds. */
  lemma FrontMatterFound(s: string, opening: string, block: string, closing: string, trailing: string, body: string)
    requires NewlineRun(opening) && NewlineRun(closing) && NewlineRun(trailing)
    requires s == "---" + opening + block + closing + "---" + trailing + body
    ensures FrontMatterMatch(s).NonNull?
  {
    var j0 := 3 + |opening| + |block|;
    FrontMatterShape(s, opening, block, closing, trailing, body);
    MatchFromClosing(s, j0);
  }

  /** Where the pieces of a front-matter shaped document sit. */
  lemma FrontMatterShape(s: string, opening: string, block: string, closing: string, trailing: string, body: string)
    requires NewlineRun(opening) && NewlineRun(closing) && NewlineRun(trailing)
    requires s == "---" + opening + block + closing + "---" + trailing + body
    ensures DashesAt(s, 0) && 3 < |s| && IsNewline(s[3])
    ensures 3 < 3 + |opening| + |block| < |s| && ClosingAt(s, 3 + |opening| + |block|)
  {
    var j0 := 3 + |opening| + |block|;
    var c := j0 + |closing|;
    PiecesAt(s, "---", opening, block, closing, "---", trailing, body, 3, 3 + |opening|, j0, c, c + 3);
    assert s[0] == '-' && s[1] == '-' && s[2] == '-' && s[c] == '-' && s[c + 1] == '-' && s[c + 2] == '-';
    assert s[3] == opening[0] && s[c + 3] == trailing[0];
    assert NewlineRunEnd(s, j0) == c;
  }

  /** Where each of seven concatenated pieces sits. */
  lemma PiecesAt<T>(s: seq<T>, x1: seq<T>, x2: seq<T>, x3: seq<T>, x4: seq<T>, x5: seq<T>, x6: seq<T>, x7: seq<T>,
                    i2: nat, i3: nat, i4: nat, i5: nat, i6: nat)
    requires s == x1 + x2 + x3 + x4 + x5 + x6 + x7
    requires i2 == |x1| && i3 == i2 + |x2| && i4 == i3 + |x3| && i5 == i4 + |x4| && i6 == i5 + |x5|
    ensures |s| == i6 + |x6| + |x7|
    ensures forall k :: 0 <= k < i2 ==> s[k] == x1[k]
    ensures forall k :: i2 <= k < i3 ==> s[k] == x2[k - i2]
    ensures forall k :: i4 <= k < i5 ==> s[k] == x4[k - i4]
    ensures forall k :: i5 <= k < i6 ==> s[k] == x5[k - i5]
    ensures forall k :: i6 <= k < i6 + |x6| ==> s[k] == x6[k - i6]
  {
  }

  /** A closing delimiter after the opening one is enough for the pattern to match. */
  lemma MatchFromClosing(s: string, j0: nat)
    requires DashesAt(s, 0) && 3 < |s| && IsNewline(s[3])
    requires 3 < j0 < |s| && ClosingAt(s, j0)
    ensures FrontMatterMatch(s).NonNull?
  {
    var e0 := NewlineRunEnd(s, 3);
    if j0 < e0 {
      NewlineRunEndInside(s, 3, j0);
      NewlineRunEndInside(s, 3, e0 - 1);
      assert ClosingAt(s, e0 - 1);
    }
  }

  /** The text `ParseTemplate` goes on to parse: group 2 after front matter,
      otherwise the whole document. */
  function TemplateBody(s: string): (r: string)
    ensures FrontMatterMatch(s).Null? ==> r == s
    ensures FrontMatterMatch(s).NonNull? ==>
      var m := FrontMatterMatch(s).value;
      && s == "---" + m.opening + m.block + m.closing + "---" + m.trailing + r
      && (r == [] || !IsNewline(r[0]))
  {
    match FrontMatterMatch(s)
    case NonNull(m) => m.body
    case Null => s
  }

  /** `^` in multi-line mode. */
  predicate AtLineStart(s: string, p: nat)
    requires p <= |s|
  {
    p == 0 || s[p - 1] == '\n'
  }

  /** The end of the longest `\s` run starting at `i`. */
  function SpaceRunEnd(s: string, i: nat): (e: nat)
    requires i <= |s|
    ensures i <= e <= |s|
    ensures forall k :: i <= k < e ==> IsWhiteSpace(s[k])
    ensures e == |s| || !IsWhiteSpace(s[e])
    decreases |s| - i
  {
    if i < |s| && IsWhiteSpace(s[i]) then SpaceRunEnd(s, i + 1) else i
  }

  /** The last `\n` in `s[lo..hi]`. */
  function LastNewline(s: string, lo: nat, hi: nat): (r: Nullable<nat>)
    requires lo <= hi <= |s|
    ensures r.NonNull? ==> lo <= r.value < hi && s[r.value] == '\n'
    ensures r.NonNull? ==> forall k :: r.value < k < hi ==> s[k] != '\n'
    ensures r.Null? ==> forall k :: lo <= k < hi ==> s[k] != '\n'
    decreases hi - lo
  {
    if hi <= lo then Null
    else if s[hi - 1] == '\n' then NonNull(hi - 1)
    else LastNewline(s, lo, hi - 1)
  }

  /** The end of the separator match starting at `p`, if `^\s*---\s*$` matches
      there. The leading `\s*` must run up to `---`; the trailing `\s*` gives back
      characters until `$` holds: at the end of the text or before a `\n`. */
  function SeparatorEnd(s: string, p: nat): (r: Nullable<nat>)
    requires p <= |s|
    ensures r.NonNull? ==> p + 3 <= r.value <= |s|
  {
    if !AtLineStart(s, p) then Null
    else
      var a := SpaceRunEnd(s, p);
      if !DashesAt(s, a) then Null
      else
        var b := SpaceRunEnd(s, a + 3);
        if b == |s| then NonNull(b) else LastNewline(s, a + 3, b)
  }

  /** White space, `---`, white space. */
  ghost predicate SeparatorShape(t: string, a: nat) {
    a + 3 <= |t| && AllWhiteSpace(t[..a]) && t[a..a + 3] == "---" && AllWhiteSpace(t[a + 3..])
  }

  /** A line the section split treats as a separator. */
  ghost predicate IsSeparatorText(t: string) {
    exists a: nat :: SeparatorShape(t, a)
  }

  lemma SeparatorHasShape(s: string, p: nat)
    requires p <= |s| && SeparatorEnd(s, p).NonNull?
    ensures SeparatorShape(s[p..SeparatorEnd(s, p).value], SpaceRunEnd(s, p) - p)
  {
    var e := SeparatorEnd(s, p).value;
    var a := SpaceRunEnd(s, p);
    assert DashesAt(s, a) && a + 3 <= e;
    var t := s[p..e];
    SliceOfSlice(s, p, e, 0, a - p);
    SliceOfSlice(s, p, e, a - p, a - p + 3);
    SliceOfSlice(s, p, e, a - p + 3, e - p);
    assert t[..a - p] == t[0..a - p] && t[a - p + 3..] == t[a - p + 3..e - p];
    DashesText(s, a);
  }

  /** The longest `\s` run from `i` covers every all-white-space stretch from `i`. */
  lemma {:induction false} SpaceRunReaches(s: string, i: nat, j: nat)
    requires i <= j <= |s| && AllWhiteSpace(s[i..j])
    ensures j <= SpaceRunEnd(s, i)
    decreases j - i
  {
    if i < j {
      assert IsWhiteSpace(s[i..j][0]);
      assert s[i + 1..j] == s[i..j][1..];
      SpaceRunReaches(s, i + 1, j);
    }
  }

  /** Every separator line is matched: at a line start, white space, `---` and white
      space up to the end of the text or a `\n` is a separator match, which reaches
      at least that far. */
  lemma SeparatorFound(s: string, p: nat, q: nat, a: nat)
    requires p <= q <= |s| && AtLineStart(s, p)
    requires SeparatorShape(s[p..q], a)
    requires q == |s| || s[q] == '\n'
    ensures SeparatorEnd(s, p).NonNull? && q <= SeparatorEnd(s, p).value
  {
    var t := s[p..q];
    assert AllWhiteSpace(s[p..p + a]) && DashesAt(s, p + a) && AllWhiteSpace(s[p + a + 3..q]) by {
      SliceOfSlice(s, p, q, 0, a);
      SliceOfSlice(s, p, q, a, a + 3);
      SliceOfSlice(s, p, q, a + 3, q - p);
      assert t[..a] == t[0..a] && t[a + 3..] == t[a + 3..q - p];
      DashesFromText(s, p + a);
    }
    LeadingRun(s, p, p + a);
    TrailingRun(s, p + a + 3, q);
  }

  /** The leading `\s*` of the separator stops exactly at its dashes. */
  lemma LeadingRun(s: string, p: nat, d: nat)
    requires p <= d && DashesAt(s, d) && AllWhiteSpace(s[p..d])
    ensures SpaceRunEnd(s, p) == d
  {
    SpaceRunReaches(s, p, d);
  }

  /** After the dashes, white space up to the end of the text or a `\n` lets `$`
      hold there or later. */
  lemma TrailingRun(s: string, c: nat, q: nat)
    requires c <= q <= |s| && AllWhiteSpace(s[c..q]) && (q == |s| || s[q] == '\n')
    ensures var b := SpaceRunEnd(s, c);
      if b == |s| then q <= b else LastNewline(s, c, b).NonNull? && q <= LastNewline(s, c, b).value
  {
    SpaceRunReaches(s, c, q);
    var b := SpaceRunEnd(s, c);
    if b < |s| {
      assert q < b;
    }
  }

  /** A separator match: where it starts and where it ends. */
  datatype Span = Span(start: nat, end: nat)

  /** No separator match starts in `[lo, hi)`, checked one offset at a time. */
  ghost predicate NoSeparatorBetween(s: string, lo: nat, hi: nat)
    decreases hi - lo
  {
    lo >= hi || ((lo > |s| || SeparatorEnd(s, lo).Null?) && NoSeparatorBetween(s, lo + 1, hi))
  }

  lemma {:induction false} NoSeparatorBetweenMeans(s: string, lo: nat, hi: nat)
    ensures NoSeparatorBetween(s, lo, hi) <==> forall q :: lo <= q < hi && q <= |s| ==> SeparatorEnd(s, q).Null?
    decreases hi - lo
  {
    if lo < hi {
      NoSeparatorBetweenMeans(s, lo + 1, hi);
    }
  }

  /** The next separator match at or after `from`. */
  function FindSeparator(s: string, from: nat): (r: Nullable<Span>)
    requires from <= |s|
    ensures r.NonNull? ==> from <= r.value.start <= |s| && SeparatorEnd(s, r.value.start) == NonNull(r.value.end)
    ensures r.NonNull? ==> NoSeparatorBetween(s, from, r.value.start)
    ensures r.Null? ==> NoSeparatorBetween(s, from, |s| + 1)
    decreases |s| - from
  {
    var here := SeparatorEnd(s, from);
    if here.NonNull? then NonNull(Span(from, here.value))
    else if from == |s| then Null
    else FindSeparator(s, from + 1)
  }

  /** The split never steps over a separator line: searching from any earlier
      offset finds a match that starts no later than the line. */
  lemma SeparatorLineNotSkipped(s: string, from: nat, p: nat, q: nat, a: nat)
    requires from <= p <= q <= |s| && AtLineStart(s, p)
    requires SeparatorShape(s[p..q], a)
    requires q == |s| || s[q] == '\n'
    ensures FindSeparator(s, from).NonNull? && FindSeparator(s, from).value.start <= p
  {
    SeparatorFound(s, p, q, a);
    var r := FindSeparator(s, from);
    if r.Null? {
      NoSeparatorBetweenMeans(s, from, |s| + 1);
    } else if r.value.start > p {
      NoSeparatorBetweenMeans(s, from, r.value.start);
    }
  }

  /** `SectionSplitRegex().Split(body)` from offset `from`: the text between
      successive separator matches, including empty pieces at either end or
      between adjacent separators. */
  function SplitFrom(s: string, from: nat): (sections: seq<string>)
    requires from <= |s|
    ensures |sections| >= 1
    decreases |s| - from
  {
    match FindSeparator(s, from)
    case Null => [s[from..]]
    case NonNull(Span(p, e)) => [s[from..p]] + SplitFrom(s, e)
  }

  /** The separator texts `SplitFrom` drops, in order. */
  ghost function SeparatorsFrom(s: string, from: nat): seq<string>
    requires from <= |s|
    decreases |s| - from
  {
    match FindSeparator(s, from)
    case Null => []
    case NonNull(Span(p, e)) => [s[p..e]] + SeparatorsFrom(s, e)
  }

  /** `SectionSplitRegex().Split(body)`: the sections, which interleaved with the
      separator lines the split removes give back the body. */
  function SplitSections(body: string): (sections: seq<string>)
    ensures |sections| == |SeparatorsFrom(body, 0)| + 1
    ensures Interleave(sections, SeparatorsFrom(body, 0)) == body
    ensures forall i :: 0 <= i < |SeparatorsFrom(body, 0)| ==> IsSeparatorText(SeparatorsFrom(body, 0)[i])
  {
    SectionsTile(body, 0);
    SeparatorsHaveShape(body, 0);
    assert body[0..] == body;
    SplitFrom(body, 0)
  }

  /** Sections and separators, alternating, starting and ending with a section. */
  function Interleave(sections: seq<string>, separators: seq<string>): string
    requires |sections| == |separators| + 1
  {
    if |separators| == 0 then sections[0]
    else sections[0] + separators[0] + Interleave(sections[1..], separators[1..])
  }

  lemma InterleaveCons(section: string, separator: string, sections: seq<string>, separators: seq<string>)
    requires |sections| == |separators| + 1
    ensures Interleave([section] + sections, [separator] + separators) == section + separator + Interleave(sections, separators)
  {
    assert ([section] + sections)[1..] == sections;
    assert ([separator] + separators)[1..] == separators;
  }

  /** Splitting drops only separator lines: the sections interleaved with the
      separators give back the text. */
  lemma {:induction false} SectionsTile(s: string, from: nat)
    requires from <= |s|
    ensures |SplitFrom(s, from)| == |SeparatorsFrom(s, from)| + 1
    ensures Interleave(SplitFrom(s, from), SeparatorsFrom(s, from)) == s[from..]
    decreases |s| - from
  {
    match FindSeparator(s, from)
    case Null =>
    case NonNull(Span(p, e)) =>
      SectionsTile(s, e);
      var rest, restSeps := SplitFrom(s, e), SeparatorsFrom(s, e);
      assert SplitFrom(s, from) == [s[from..p]] + rest;
      assert SeparatorsFrom(s, from) == [s[p..e]] + restSeps;
      InterleaveCons(s[from..p], s[p..e], rest, restSeps);
      SliceThree(s, from, p, e);
  }

  /** Each dropped separator is white space around `---`. */
  lemma {:induction false} SeparatorsHaveShape(s: string, from: nat)
    requires from <= |s|
    ensures forall i :: 0 <= i < |SeparatorsFrom(s, from)| ==> IsSeparatorText(SeparatorsFrom(s, from)[i])
    decreases |s| - from
  {
    match FindSeparator(s, from)
    case Null =>
    case NonNull(Span(p, e)) =>
      SeparatorsHaveShape(s, e);
      assert IsSeparatorText(s[p..e]) by {
        SeparatorHasShape(s, p);
      }
      SeparatorsCons(s, from, p, e);
      SeparatorTextsCons(s[p..e], SeparatorsFrom(s, e));
  }

  lemma SeparatorsCons(s: string, from: nat, p: nat, e: nat)
    requires from <= |s| && FindSeparator(s, from) == NonNull(Span(p, e))
    ensures SeparatorsFrom(s, from) == [s[p..e]] + SeparatorsFrom(s, e)
  {
  }

  lemma SeparatorTextsCons(t: string, rest: seq<string>)
    requires IsSeparatorText(t) && forall i :: 0 <= i < |rest| ==> IsSeparatorText(rest[i])
    ensures forall i :: 0 <= i < |[t] + rest| ==> IsSeparatorText(([t] + rest)[i])
  {
    forall i | 0 <= i < |[t] + rest|
      ensures IsSeparatorText(([t] + rest)[i])
    {
      if i > 0 {
        assert ([t] + rest)[i] == rest[i - 1];
      }
    }
  }

  /** A body in which no separator matches is one section. */
  lemma NoSeparatorOneSection(s: string)
    requires NoSeparatorBetween(s, 0, |s| + 1)
    ensures SplitSections(s) == [s]
  {
    NoSeparatorBetweenMeans(s, 0, |s| + 1);
  }
}

=== FILE: engine.dfy ===
/** `TemplateBase.Render` of DevDotNetSdk.Templating/TemplateBase.cs: a template instance
    parses its document on the first render that finds it without items and keeps
    the items; every include, if and foreach item owns a sub-template instance of
    its own, which caches its items in the same way. */
module Engine {
  import opened Runtime
  import opened Sources
  import opened Providers
  import opened Values
  import opened Directives
  import opened Parsing

  /** A template instance: its type and its cached items (none until parsed). */
  datatype Instance = Instance(kind: TemplateType, items: seq<Item>)

  /** The template items of TemplateBase.cs and the *TemplateItem.cs records. */
  datatype Item =
    | TextItem(text: string)
    | VariableItem(path: string)
    | IfItem(condition: string, sub: Instance, input: Nullable<string>)
    | IncludeItem(sub: Instance, input: Nullable<string>)
    | LoopItem(collection: string, sub: Instance)

  /** `Activator.CreateInstance(type, provider)`: an instance with no items yet. */
  function NewInstance(kind: TemplateType): (inst: Instance)
    ensures inst.kind == kind && inst.items == []
  {
    Instance(kind, [])
  }

  /** The parsed item an item was made from: its sub-instance replaced by that
      instance's type. */
  function Shape(item: Item): Node {
    match item
    case TextItem(text) => TextNode(text)
    case VariableItem(path) => VariableNode(path)
    case IfItem(condition, sub, input) => IfNode(condition, sub.kind, input)
    case IncludeItem(sub, input) => IncludeNode(sub.kind, input)
    case LoopItem(collection, sub) => LoopNode(collection, sub.kind)
  }

  function Shapes(items: seq<Item>): seq<Node> {
    seq(|items|, i requires 0 <= i < |items| => Shape(items[i]))
  }

  lemma ShapesCons(item: Item, items: seq<Item>)
    ensures Shapes([item] + items) == [Shape(item)] + Shapes(items)
  {
  }

  /** The sub-instance an item owns, if any, has no items yet. */
  predicate Unrendered(item: Item) {
    match item
    case IfItem(_, sub, _) => sub.items == []
    case IncludeItem(sub, _) => sub.items == []
    case LoopItem(_, sub) => sub.items == []
    case _ => true
  }

  /** `ParseSectionIntoItems` creating the sub-template instance of each parsed
      item. */
  function Instantiate(node: Node): (item: Item)
    ensures Shape(item) == node && Unrendered(item)
  {
    match node
    case TextNode(text) => TextItem(text)
    case VariableNode(path) => VariableItem(path)
    case IfNode(condition, kind, input) => IfItem(condition, NewInstance(kind), input)
    case IncludeNode(kind, input) => IncludeItem(NewInstance(kind), input)
    case LoopNode(collection, kind) => LoopItem(collection, NewInstance(kind))
  }

  function InstantiateAll(nodes: seq<Node>): (items: seq<Item>)
    ensures Shapes(items) == nodes
    ensures forall i :: 0 <= i < |items| ==> Unrendered(items[i])
  {
    seq(|nodes|, i requires 0 <= i < |nodes| => Instantiate(nodes[i]))
  }

  /** `GetTemplateContent` followed by `ParseTemplate`: the document is looked up
      under the template's type name. */
  function Load(kind: TemplateType, p: Provider): (r: Outcome<seq<Node>>)
    ensures GetTemplate(p, kind.name).found.Null? ==> r == Thrown(TemplateNotFound(kind.name))
    ensures r.Done? ==> exists content :: GetTemplate(p, kind.name).found == NonNull(content) && ParseTemplate(content, p) == r
    ensures GetTemplate(p, kind.name).found.NonNull? ==> r == ParseTemplate(GetTemplate(p, kind.name).found.value, p)
  {
    match GetTemplate(p, kind.name).found
    case Null => Thrown(TemplateNotFound(kind.name))
    case NonNull(content) =>
      ParseTemplate(content, p)
  }

  /** What a render needs of the provider: the parsed document of each template
      type. The rendering functions are written against any catalog; the one the
      library uses is `CatalogOf(p)`. */
  type Catalog = TemplateType -> Outcome<seq<Node>>

  function CatalogOf(p: Provider): (c: Catalog)
    ensures forall kind :: c(kind) == Load(kind, p)
  {
    kind => Load(kind, p)
  }

  /** A first render reports why its template could not be loaded: a document the
      provider does not have, or the syntax error its parse throws. */
  lemma LoadFailureSurfaces(kind: TemplateType, input: Nullable<Value>, p: Provider, fuel: nat)
    requires Load(kind, p).Thrown?
    ensures Render(NewInstance(kind), input, CatalogOf(p), fuel) == Thrown(Load(kind, p).error)
    ensures GetTemplate(p, kind.name).found.NonNull? ==>
      Render(NewInstance(kind), input, CatalogOf(p), fuel) == Thrown(ParseTemplate(GetTemplate(p, kind.name).found.value, p).error)
  {
  }

  /** The items a render works through: the cached ones, or a fresh parse when
      there are none. */
  function ItemsFor(inst: Instance, catalog: Catalog): (r: Outcome<seq<Item>>)
    ensures inst.items != [] ==> r == Done(inst.items)
    ensures inst.items == [] ==> (r.Done? <==> catalog(inst.kind).Done?)
    ensures inst.items == [] && r.Done? ==> Shapes(r.value) == catalog(inst.kind).value
    ensures inst.items == [] && r.Thrown? ==> r.error == catalog(inst.kind).error
  {
    if |inst.items| == 0 then
      var nodes :- catalog(inst.kind);
      Done(InstantiateAll(nodes))
    else Done(inst.items)
  }

  /** What a variable item appends: the value's text, or the directive as written
      when the value is null. */
  function VariableText(path: string, v: Nullable<Value>): (r: string)
    ensures v.Null? ==> r == "{{" + path + "}}"
    ensures v.NonNull? ==> r == ToText(v.value)
  {
    match v
    case Null => "{{" + path + "}}"
    case NonNull(x) => ToText(x)
  }

  /** The input a sub-template is rendered with: the value at the item's path, or
      `fallback` when the item names no path. */
  function SubInput(path: Nullable<string>, input: Nullable<Value>, fallback: Nullable<Value>): (r: Outcome<Nullable<Value>>)
    ensures path.Null? ==> r == Done(fallback)
    ensures path.NonNull? && input.Null? ==> r == Done(Null)
    ensures path.NonNull? && r.Thrown? ==> AccessError(r.error)
    ensures path.NonNull? ==> r == Resolve(path.value, input)
  {
    match path
    case Null => Done(fallback)
    case NonNull(e) => Resolve(e, input)
  }

  /** `MethodInfo.Invoke` wraps whatever the sub-render throws. */
  function Wrap<T>(r: Outcome<T>): (w: Outcome<T>)
    ensures r.Done? <==> w.Done?
    ensures r.Done? ==> w == r
    ensures r.Thrown? ==> w == Thrown(SubRenderFailed(r.error))
  {
    match r
    case Done(_) => r
    case Thrown(e) => Thrown(SubRenderFailed(e))
  }

  datatype Rendered = Rendered(text: string, instance: Instance)
  datatype RenderedItems = RenderedItems(text: string, items: seq<Item>)
  datatype RenderedItem = RenderedItem(text: string, item: Item)
  datatype RenderedLoop = RenderedLoop(text: string, sub: Instance)

  /** `Render(input)`: the text and the instance afterwards. The instance keeps its
      type; once it has items, rendering never changes what they are, only fills
      in the sub-instances they own. `fuel` bounds the nesting of sub-renders. */
  function Render(inst: Instance, input: Nullable<Value>, catalog: Catalog, fuel: nat): (r: Outcome<Rendered>)
    ensures r.Done? ==> r.value.instance.kind == inst.kind
    ensures r.Done? && inst.items != [] ==> Shapes(r.value.instance.items) == Shapes(inst.items)
    ensures r.Done? && inst.items == [] ==> Done(Shapes(r.value.instance.items)) == catalog(inst.kind)
    decreases fuel, 4, 0
  {
    var items :- ItemsFor(inst, catalog);
    var r :- RenderItems(items, input, catalog, fuel);
    Done(Rendered(r.text, Instance(inst.kind, r.items)))
  }

  /** The `foreach (var item in _templateItems)` loop of `Render`. */
  function RenderItems(items: seq<Item>, input: Nullable<Value>, catalog: Catalog, fuel: nat): (r: Outcome<RenderedItems>)
    ensures r.Done? ==> Shapes(r.value.items) == Shapes(items)
    decreases fuel, 3, |items|
  {
    if items == [] then Done(RenderedItems([], []))
    else
      var first :- RenderItem(items[0], input, catalog, fuel);
      var rest :- RenderItems(items[1..], input, catalog, fuel);
      ShapesCons(first.item, rest.items);
      ShapesCons(items[0], items[1..]);
      assert items == [items[0]] + items[1..];
      Done(RenderedItems(first.text + rest.text, [first.item] + rest.items))
  }

  /** One case of the switch in `Render`, with `ProcessIfTemplateItem`,
      `ProcessIncludeTemplateItem` and `ProcessLoopTemplateItem`. */
  function RenderItem(item: Item, input: Nullable<Value>, catalog: Catalog, fuel: nat): (r: Outcome<RenderedItem>)
    ensures r.Done? ==> Shape(r.value.item) == Shape(item)
    decreases fuel, 2, 0
  {
    match item
    case TextItem(text) => Done(RenderedItem(text, item))
    case VariableItem(path) =>
      var v :- Resolve(path, input);
      Done(RenderedItem(VariableText(path, v), item))
    case IfItem(condition, sub, path) =>
      var c :- Resolve(condition, input);
      if c != NonNull(Bool(true)) then Done(RenderedItem([], item))
      else
        var subInput :- SubInput(path, input, Null);
        var r :- Invoke(sub, subInput, catalog, fuel);
        Done(RenderedItem(r.text, IfItem(condition, r.instance, path)))
    case IncludeItem(sub, path) =>
      var subInput :- SubInput(path, input, input);
      var r :- Invoke(sub, subInput, catalog, fuel);
      Done(RenderedItem(r.text, IncludeItem(r.instance, path)))
    case LoopItem(collection, sub) =>
      var v :- Resolve(collection, input);
      match Elements(v)
      case Null => Thrown(NotACollection(collection))
      case NonNull(elements) =>
        var r :- RenderLoop(elements, sub, catalog, fuel);
        Done(RenderedItem(r.text, LoopItem(collection, r.sub)))
  }

  /** The `foreach (var item in collection)` loop of `ProcessLoopTemplateItem`: one
      sub-instance renders every element in turn. */
  function RenderLoop(elements: seq<Nullable<Value>>, sub: Instance, catalog: Catalog, fuel: nat): (r: Outcome<RenderedLoop>)
    ensures r.Done? ==> r.value.sub.kind == sub.kind
    ensures r.Done? && sub.items != [] ==> Shapes(r.value.sub.items) == Shapes(sub.items)
    decreases fuel, 1, |elements|
  {
    if elements == [] then Done(RenderedLoop([], sub))
    else
      var first :- Invoke(sub, elements[0], catalog, fuel);
      var rest :- RenderLoop(elements[1..], first.instance, catalog, fuel);
      Done(RenderedLoop(first.text + rest.text, rest.sub))
  }

  /** The reflective call of a sub-instance's `Render`, one level deeper. */
  function Invoke(sub: Instance, input: Nullable<Value>, catalog: Catalog, fuel: nat): (r: Outcome<Rendered>)
    ensures r.Done? ==> r.value.instance.kind == sub.kind
    ensures r.Done? && sub.items != [] ==> Shapes(r.value.instance.items) == Shapes(sub.items)
    ensures fuel == 0 ==> r == Thrown(RecursionLimit)
    decreases fuel, 0, 0
  {
    if fuel == 0 then Thrown(RecursionLimit)
    else Wrap(Render(sub, input, catalog, fuel - 1))
  }
}

=== FILE: evaluation.dfy ===
/** A reference reading of `TemplateBase.Render` (DevDotNetSdk.Templating/TemplateBase.cs)
    without instance state: every render, of the template and of each
    sub-template, looks its document up and parses it afresh. The cache of
    parsed items kept by each instance is then shown to be invisible: an
    instance whose cached items are what a fresh parse would give renders the
    same text, and stays in that state. */
module Evaluation {
  import opened Runtime
  import opened Sources
  import opened Providers
  import opened Values
  import opened Directives
  import opened Parsing
  import opened Engine

  /** The text of a template of type `kind` for `input`, parsed afresh: nothing is
      rendered unless the template loads, and a load failure is what it throws. */
  function Eval(kind: TemplateType, input: Nullable<Value>, catalog: Catalog, fuel: nat): (r: Outcome<string>)
    ensures catalog(kind).Thrown? ==> r == Thrown(catalog(kind).error)
    ensures catalog(kind).Done? && catalog(kind).value == [] ==> r == Done([])
    decreases fuel, 4, 0
  {
    var nodes :- catalog(kind);
    EvalNodes(nodes, input, catalog, fuel)
  }

  function EvalNodes(nodes: seq<Node>, input: Nullable<Value>, catalog: Catalog, fuel: nat): Outcome<string>
    decreases fuel, 3, |nodes|
  {
    if nodes == [] then Done([])
    else
      var first :- EvalNode(nodes[0], input, catalog, fuel);
      var rest :- EvalNodes(nodes[1..], input, catalog, fuel);
      Done(first + rest)
  }

  /** One item: a text item is its text; a variable item never throws anything but
      a property-walk exception, and a null value shows the directive as written;
      an `if` whose condition is not `true` renders nothing. */
  function EvalNode(node: Node, input: Nullable<Value>, catalog: Catalog, fuel: nat): (r: Outcome<string>)
    ensures node.TextNode? ==> r == Done(node.text)
    ensures node.VariableNode? && r.Thrown? ==> AccessError(r.error)
    ensures node.VariableNode? && Resolve(node.path, input) == Done(Null) ==> r == Done("{{" + node.path + "}}")
    ensures node.IfNode? && Resolve(node.condition, input).Done? && Resolve(node.condition, input).value != NonNull(Bool(true)) ==> r == Done([])
    ensures node.LoopNode? && r.Thrown? ==>
      AccessError(r.error) || r.error == NotACollection(node.collection) || r.error.SubRenderFailed? || r.error == RecursionLimit
    decreases fuel, 2, 0
  {
    match node
    case TextNode(text) => Done(text)
    case VariableNode(path) =>
      var v :- Resolve(path, input);
      Done(VariableText(path, v))
    case IfNode(condition, kind, path) =>
      var c :- Resolve(condition, input);
      if c != NonNull(Bool(true)) then Done([])
      else
        var subInput :- SubInput(path, input, Null);
        EvalSub(kind, subInput, catalog, fuel)
    case IncludeNode(kind, path) =>
      var subInput :- SubInput(path, input, input);
      EvalSub(kind, subInput, catalog, fuel)
    case LoopNode(collection, kind) =>
      var v :- Resolve(collection, input);
      match Elements(v)
      case Null => Thrown(NotACollection(collection))
      case NonNull(elements) => EvalEach(elements, kind, catalog, fuel)
  }

  /** Each element rendered by a fresh evaluation of the sub-template. A failure is
      always a wrapped sub-render exception, or the recursion bound. */
  function EvalEach(elements: seq<Nullable<Value>>, kind: TemplateType, catalog: Catalog, fuel: nat): (r: Outcome<string>)
    ensures elements == [] ==> r == Done([])
    ensures r.Thrown? ==> r.error.SubRenderFailed? || r.error == RecursionLimit
    decreases fuel, 1, |elements|
  {
    if elements == [] then Done([])
    else
      var first :- EvalSub(kind, elements[0], catalog, fuel);
      var rest :- EvalEach(elements[1..], kind, catalog, fuel);
      Done(first + rest)
  }

  function EvalSub(kind: TemplateType, input: Nullable<Value>, catalog: Catalog, fuel: nat): Outcome<string>
    decreases fuel, 0, 0
  {
    if fuel == 0 then Thrown(RecursionLimit)
    else Wrap(Eval(kind, input, catalog, fuel - 1))
  }

  /** The text of a render, without the instance state it leaves. */
  function RenderedText(r: Outcome<Rendered>): Outcome<string> {
    match r
    case Done(x) => Done(x.text)
    case Thrown(e) => Thrown(e)
  }

  function ItemsText(r: Outcome<RenderedItems>): Outcome<string> {
    match r
    case Done(x) => Done(x.text)
    case Thrown(e) => Thrown(e)
  }

  function ItemText(r: Outcome<RenderedItem>): Outcome<string> {
    match r
    case Done(x) => Done(x.text)
    case Thrown(e) => Thrown(e)
  }

  function LoopText(r: Outcome<RenderedLoop>): Outcome<string> {
    match r
    case Done(x) => Done(x.text)
    case Thrown(e) => Thrown(e)
  }

  /** The cache of an instance agrees with the provider: either nothing is cached,
      or the cached items are what a fresh parse gives, down every sub-instance. */
  ghost predicate Consistent(inst: Instance, catalog: Catalog)
    decreases inst, 1
  {
    && (inst.items != [] ==> catalog(inst.kind) == Done(Shapes(inst.items)))
    && forall i :: 0 <= i < |inst.items| ==> ItemConsistent(inst.items[i], catalog)
  }

  ghost predicate ItemConsistent(item: Item, catalog: Catalog)
    decreases item, 0
  {
    match item
    case IfItem(_, sub, _) => Consistent(sub, catalog)
    case IncludeItem(sub, _) => Consistent(sub, catalog)
    case LoopItem(_, sub) => Consistent(sub, catalog)
    case _ => true
  }

  ghost predicate AllConsistent(items: seq<Item>, catalog: Catalog) {
    forall i :: 0 <= i < |items| ==> ItemConsistent(items[i], catalog)
  }

  /** A fresh instance has nothing cached to disagree with. */
  lemma NewInstanceConsistent(kind: TemplateType, catalog: Catalog)
    ensures Consistent(NewInstance(kind), catalog)
  {
  }

  lemma InstantiatedConsistent(nodes: seq<Node>, catalog: Catalog)
    ensures AllConsistent(InstantiateAll(nodes), catalog)
  {
    var items := InstantiateAll(nodes);
    forall i | 0 <= i < |items|
      ensures ItemConsistent(items[i], catalog)
    {
      assert Unrendered(items[i]);
    }
  }

  /** Rendering an instance whose cache agrees with the provider gives the text of
      a fresh evaluation, fails with the same exception when that fails, and leaves
      the cache agreeing with the provider. */
  lemma {:induction false} RenderIsEval(inst: Instance, input: Nullable<Value>, catalog: Catalog, fuel: nat)
    requires Consistent(inst, catalog)
    ensures RenderedText(Render(inst, input, catalog, fuel)) == Eval(inst.kind, input, catalog, fuel)
    ensures Render(inst, input, catalog, fuel).Done? ==> Consistent(Render(inst, input, catalog, fuel).value.instance, catalog)
    decreases fuel, 4, 0
  {
    var items := ItemsFor(inst, catalog);
    if items.Done? {
      assert Shapes(items.value) == catalog(inst.kind).value;
      if inst.items == [] {
        InstantiatedConsistent(catalog(inst.kind).value, catalog);
      }
      ItemsAreEval(items.value, input, catalog, fuel);
      var r := RenderItems(items.value, input, catalog, fuel);
      if r.Done? {
        var after := Instance(inst.kind, r.value.items);
        assert Render(inst, input, catalog, fuel) == Done(Rendered(r.value.text, after));
        assert Consistent(after, catalog);
      }
    }
  }

  lemma {:induction false} ItemsAreEval(items: seq<Item>, input: Nullable<Value>, catalog: Catalog, fuel: nat)
    requires AllConsistent(items, catalog)
    ensures ItemsText(RenderItems(items, input, catalog, fuel)) == EvalNodes(Shapes(items), input, catalog, fuel)
    ensures RenderItems(items, input, catalog, fuel).Done? ==> AllConsistent(RenderItems(items, input, catalog, fuel).value.items, catalog)
    decreases fuel, 3, |items|
  {
    if items != [] {
      var head, tail := items[0], items[1..];
      assert items == [head] + tail;
      assert ItemConsistent(head, catalog) && AllConsistent(tail, catalog);
      ItemIsEval(head, input, catalog, fuel);
      ItemsAreEval(tail, input, catalog, fuel);
      ShapesCons(head, tail);
      RenderItemsCons(head, tail, input, catalog, fuel);
      EvalNodesCons(Shape(head), Shapes(tail), input, catalog, fuel);
    }
  }

  /** Text joined after text, or the first failure. */
  function JoinText(first: Outcome<string>, rest: Outcome<string>): Outcome<string> {
    var x :- first;
    var y :- rest;
    Done(x + y)
  }

  lemma EvalNodesCons(node: Node, nodes: seq<Node>, input: Nullable<Value>, catalog: Catalog, fuel: nat)
    ensures EvalNodes([node] + nodes, input, catalog, fuel) ==
      JoinText(EvalNode(node, input, catalog, fuel), EvalNodes(nodes, input, catalog, fuel))
  {
    assert ([node] + nodes)[0] == node && ([node] + nodes)[1..] == nodes;
  }

  /** One step of the render loop over the items: its text, and consistency of
      the items it leaves. */
  lemma RenderItemsCons(item: Item, items: seq<Item>, input: Nullable<Value>, catalog: Catalog, fuel: nat)
    requires RenderItem(item, input, catalog, fuel).Done? ==> ItemConsistent(RenderItem(item, input, catalog, fuel).value.item, catalog)
    requires RenderItems(items, input, catalog, fuel).Done? ==> AllConsistent(RenderItems(items, input, catalog, fuel).value.items, catalog)
    ensures ItemsText(RenderItems([item] + items, input, catalog, fuel)) ==
      JoinText(ItemText(RenderItem(item, input, catalog, fuel)), ItemsText(RenderItems(items, input, catalog, fuel)))
    ensures RenderItems([item] + items, input, catalog, fuel).Done? ==>
      AllConsistent(RenderItems([item] + items, input, catalog, fuel).value.items, catalog)
  {
    assert ([item] + items)[0] == item && ([item] + items)[1..] == items;
    var first := RenderItem(item, input, catalog, fuel);
    var rest := RenderItems(items, input, catalog, fuel);
    if first.Done? && rest.Done? {
      var all := [first.value.item] + rest.value.items;
      assert forall i :: 1 <= i < |all| ==> all[i] == rest.value.items[i - 1];
    }
  }

  lemma {:induction false} ItemIsEval(item: Item, input: Nullable<Value>, catalog: Catalog, fuel: nat)
    requires ItemConsistent(item, catalog)
    ensures ItemText(RenderItem(item, input, catalog, fuel)) == EvalNode(Shape(item), input, catalog, fuel)
    ensures RenderItem(item, input, catalog, fuel).Done? ==> ItemConsistent(RenderItem(item, input, catalog, fuel).value.item, catalog)
    decreases fuel, 2, 0
  {
    match item
    case TextItem(_) =>
    case VariableItem(_) =>
    case IfItem(condition, sub, path) =>
      var c := Resolve(condition, input);
      if c.Done? && c.value == NonNull(Bool(true)) {
        var subInput := SubInput(path, input, Null);
        if subInput.Done? {
          InvokeIsEval(sub, subInput.value, catalog, fuel);
        }
      }
    case IncludeItem(sub, path) =>
      var subInput := SubInput(path, input, input);
      if subInput.Done? {
        InvokeIsEval(sub, subInput.value, catalog, fuel);
      }
    case LoopItem(collection, sub) =>
      var v := Resolve(collection, input);
      if v.Done? && Elements(v.value).NonNull? {
        LoopIsEval(Elements(v.value).value, sub, catalog, fuel);
      }
  }

  lemma {:induction false} LoopIsEval(elements: seq<Nullable<Value>>, sub: Instance, catalog: Catalog, fuel: nat)
    requires Consistent(sub, catalog)
    ensures LoopText(RenderLoop(elements, sub, catalog, fuel)) == EvalEach(elements, sub.kind, catalog, fuel)
    ensures RenderLoop(elements, sub, catalog, fuel).Done? ==> Consistent(RenderLoop(elements, sub, catalog, fuel).value.sub, catalog)
    decreases fuel, 1, |elements|
  {
    if elements != [] {
      InvokeIsEval(sub, elements[0], catalog, fuel);
      var first := Invoke(sub, elements[0], catalog, fuel);
      if first.Done? {
        LoopIsEval(elements[1..], first.value.instance, catalog, fuel);
      }
    }
  }

  lemma {:induction false} InvokeIsEval(sub: Instance, input: Nullable<Value>, catalog: Catalog, fuel: nat)
    requires Consistent(sub, catalog)
    ensures RenderedText(Invoke(sub, input, catalog, fuel)) == EvalSub(sub.kind, input, catalog, fuel)
    ensures Invoke(sub, input, catalog, fuel).Done? ==> Consistent(Invoke(sub, input, catalog, fuel).value.instance, catalog)
    decreases fuel, 0, 0
  {
    if fuel > 0 {
      RenderIsEval(sub, input, catalog, fuel - 1);
      assert RenderedText(Render(sub, input, catalog, fuel - 1)) == Eval(sub.kind, input, catalog, fuel - 1);
      assert Invoke(sub, input, catalog, fuel) == Wrap(Render(sub, input, catalog, fuel - 1));
      assert EvalSub(sub.kind, input, catalog, fuel) == Wrap(Eval(sub.kind, input, catalog, fuel - 1));
      WrapText(Invoke(sub, input, catalog, fuel), Render(sub, input, catalog, fuel - 1),
               EvalSub(sub.kind, input, catalog, fuel), Eval(sub.kind, input, catalog, fuel - 1));
    }
  }

  /** Wrapping an exception commutes with dropping the instance state. */
  lemma WrapText(wrapped: Outcome<Rendered>, r: Outcome<Rendered>, wrappedText: Outcome<string>, t: Outcome<string>)
    requires wrapped == Wrap(r) && wrappedText == Wrap(t) && RenderedText(r) == t
    ensures RenderedText(wrapped) == wrappedText
    ensures wrapped.Done? ==> wrapped == r
  {
  }

  /** A template as the library renders it: a fresh instance over the provider's
      documents gives the text of a fresh evaluation, and the instance it leaves
      behind renders any later input as a fresh evaluation would too. */
  lemma RenderTwice(kind: TemplateType, input: Nullable<Value>, later: Nullable<Value>, p: Provider, fuel: nat)
    ensures RenderedText(Render(NewInstance(kind), input, CatalogOf(p), fuel)) == Eval(kind, input, CatalogOf(p), fuel)
    ensures Render(NewInstance(kind), input, CatalogOf(p), fuel).Done? ==>
      RenderedText(Render(Render(NewInstance(kind), input, CatalogOf(p), fuel).value.instance, later, CatalogOf(p), fuel))
        == Eval(kind, later, CatalogOf(p), fuel)
  {
    var c := CatalogOf(p);
    NewInstanceConsistent(kind, c);
    RenderIsEval(NewInstance(kind), input, c, fuel);
    var first := Render(NewInstance(kind), input, c, fuel);
    if first.Done? {
      RenderIsEval(first.value.instance, later, c, fuel);
    }
  }

  /** The elements of a collection render one after another, with nothing in
      between, and the first failing element ends the loop. */
  lemma {:induction false} EvalEachAppend(a: seq<Nullable<Value>>, b: seq<Nullable<Value>>, kind: TemplateType, catalog: Catalog, fuel: nat)
    ensures EvalEach(a + b, kind, catalog, fuel) ==
      match EvalEach(a, kind, catalog, fuel)
      case Thrown(e) => Thrown(e)
      case Done(x) =>
        match EvalEach(b, kind, catalog, fuel)
        case Thrown(e) => Thrown(e)
        case Done(y) => Done(x + y)
  {
    if a == [] {
      assert a + b == b;
      match EvalEach(b, kind, catalog, fuel)
      case Thrown(_) =>
      case Done(y) =>
        assert [] + y == y;
    } else {
      assert (a + b)[0] == a[0];
      assert (a + b)[1..] == a[1..] + b;
      EvalEachAppend(a[1..], b, kind, catalog, fuel);
      match EvalEach(a[1..], kind, catalog, fuel)
      case Thrown(_) =>
      case Done(x) =>
        match EvalEach(b, kind, catalog, fuel)
        case Thrown(_) =>
        case Done(y) =>
          match EvalSub(kind, a[0], catalog, fuel)
          case Thrown(_) =>
          case Done(t) =>
            assert t + (x + y) == (t + x) + y;
    }
  }

  /** Fuel only bounds the nesting of sub-templates: a render that completes with
      some fuel gives the same text with any more. */
  lemma {:induction false} EvalFuel(kind: TemplateType, input: Nullable<Value>, catalog: Catalog, fuel: nat, more: nat)
    requires fuel <= more && Eval(kind, input, catalog, fuel).Done?
    ensures Eval(kind, input, catalog, more) == Eval(kind, input, catalog, fuel)
    decreases fuel, 4, 0
  {
    var nodes := catalog(kind).value;
    EvalNodesFuel(nodes, input, catalog, fuel, more);
  }

  lemma {:induction false} EvalNodesFuel(nodes: seq<Node>, input: Nullable<Value>, catalog: Catalog, fuel: nat, more: nat)
    requires fuel <= more && EvalNodes(nodes, input, catalog, fuel).Done?
    ensures EvalNodes(nodes, input, catalog, more) == EvalNodes(nodes, input, catalog, fuel)
    decreases fuel, 3, |nodes|
  {
    if nodes != [] {
      EvalNodeFuel(nodes[0], input, catalog, fuel, more);
      EvalNodesFuel(nodes[1..], input, catalog, fuel, more);
    }
  }

  lemma {:induction false} EvalNodeFuel(node: Node, input: Nullable<Value>, catalog: Catalog, fuel: nat, more: nat)
    requires fuel <= more && EvalNode(node, input, catalog, fuel).Done?
    ensures EvalNode(node, input, catalog, more) == EvalNode(node, input, catalog, fuel)
    decreases fuel, 2, 0
  {
    match node
    case TextNode(_) =>
    case VariableNode(_) =>
    case IfNode(condition, kind, path) =>
      var c := Resolve(condition, input);
      if c.Done? && c.value == NonNull(Bool(true)) {
        var subInput := SubInput(path, input, Null);
        if subInput.Done? {
          EvalSubFuel(kind, subInput.value, catalog, fuel, more);
        }
      }
    case IncludeNode(kind, path) =>
      var subInput := SubInput(path, input, input);
      if subInput.Done? {
        EvalSubFuel(kind, subInput.value, catalog, fuel, more);
      }
    case LoopNode(collection, kind) =>
      var v := Resolve(collection, input);
      if v.Done? && Elements(v.value).NonNull? {
        EvalEachFuel(Elements(v.value).value, kind, catalog, fuel, more);
      }
  }

  lemma {:induction false} EvalEachFuel(elements: seq<Nullable<Value>>, kind: TemplateType, catalog: Catalog, fuel: nat, more: nat)
    requires fuel <= more && EvalEach(elements, kind, catalog, fuel).Done?
    ensures EvalEach(elements, kind, catalog, more) == EvalEach(elements, kind, catalog, fuel)
    decreases fuel, 1, |elements|
  {
    if elements != [] {
      EvalSubFuel(kind, elements[0], catalog, fuel, more);
      EvalEachFuel(elements[1..], kind, catalog, fuel, more);
    }
  }

  lemma {:induction false} EvalSubFuel(kind: TemplateType, input: Nullable<Value>, catalog: Catalog, fuel: nat, more: nat)
    requires fuel <= more && EvalSub(kind, input, catalog, fuel).Done?
    ensures EvalSub(kind, input, catalog, more) == EvalSub(kind, input, catalog, fuel)
    decreases fuel, 0, 0
  {
    EvalFuel(kind, input, catalog, fuel - 1, more - 1);
  }
}

=== FILE: manual_sources.dfy ===
/** `ManualTemplateSource` of DevDotNetSdk.Templating/ManualTemplateSource.cs: a
    source whose store is filled by explicit registration. Its two dictionaries are
    the two maps of the source's `Store`. */
module ManualSources {
  import opened Runtime
  import opened Sources

  /** The registration invariant: every name has both content and a type. */
  ghost predicate SameNames(src: Source) {
    src.store.content.Keys == src.store.types.Keys
  }

  /** `new ManualTemplateSource(cacheTemplate)`; the cache is off unless asked for. */
  function NewManualSource(cacheTemplate: bool := false): (src: Source)
    ensures src.cacheTemplate == cacheTemplate
    ensures SameNames(src) && Coherent(src)
    ensures forall n :: TryGetTemplateContent(src, n).found == Null && TryGetTemplateType(src, n) == Null
  {
    NewSource(cacheTemplate, Store(map[], map[]))
  }

  /** `AddTemplate<TTemplate, TModel>(content)`: registers the content and the type
      under the type's name, or throws when that name is already registered (the
      source is then left as it was). */
  function AddTemplate(src: Source, t: TemplateType, content: string): (r: Outcome<Source>)
    ensures r.Thrown? <==> t.name in src.store.content
    ensures r.Thrown? ==> r.error == DuplicateTemplate(t.name)
    ensures r.Done? ==> r.value.store.content == src.store.content[t.name := content]
    ensures r.Done? ==> r.value.store.types == src.store.types[t.name := t]
    ensures r.Done? ==> r.value.cacheTemplate == src.cacheTemplate && r.value.cache == src.cache
    ensures r.Done? && SameNames(src) ==> SameNames(r.value)
    ensures r.Done? && Coherent(src) ==> Coherent(r.value)
  {
    if t.name in src.store.content then
      Thrown(DuplicateTemplate(t.name))
    else
      Done(src.(store := Store(src.store.content[t.name := content], src.store.types[t.name := t])))
  }

  /** After a registration, the registered name answers exactly the registered
      content and type, and every other name answers what it answered before. */
  lemma {:induction false} LookupsAfterAdd(src: Source, t: TemplateType, content: string, n: string)
    requires Coherent(src)
    requires AddTemplate(src, t, content).Done?
    ensures var src' := AddTemplate(src, t, content).value;
      && TryGetTemplateContent(src', t.name).found == NonNull(content)
      && TryGetTemplateType(src', t.name) == NonNull(t)
      && (n != t.name ==> TryGetTemplateContent(src', n).found == TryGetTemplateContent(src, n).found)
      && (n != t.name ==> TryGetTemplateType(src', n) == TryGetTemplateType(src, n))
  {
    var src' := AddTemplate(src, t, content).value;
    CacheIsTransparent(src, n);
    CacheIsTransparent(src', n);
    CacheIsTransparent(src', t.name);
  }

  /** Content lookup on a registration-built source answers exactly the
      registered content, and nothing for an unregistered name. */
  lemma RegisteredContent(src: Source, n: string)
    requires Coherent(src)
    ensures n in src.store.content ==> TryGetTemplateContent(src, n).found == NonNull(src.store.content[n])
    ensures n !in src.store.content ==> TryGetTemplateContent(src, n).found == Null
  {
    CacheIsTransparent(src, n);
  }
}

=== FILE: options.dfy ===
/** `Option<TValue>` of DevDotNetSdk/Models/Option.cs: a possibly-null stored value
    and an `IsSet` flag. A type argument is taken to be a reference type, so its
    `default` is null, and its values are `Ref`s. */
module Options {
  import opened Runtime

  datatype Option = Option(stored: Nullable<Ref>, isSet: bool)

  /** `IsSome`: set, and `Unwrap` would succeed. */
  predicate IsSome(o: Option)
    ensures IsSome(o) <==> o.isSet && Unwrap(o).Done?
  {
    o.isSet && o.stored.NonNull?
  }

  /** `IsNone`: never set, so never Some; a reachable unset option is the one
      `FromNone` makes, and unwrapping it throws. */
  predicate IsNone(o: Option)
    ensures IsNone(o) ==> !IsSome(o)
    ensures IsNone(o) && Reachable(o) ==> o.stored.Null? && Unwrap(o) == Thrown(OptionHasNoValue)
  {
    !o.isSet
  }

  /** `Unwrap()` throws exactly when the stored value is null. */
  function Unwrap(o: Option): (r: Outcome<Ref>)
    ensures r.Done? <==> o.stored.NonNull?
    ensures r.Done? ==> o.stored == NonNull(r.value)
    ensures r.Thrown? ==> r.error == OptionHasNoValue
  {
    match o.stored
    case NonNull(v) => Done(v)
    case Null => Thrown(OptionHasNoValue)
  }

  /** `FromSome(value)`; `value` itself may be null. */
  function FromSome(value: Nullable<Ref>): (o: Option)
    ensures !IsNone(o)
    ensures Reachable(o) && (IsSome(o) <==> value.NonNull?)
    ensures value.NonNull? ==> Unwrap(o) == Done(value.value)
    ensures value.Null? ==> Unwrap(o).Thrown?
  {
    Option(value, true)
  }

  /** `FromNone()`, which is also what the parameterless constructor and
      `default(Option<T>)` produce. */
  function FromNone(): (o: Option)
    ensures Reachable(o) && IsNone(o) && !IsSome(o)
    ensures Unwrap(o).Thrown?
  {
    Option(Null, false)
  }

  /** The states `FromSome`, `FromNone` and the default constructor produce:
      an unset option never holds a value. */
  predicate Reachable(o: Option) {
    o.isSet || o.stored.Null?
  }

  /** `IsSome` and `IsNone` never both hold, and they both fail in exactly one
      reachable state: `FromSome(null)`. */
  lemma NeitherSomeNorNone(o: Option)
    requires Reachable(o)
    ensures !(IsSome(o) && IsNone(o))
    ensures (!IsSome(o) && !IsNone(o)) <==> o == FromSome(Null)
  {
  }
}

=== FILE: parsing.dfy ===
/** `ParseTemplate` and `ParseSectionIntoItems` of DevDotNetSdk.Templating/TemplateBase.cs:
    the front matter is dropped, the body is split into sections, each section is
    scanned, and the tokens become items in order; the first directive that fails
    to classify ends the parse with its exception. */
module Parsing {
  import opened Runtime
  import opened Providers
  import opened Documents
  import opened Tokens
  import opened Directives

  /** What the parse needs of the directive rules: the item, or the exception,
      each directive body yields. The parsing functions are written against any
      classifier; the one the library uses is `ClassifierOf(p)`. */
  type Classifier = string -> Outcome<Node>

  function ClassifierOf(p: Provider): (c: Classifier)
    ensures forall body :: c(body) == Classify(body, p)
  {
    body => Classify(body, p)
  }

  /** A directive never becomes a text item. */
  ghost predicate NeverText(classify: Classifier) {
    forall body :: classify(body).Done? ==> !classify(body).value.TextNode?
  }

  lemma ClassifierNeverText(p: Provider)
    ensures NeverText(ClassifierOf(p))
  {
    forall body | Classify(body, p).Done?
      ensures !Classify(body, p).value.TextNode?
    {
    }
  }

  /** The item one token becomes: literal text is a text item as it stands. */
  function TokenNode(t: Token, classify: Classifier): Outcome<Node> {
    match t
    case Literal(text) => Done(TextNode(text))
    case Directive(body) => classify(body)
  }

  /** Token `i` is the first whose item fails. */
  ghost predicate FirstFailure(tokens: seq<Token>, classify: Classifier, i: int) {
    && 0 <= i < |tokens|
    && TokenNode(tokens[i], classify).Thrown?
    && forall j :: 0 <= j < i ==> TokenNode(tokens[j], classify).Done?
  }

  /** The loop of `ParseSectionIntoItems` over the scanned tokens. It succeeds
      exactly when every token's item does, with one item per token in order;
      otherwise it fails with the exception of the first failing token. */
  function ParseTokens(tokens: seq<Token>, classify: Classifier): (r: Outcome<seq<Node>>)
    ensures r.Done? <==> forall i :: 0 <= i < |tokens| ==> TokenNode(tokens[i], classify).Done?
    ensures r.Done? ==> |r.value| == |tokens|
    ensures r.Done? ==> forall i :: 0 <= i < |tokens| ==> TokenNode(tokens[i], classify) == Done(r.value[i])
    ensures r.Thrown? ==> exists i :: FirstFailure(tokens, classify, i) && TokenNode(tokens[i], classify) == Thrown(r.error)
  {
    if tokens == [] then Done([])
    else
      var node :- TokenNode(tokens[0], classify);
      var rest :- ParseTokens(tokens[1..], classify);
      var r := Done([node] + rest);
      assert forall i :: 1 <= i < |tokens| ==> tokens[i] == tokens[1..][i - 1];
      r
  }

  /** `ParseSectionIntoItems(section)`: one item per token of the section's scan,
      or the exception of the first directive that fails. */
  function ParseSection(section: string, classify: Classifier): Outcome<seq<Node>> {
    ParseTokens(Scan(section), classify)
  }

  /** A section parses exactly when every token of its scan becomes an item, one
      item per token; a failure comes from the first failing token, a directive. */
  lemma ParseSectionOutcome(section: string, classify: Classifier)
    ensures var r, tokens := ParseSection(section, classify), Scan(section);
      && (r.Done? <==> forall i :: 0 <= i < |tokens| ==> TokenNode(tokens[i], classify).Done?)
      && (r.Done? ==> |r.value| == |tokens|)
      && (r.Thrown? ==> exists i :: FirstFailure(tokens, classify, i) && tokens[i].Directive?)
  {
    var tokens := Scan(section);
    if ParseSection(section, classify).Thrown? {
      var i :| FirstFailure(tokens, classify, i);
      assert tokens[i].Directive?;
    }
  }

  /** Section `i` is the first whose parse fails. */
  ghost predicate FirstFailingSection(sections: seq<string>, classify: Classifier, i: int) {
    && 0 <= i < |sections|
    && ParseSection(sections[i], classify).Thrown?
    && forall j :: 0 <= j < i ==> ParseSection(sections[j], classify).Done?
  }

  /** The loop of `ParseTemplate` over the sections: their items in order, or the
      exception of the first section that fails. */
  function ParseSections(sections: seq<string>, classify: Classifier): (r: Outcome<seq<Node>>)
    ensures r.Done? <==> forall i :: 0 <= i < |sections| ==> ParseSection(sections[i], classify).Done?
    ensures r.Thrown? ==> exists i :: FirstFailingSection(sections, classify, i) && ParseSection(sections[i], classify) == Thrown(r.error)
  {
    if sections == [] then Done([])
    else
      var first :- ParseSection(sections[0], classify);
      var rest :- ParseSections(sections[1..], classify);
      var r := Done(first + rest);
      assert forall i :: 1 <= i < |sections| ==> sections[i] == sections[1..][i - 1];
      r
  }

  /** `ParseTemplate(document)`: the body after any front matter, split into
      sections, each parsed in turn. It succeeds exactly when every section does,
      and otherwise throws what the first failing section throws. */
  function ParseTemplate(document: string, p: Provider): (r: Outcome<seq<Node>>)
    ensures var sections := SplitSections(TemplateBody(document));
      && (r.Done? <==> forall i :: 0 <= i < |sections| ==> ParseSection(sections[i], ClassifierOf(p)).Done?)
      && (r.Thrown? ==> exists i :: FirstFailingSection(sections, ClassifierOf(p), i)
                                   && ParseSection(sections[i], ClassifierOf(p)) == Thrown(r.error))
  {
    ParseSections(SplitSections(TemplateBody(document)), ClassifierOf(p))
  }

  /** The tokens of all the sections, one after another. */
  function SectionTokens(sections: seq<string>): seq<Token> {
    if sections == [] then [] else Scan(sections[0]) + SectionTokens(sections[1..])
  }

  /** Two parses one after the other: both sets of items, or the first failure. */
  function Concat(first: Outcome<seq<Node>>, second: Outcome<seq<Node>>): Outcome<seq<Node>> {
    var x :- first;
    var y :- second;
    Done(x + y)
  }

  /** An item parsed before a parse of what follows it. */
  function Prepend(node: Outcome<Node>, rest: Outcome<seq<Node>>): Outcome<seq<Node>> {
    var n :- node;
    var x :- rest;
    Done([n] + x)
  }

  lemma ConcatPrepend(node: Outcome<Node>, rest: Outcome<seq<Node>>, second: Outcome<seq<Node>>)
    ensures Concat(Prepend(node, rest), second) == Prepend(node, Concat(rest, second))
  {
    if node.Done? && rest.Done? && second.Done? {
      assert [node.value] + (rest.value + second.value) == ([node.value] + rest.value) + second.value;
    }
  }

  /** One step of the token loop. */
  lemma ParseTokensCons(t: Token, rest: seq<Token>, classify: Classifier)
    ensures ParseTokens([t] + rest, classify) == Prepend(TokenNode(t, classify), ParseTokens(rest, classify))
  {
    assert ([t] + rest)[0] == t && ([t] + rest)[1..] == rest;
  }

  /** Parsing a concatenation of token sequences parses the first, then the
      second, and stops at the first failure. */
  lemma {:induction false} ParseTokensAppend(a: seq<Token>, b: seq<Token>, classify: Classifier)
    ensures ParseTokens(a + b, classify) == Concat(ParseTokens(a, classify), ParseTokens(b, classify))
  {
    if a == [] {
      assert a + b == b;
      if ParseTokens(b, classify).Done? {
        assert [] + ParseTokens(b, classify).value == ParseTokens(b, classify).value;
      }
    } else {
      var t, x := a[0], a[1..];
      assert a == [t] + x;
      assert a + b == [t] + (x + b);
      ParseTokensCons(t, x + b, classify);
      ParseTokensCons(t, x, classify);
      ParseTokensAppend(x, b, classify);
      ConcatPrepend(TokenNode(t, classify), ParseTokens(x, classify), ParseTokens(b, classify));
    }
  }

  /** Splitting into sections only groups the tokens: the template parses as the
      tokens of all its sections would, taken as one stream. */
  lemma {:induction false} SectionsAreOneStream(sections: seq<string>, classify: Classifier)
    ensures ParseSections(sections, classify) == ParseTokens(SectionTokens(sections), classify)
  {
    if sections != [] {
      SectionsAreOneStream(sections[1..], classify);
      ParseTokensAppend(Scan(sections[0]), SectionTokens(sections[1..]), classify);
    }
  }

  /** Every text item of a parsed section is non-empty literal text of the section,
      and the section is exactly its items' tokens put back together. */
  lemma SectionItems(section: string, classify: Classifier)
    requires NeverText(classify) && ParseSection(section, classify).Done?
    ensures var nodes := ParseSection(section, classify).value;
      && |nodes| == |Scan(section)|
      && RawText(Scan(section)) == section
      && forall i :: 0 <= i < |nodes| && nodes[i].TextNode? ==>
           nodes[i].text != [] && Scan(section)[i] == Literal(nodes[i].text)
  {
    var tokens := Scan(section);
    assert Scans(section, tokens) by {
      ScanCharacterized(section, tokens);
    }
    var nodes := ParseSection(section, classify).value;
    forall i | 0 <= i < |nodes| && nodes[i].TextNode?
      ensures nodes[i].text != [] && tokens[i] == Literal(nodes[i].text)
    {
      assert TokenNode(tokens[i], classify) == Done(nodes[i]);
      match tokens[i]
      case Literal(_) =>
        assert TokenOk(tokens, i);
      case Directive(_) =>
        assert false;
    }
  }

  /** A section without a complete `{{ … }}` is a single text item, or no item at
      all when it is empty, whatever the directive rules. */
  lemma PlainSection(section: string, classify: Classifier)
    requires NoMatchIn(section)
    ensures section == [] ==> ParseSection(section, classify) == Done([])
    ensures section != [] ==> ParseSection(section, classify) == Done([TextNode(section)])
  {
    if section != [] {
      OneLiteralScans(section);
      ScanCharacterized(section, [Literal(section)]);
      assert [Literal(section)][1..] == [];
      assert [TextNode(section)] + [] == [TextNode(section)];
    }
  }

  /** A document with no front matter, no section separator and no directive
      parses to its whole text as one text item. */
  lemma PlainDocument(document: string, p: Provider)
    requires FrontMatterMatch(document).Null?
    requires NoSeparatorBetween(document, 0, |document| + 1)
    requires NoMatchIn(document) && document != []
    ensures ParseTemplate(document, p) == Done([TextNode(document)])
  {
    assert TemplateBody(document) == document;
    NoSeparatorOneSection(document);
    PlainSection(document, ClassifierOf(p));
    OneSectionParse(document, ClassifierOf(p), [TextNode(document)]);
  }

  /** A single section parses as that section does. */
  lemma OneSectionParse(section: string, classify: Classifier, nodes: seq<Node>)
    requires ParseSection(section, classify) == Done(nodes)
    ensures ParseSections([section], classify) == Done(nodes)
  {
    assert [section][1..] == [];
    assert ParseSections([], classify) == Done([]);
    assert nodes + [] == nodes;
  }
}

=== FILE: providers.dfy ===
/** `TemplateProvider` of DevDotNetSdk.Templating/TemplateProvider.cs: an ordered list
    of sources, asked from the most recently added to the first added. */
module Providers {
  import opened Runtime
  import opened Sources

  datatype Provider = Provider(sources: seq<Source>)

  /** The result of `GetTemplate`: the content (or null) and the provider
      afterwards, in which the answering source may have cached the content. */
  datatype ProviderLookup = ProviderLookup(found: Nullable<string>, provider: Provider)

  /** `new TemplateProvider()`. */
  function NewProvider(): (p: Provider)
    ensures Coherent(p)
    ensures forall name :: GetTemplate(p, name) == ProviderLookup(Null, p) && GetTemplateType(p, name) == Null
  {
    Provider([])
  }

  /** `AddSource`: appends; the sources already present keep their order. */
  function AddSource(p: Provider, src: Source): (r: Provider)
    ensures |r.sources| == |p.sources| + 1
    ensures r.sources[..|p.sources|] == p.sources && r.sources[|p.sources|] == src
    ensures Coherent(p) && Sources.Coherent(src) ==> Coherent(r)
  {
    Provider(p.sources + [src])
  }

  /** Every source's cache agrees with its store. */
  ghost predicate Coherent(p: Provider) {
    forall i :: 0 <= i < |p.sources| ==> Sources.Coherent(p.sources[i])
  }

  /** `TryGetTemplateContent` on `src` returns true: the name is cached, or the
      store has it. */
  predicate KnowsContent(src: Source, name: string) {
    (src.cacheTemplate && name in src.cache) || name in src.store.content
  }

  lemma KnowsContentIsLookup(src: Source, name: string)
    ensures KnowsContent(src, name) <==> TryGetTemplateContent(src, name).found.NonNull?
  {
  }

  /** `TryGetTemplateType` on `src` returns true. */
  predicate KnowsType(src: Source, name: string) {
    name in src.store.types
  }

  lemma KnowsTypeIsLookup(src: Source, name: string)
    ensures KnowsType(src, name) <==> TryGetTemplateType(src, name).NonNull?
  {
  }

  /** Source `i` answers for `name` and no later-added source does. */
  ghost predicate ContentWinner(sources: seq<Source>, name: string, i: int) {
    && 0 <= i < |sources|
    && KnowsContent(sources[i], name)
    && forall j :: i < j < |sources| ==> !KnowsContent(sources[j], name)
  }

  ghost predicate TypeWinner(sources: seq<Source>, name: string, i: int) {
    && 0 <= i < |sources|
    && KnowsType(sources[i], name)
    && forall j :: i < j < |sources| ==> !KnowsType(sources[j], name)
  }

  /** The loop of `GetTemplate`: scans `sources[..n]` from index `n - 1` down. */
  function LastContentSource(sources: seq<Source>, n: nat, name: string): (i: Nullable<nat>)
    requires n <= |sources|
    ensures i.NonNull? ==> i.value < n && KnowsContent(sources[i.value], name)
    ensures i.NonNull? ==> forall j :: i.value < j < n ==> !KnowsContent(sources[j], name)
    ensures i.Null? ==> forall j :: 0 <= j < n ==> !KnowsContent(sources[j], name)
  {
    if n == 0 then Null
    else if KnowsContent(sources[n - 1], name) then NonNull(n - 1)
    else LastContentSource(sources, n - 1, name)
  }

  /** The loop of `GetTemplateType`, same order. */
  function LastTypeSource(sources: seq<Source>, n: nat, name: string): (i: Nullable<nat>)
    requires n <= |sources|
    ensures i.NonNull? ==> i.value < n && KnowsType(sources[i.value], name)
    ensures i.NonNull? ==> forall j :: i.value < j < n ==> !KnowsType(sources[j], name)
    ensures i.Null? ==> forall j :: 0 <= j < n ==> !KnowsType(sources[j], name)
  {
    if n == 0 then Null
    else if KnowsType(sources[n - 1], name) then NonNull(n - 1)
    else LastTypeSource(sources, n - 1, name)
  }

  /** `GetTemplate(name)`: the answer of the most recently added source that knows
      the name; only that source is asked to look up (and so only its cache can
      change); null, with nothing changed, when no source knows the name. */
  function GetTemplate(p: Provider, name: string): (r: ProviderLookup)
    ensures r.found.Null? <==> forall i :: 0 <= i < |p.sources| ==> !KnowsContent(p.sources[i], name)
    ensures r.found.Null? ==> r.provider == p
    ensures r.found.NonNull? ==> exists i ::
      && ContentWinner(p.sources, name, i)
      && r.found == TryGetTemplateContent(p.sources[i], name).found
      && r.provider == Provider(p.sources[i := TryGetTemplateContent(p.sources[i], name).source])
  {
    match LastContentSource(p.sources, |p.sources|, name)
    case Null => ProviderLookup(Null, p)
    case NonNull(i) =>
      var l := TryGetTemplateContent(p.sources[i], name);
      assert ContentWinner(p.sources, name, i);
      ProviderLookup(l.found, Provider(p.sources[i := l.source]))
  }

  /** `GetTemplateType(name)`: the type from the most recently added source that
      knows the name, or null. */
  function GetTemplateType(p: Provider, name: string): (r: Nullable<TemplateType>)
    ensures r.Null? <==> forall i :: 0 <= i < |p.sources| ==> !KnowsType(p.sources[i], name)
    ensures r.NonNull? ==> exists i :: TypeWinner(p.sources, name, i) && r == TryGetTemplateType(p.sources[i], name)
  {
    match LastTypeSource(p.sources, |p.sources|, name)
    case Null => Null
    case NonNull(i) =>
      assert TypeWinner(p.sources, name, i);
      TryGetTemplateType(p.sources[i], name)
  }

  /** The last-added source wins: a new source that knows the name answers for
      both lookups; one that does not leaves both answers as they were. */
  lemma LastAddedWins(p: Provider, src: Source, name: string)
    ensures KnowsContent(src, name) ==> GetTemplate(AddSource(p, src), name).found == TryGetTemplateContent(src, name).found
    ensures !KnowsContent(src, name) ==> GetTemplate(AddSource(p, src), name).found == GetTemplate(p, name).found
    ensures KnowsType(src, name) ==> GetTemplateType(AddSource(p, src), name) == TryGetTemplateType(src, name)
    ensures !KnowsType(src, name) ==> GetTemplateType(AddSource(p, src), name) == GetTemplateType(p, name)
  {
    LastAddedWinsContent(p, src, name);
    LastAddedWinsType(p, src, name);
  }

  lemma {:induction false} LastAddedWinsContent(p: Provider, src: Source, name: string)
    ensures KnowsContent(src, name) ==> GetTemplate(AddSource(p, src), name).found == TryGetTemplateContent(src, name).found
    ensures !KnowsContent(src, name) ==> GetTemplate(AddSource(p, src), name).found == GetTemplate(p, name).found
  {
    var q := AddSource(p, src);
    var n := |p.sources|;
    assert |q.sources| == n + 1 && q.sources[n] == src;
    if KnowsContent(src, name) {
      assert LastContentSource(q.sources, |q.sources|, name) == NonNull(n);
    } else {
      assert LastContentSource(q.sources, |q.sources|, name) == LastContentSource(q.sources, n, name);
      SameScan(p.sources, q.sources, n, name);
    }
  }

  lemma {:induction false} LastAddedWinsType(p: Provider, src: Source, name: string)
    ensures KnowsType(src, name) ==> GetTemplateType(AddSource(p, src), name) == TryGetTemplateType(src, name)
    ensures !KnowsType(src, name) ==> GetTemplateType(AddSource(p, src), name) == GetTemplateType(p, name)
  {
    var q := AddSource(p, src);
    var n := |p.sources|;
    assert |q.sources| == n + 1 && q.sources[n] == src;
    if KnowsType(src, name) {
      assert LastTypeSource(q.sources, |q.sources|, name) == NonNull(n);
    } else {
      assert LastTypeSource(q.sources, |q.sources|, name) == LastTypeSource(q.sources, n, name);
      SameTypeScan(p.sources, q.sources, n, name);
    }
  }

  lemma {:induction false} SameScan(a: seq<Source>, b: seq<Source>, n: nat, name: string)
    requires n <= |a| && n <= |b| && a[..n] == b[..n]
    ensures LastContentSource(a, n, name) == LastContentSource(b, n, name)
  {
    if n > 0 {
      assert a[n - 1] == a[..n][n - 1] == b[..n][n - 1] == b[n - 1];
      assert a[..n - 1] == a[..n][..n - 1];
      assert b[..n - 1] == b[..n][..n - 1];
      SameScan(a, b, n - 1, name);
    }
  }

  lemma {:induction false} SameTypeScan(a: seq<Source>, b: seq<Source>, n: nat, name: string)
    requires n <= |a| && n <= |b| && a[..n] == b[..n]
    ensures LastTypeSource(a, n, name) == LastTypeSource(b, n, name)
  {
    if n > 0 {
      assert a[n - 1] == a[..n][n - 1] == b[..n][n - 1] == b[n - 1];
      assert a[..n - 1] == a[..n][..n - 1];
      assert b[..n - 1] == b[..n][..n - 1];
      SameTypeScan(a, b, n - 1, name);
    }
  }

  /** Once source `i` answers, the sources added before it play no part: any
      provider that agrees from `i` on gives the same content and type. */
  lemma EarlierSourcesIgnored(p: Provider, q: Provider, name: string, i: int)
    requires |q.sources| == |p.sources| && 0 <= i < |p.sources| && q.sources[i..] == p.sources[i..]
    ensures ContentWinner(p.sources, name, i) ==> GetTemplate(q, name).found == GetTemplate(p, name).found
    ensures TypeWinner(p.sources, name, i) ==> GetTemplateType(q, name) == GetTemplateType(p, name)
  {
    forall j | i <= j < |p.sources|
      ensures q.sources[j] == p.sources[j]
    {
      assert q.sources[j] == q.sources[i..][j - i];
    }
    if ContentWinner(p.sources, name, i) {
      assert ContentWinner(q.sources, name, i);
      WinnerAnswers(p, name, i);
      WinnerAnswers(q, name, i);
    }
    if TypeWinner(p.sources, name, i) {
      assert TypeWinner(q.sources, name, i);
      TypeWinnerAnswers(p, name, i);
      TypeWinnerAnswers(q, name, i);
    }
  }

  /** The winning source's answer is the provider's answer. */
  lemma WinnerAnswers(p: Provider, name: string, i: int)
    requires ContentWinner(p.sources, name, i)
    ensures GetTemplate(p, name).found == TryGetTemplateContent(p.sources[i], name).found
  {
    assert LastContentSource(p.sources, |p.sources|, name) == NonNull(i);
  }

  lemma TypeWinnerAnswers(p: Provider, name: string, i: int)
    requires TypeWinner(p.sources, name, i)
    ensures GetTemplateType(p, name) == TryGetTemplateType(p.sources[i], name)
  {
    assert LastTypeSource(p.sources, |p.sources|, name) == NonNull(i);
  }

  /** Two coherent providers whose sources have the same stores give the same
      answers for every name. */
  lemma {:induction false} SameStoresSameAnswers(p: Provider, q: Provider, n: nat, name: string)
    requires Coherent(p) && Coherent(q) && |p.sources| == |q.sources| && n <= |p.sources|
    requires forall i :: 0 <= i < |p.sources| ==> p.sources[i].store == q.sources[i].store
    ensures LastContentSource(p.sources, n, name) == LastContentSource(q.sources, n, name)
    ensures LastTypeSource(p.sources, n, name) == LastTypeSource(q.sources, n, name)
  {
    if n > 0 {
      var a, b := p.sources[n - 1], q.sources[n - 1];
      CoherentKnows(a, name);
      CoherentKnows(b, name);
      SameStoresSameAnswers(p, q, n - 1, name);
    }
  }

  /** A coherent source knows a name exactly when its store does. */
  lemma CoherentKnows(src: Source, name: string)
    requires Sources.Coherent(src)
    ensures KnowsContent(src, name) <==> name in src.store.content
  {
  }

  /** The lookups of two such providers agree. */
  lemma SameStoresSameLookups(p: Provider, q: Provider, name: string)
    requires Coherent(p) && Coherent(q) && |p.sources| == |q.sources|
    requires forall i :: 0 <= i < |p.sources| ==> p.sources[i].store == q.sources[i].store
    ensures GetTemplate(q, name).found == GetTemplate(p, name).found
    ensures GetTemplateType(q, name) == GetTemplateType(p, name)
  {
    SameStoresSameAnswers(p, q, |p.sources|, name);
    var w := LastContentSource(p.sources, |p.sources|, name);
    if w.NonNull? {
      CacheIsTransparent(p.sources[w.value], name);
      CacheIsTransparent(q.sources[w.value], name);
    }
  }

  /** A content lookup changes at most one source's cache: the provider stays
      coherent and every store stays as it was. */
  lemma LookupKeepsStores(p: Provider, name: string)
    requires Coherent(p)
    ensures var q := GetTemplate(p, name).provider;
      && Coherent(q) && |q.sources| == |p.sources|
      && forall i :: 0 <= i < |p.sources| ==> p.sources[i].store == q.sources[i].store
  {
    match LastContentSource(p.sources, |p.sources|, name)
    case Null =>
    case NonNull(i) =>
      CacheIsTransparent(p.sources[i], name);
  }

  /** A content lookup changes at most a cache, so for a coherent provider every
      later lookup, of any name, answers as it would have before. The templating
      engine relies on this to treat the provider as unchanged during a render. */
  lemma LookupKeepsAnswers(p: Provider, name: string)
    requires Coherent(p)
    ensures Coherent(GetTemplate(p, name).provider)
    ensures forall m :: GetTemplate(GetTemplate(p, name).provider, m).found == GetTemplate(p, m).found
    ensures forall m :: GetTemplateType(GetTemplate(p, name).provider, m) == GetTemplateType(p, m)
  {
    var q := GetTemplate(p, name).provider;
    LookupKeepsStores(p, name);
    forall m
      ensures GetTemplate(q, m).found == GetTemplate(p, m).found
      ensures GetTemplateType(q, m) == GetTemplateType(p, m)
    {
      SameStoresSameLookups(p, q, m);
    }
  }
}

=== FILE: results.dfy ===
/** `Result<TValue, TError>` and `Result<TError>` of DevDotNetSdk/Models/Result.cs.
    Type arguments are taken to be reference types, so `default` is null, and
    their values are `Ref`s. */
module Results {
  import opened Runtime

  /** `Result<TValue, TError>`: a stored value, a stored error and an `IsOk` flag. */
  datatype Result = Result(stored: Nullable<Ref>, error: Nullable<Ref>, isOk: bool)

  predicate IsOk(r: Result) {
    r.isOk
  }

  predicate IsError(r: Result) {
    !r.isOk
  }

  predicate ValueIsNull(r: Result) {
    r.stored.Null?
  }

  /** `Unwrap()` looks only at the stored value, never at `IsOk`. */
  function Unwrap(r: Result): (u: Outcome<Ref>)
    ensures u.Done? <==> !ValueIsNull(r)
    ensures u.Done? ==> r.stored == NonNull(u.value)
    ensures u.Thrown? ==> u.error == ResultHasNoValue
  {
    match r.stored
    case NonNull(v) => Done(v)
    case Null => Thrown(ResultHasNoValue)
  }

  /** `UnwrapError()` looks only at the stored error. */
  function UnwrapError(r: Result): (u: Outcome<Ref>)
    ensures u.Done? <==> r.error.NonNull?
    ensures u.Done? ==> r.error == NonNull(u.value)
    ensures u.Thrown? ==> u.error == ResultHasNoError
  {
    match r.error
    case NonNull(e) => Done(e)
    case Null => Thrown(ResultHasNoError)
  }

  /** The public parameterless constructor (also `default`): not ok, nothing stored. */
  function NewResult(): (r: Result)
    ensures !IsOk(r) && IsError(r)
    ensures Unwrap(r).Thrown? && UnwrapError(r).Thrown?
  {
    Result(Null, Null, false)
  }

  /** `Ok(value)`: ok; the value comes back out unless it was null. */
  function Ok(value: Nullable<Ref>): (r: Result)
    ensures IsOk(r) && !IsError(r)
    ensures value.NonNull? ==> Unwrap(r) == Done(value.value)
    ensures value.Null? ==> Unwrap(r).Thrown?
    ensures UnwrapError(r).Thrown?
  {
    Result(value, Null, true)
  }

  /** `Fail(error)`: not ok; the error comes back out unless it was null. */
  function Fail(error: Nullable<Ref>): (r: Result)
    ensures !IsOk(r) && IsError(r)
    ensures error.NonNull? ==> UnwrapError(r) == Done(error.value)
    ensures Unwrap(r).Thrown?
  {
    Result(Null, error, false)
  }

  /** `IsError` is the negation of `IsOk` in every state of both structs. */
  lemma ErrorIsNotOk(r: Result, u: UnitResult)
    ensures IsError(r) == !IsOk(r)
    ensures UnitIsError(u) == !UnitIsOk(u)
  {
  }

  /** `Result<TError>`: a stored error and an `IsOk` flag. */
  datatype UnitResult = UnitResult(error: Nullable<Ref>, isOk: bool)

  predicate UnitIsOk(u: UnitResult) {
    u.isOk
  }

  predicate UnitIsError(u: UnitResult) {
    !u.isOk
  }

  /** `UnwrapError()` of `Result<TError>`. */
  function UnitUnwrapError(u: UnitResult): (r: Outcome<Ref>)
    ensures r.Done? <==> u.error.NonNull?
    ensures r.Done? ==> u.error == NonNull(r.value)
    ensures r.Thrown? ==> r.error == ResultHasNoError
  {
    match u.error
    case NonNull(e) => Done(e)
    case Null => Thrown(ResultHasNoError)
  }

  /** The public parameterless constructor: the only way to obtain an ok `Result<TError>`. */
  function NewUnitResult(): (r: UnitResult)
    ensures UnitIsOk(r) && !UnitIsError(r)
    ensures UnitUnwrapError(r).Thrown?
  {
    UnitResult(Null, true)
  }

  /** The private constructor as written: its `isOk` argument is never assigned,
      so the flag keeps its default, false. */
  function UnitResultAsWritten(error: Nullable<Ref>, isOk: bool): (r: UnitResult)
    ensures !UnitIsOk(r)
    ensures r.error == error
  {
    UnitResult(error, false)
  }

  /** `Ok()` as written: it reports not ok. */
  function UnitOk(): (r: UnitResult)
    ensures !UnitIsOk(r) && UnitIsError(r)
    ensures UnitUnwrapError(r).Thrown?
  {
    UnitResultAsWritten(Null, true)
  }

  /** `Fail(error)`: not ok, and the error comes back out unless it was null. */
  function UnitFail(error: Nullable<Ref>): (r: UnitResult)
    ensures !UnitIsOk(r) && UnitIsError(r)
    ensures error.NonNull? ==> UnitUnwrapError(r) == Done(error.value)
  {
    UnitResultAsWritten(error, false)
  }

  /** The private constructor as evidently intended: it stores the flag it is given. */
  function UnitResultCorrected(error: Nullable<Ref>, isOk: bool): (r: UnitResult)
    ensures UnitIsOk(r) == isOk
    ensures r.error == error
  {
    UnitResult(error, isOk)
  }

  /** `Ok()` built on the corrected constructor: ok, and indistinguishable from
      the public parameterless constructor. */
  function CorrectedUnitOk(): (r: UnitResult)
    ensures UnitIsOk(r) && !UnitIsError(r)
    ensures r == NewUnitResult()
  {
    UnitResultCorrected(Null, true)
  }
}

=== FILE: runtime.dfy ===
/** Shared vocabulary of the model: the .NET notions the templating core and
    the utility structs are written in terms of. A C# `null` is `Null`, a
    thrown exception is `Thrown(error)`, a normal return is `Done(value)`. */
module Runtime {

  /** A value that may be a C# null reference. */
  datatype Nullable<+T> = Null | NonNull(value: T)

  /** A non-null reference held by `Option`, `Result` or `Variant`. Those structs
      never look inside what they hold, so one carrier with infinitely many
      distinct values stands for every type argument. */
  datatype Ref = Ref(id: nat)

  /** The directive keywords whose syntax errors carry their own message. */
  datatype Keyword = IncludeKeyword | IfKeyword | ForeachKeyword

  /** Every exception the modelled code throws, one constructor per `throw`. */
  datatype Error =
    | TemplateNotFound(name: string)                      // FileNotFoundException of GetTemplateContent
    | DuplicateTemplate(name: string)                     // ManualTemplateSource.AddTemplate
    | InvalidSyntax(keyword: Keyword, expression: string) // malformed include/if/foreach directive
    | SubTemplateNotFound(name: string)                   // the provider knows no type of that name
    | PropertyNotFound(property: string, typeName: string)
    | AmbiguousMatch(property: string)                    // Type.GetProperty finds several properties of the name
    | ParameterCountMismatch                              // PropertyInfo.GetValue on an indexer, without index arguments
    | GetterFailed(inner: Error)                          // PropertyInfo.GetValue wraps what a getter threw
    | GetMethodNotFound                                   // PropertyInfo.GetValue on a property with no get accessor
    | Foreign(typeName: string)                           // thrown by code outside the model, such as a property getter
    | NotACollection(expression: string)                  // foreach over a non-enumerable or null
    | SubRenderFailed(inner: Error)                       // MethodInfo.Invoke wraps what the sub-render threw
    | RecursionLimit                                      // the model's recursion bound was reached
    | VariantDoesNotHold
    | VariantValueNull
    | OptionHasNoValue
    | ResultHasNoValue
    | ResultHasNoError

  /** The outcome of a call that may throw; usable with `:-`. */
  datatype Outcome<+T> = Done(value: T) | Thrown(error: Error) {

    predicate IsFailure() {
      Thrown?
    }

    function PropagateFailure<U>(): Outcome<U>
      requires Thrown?
    {
      Thrown(error)
    }

    function Extract(): T
      requires Done?
    {
      value
    }
  }
}

=== FILE: sources.dfy ===
/** `TemplateSource` of DevDotNetSdk.Templating/TemplateSource.cs: a name lookup for
    template content and template type, with an optional per-source content cache.
    The two abstract lookups a concrete source supplies (`DoTryGetTemplateContent`,
    `DoTryGetTemplateType`) are modelled as the two maps of a `Store`. */
module Sources {
  import opened Runtime

  /** A template type, known by its `Type.Name`; a template instance fetches its
      own content under this name. */
  datatype TemplateType = TemplateType(name: string)

  /** What a concrete source can look up: content and types by name. */
  datatype Store = Store(content: map<string, string>, types: map<string, TemplateType>)

  /** A source: the cache flag fixed at construction, the content cache, the store. */
  datatype Source = Source(cacheTemplate: bool, cache: map<string, string>, store: Store)

  /** The result of `TryGetTemplateContent`: the content (null when the call
      returns false) and the source afterwards, whose cache may have grown. */
  datatype ContentLookup = ContentLookup(found: Nullable<string>, source: Source)

  /** The base constructor: the flag is stored and the cache starts empty. */
  function NewSource(cacheTemplate: bool, store: Store): (s: Source)
    ensures s.cacheTemplate == cacheTemplate && s.store == store
    ensures Coherent(s)
  {
    Source(cacheTemplate, map[], store)
  }

  /** `DoTryGetTemplateContent` of a store: found exactly when registered, with the
      registered content. */
  function StoreContent(store: Store, name: string): (r: Nullable<string>)
    ensures r.NonNull? <==> name in store.content
    ensures r.NonNull? ==> r.value == store.content[name]
  {
    if name in store.content then NonNull(store.content[name]) else Null
  }

  /** `DoTryGetTemplateType` of a store: found exactly when registered, with the
      registered type. */
  function StoreType(store: Store, name: string): (r: Nullable<TemplateType>)
    ensures r.NonNull? <==> name in store.types
    ensures r.NonNull? ==> r.value == store.types[name]
  {
    if name in store.types then NonNull(store.types[name]) else Null
  }

  /** `TryGetTemplateContent`: a cache hit answers without asking the store; a
      successful store lookup is remembered when caching is on; a failed one is not. */
  function TryGetTemplateContent(src: Source, name: string): (r: ContentLookup)
    ensures r.source.cacheTemplate == src.cacheTemplate && r.source.store == src.store
    ensures !src.cacheTemplate ==> r == ContentLookup(StoreContent(src.store, name), src)
    ensures src.cacheTemplate && name in src.cache ==> r == ContentLookup(NonNull(src.cache[name]), src)
    ensures r.found.Null? ==> r.source == src
    ensures src.cacheTemplate && r.found.NonNull? ==> name in r.source.cache && r.source.cache[name] == r.found.value
    ensures forall n :: n in src.cache ==> n in r.source.cache && r.source.cache[n] == src.cache[n]
    ensures r.source.cache.Keys <= src.cache.Keys + {name}
  {
    if src.cacheTemplate && name in src.cache then
      ContentLookup(NonNull(src.cache[name]), src)
    else
      match StoreContent(src.store, name)
      case Null => ContentLookup(Null, src)
      case NonNull(content) =>
        ContentLookup(NonNull(content),
                      if src.cacheTemplate then src.(cache := src.cache[name := content]) else src)
  }

  /** `TryGetTemplateType`: always the store's answer; the cache is not involved
      and the source does not change. */
  function TryGetTemplateType(src: Source, name: string): (r: Nullable<TemplateType>)
    ensures r.NonNull? <==> name in src.store.types
    ensures r.NonNull? ==> r.value == src.store.types[name]
  {
    StoreType(src.store, name)
  }

  /** The cache only ever holds what the store answers. This holds of a new source,
      and `TryGetTemplateContent` and registration keep it. */
  ghost predicate Coherent(src: Source) {
    forall n :: n in src.cache ==> n in src.store.content && src.store.content[n] == src.cache[n]
  }

  /** For a coherent source the cache is invisible: every lookup answers what the
      store answers, and the source stays coherent. */
  lemma CacheIsTransparent(src: Source, name: string)
    requires Coherent(src)
    ensures TryGetTemplateContent(src, name).found == StoreContent(src.store, name)
    ensures Coherent(TryGetTemplateContent(src, name).source)
  {
  }

  /** Once content is cached it is returned without consulting the store, even
      a store that has since changed. */
  lemma CachedContentIgnoresStore(src: Source, name: string, other: Store)
    requires src.cacheTemplate && name in src.cache
    ensures TryGetTemplateContent(src.(store := other), name).found == NonNull(src.cache[name])
  {
  }
}

=== FILE: text.dfy ===
/** The .NET string operations the templating core relies on: `Char.IsWhiteSpace`
    (also the regex class `\s`), `String.Trim`, `String.Split` with and without a
    count, ordinal case-insensitive `StartsWith`, and `Int32.ToString`. */
module Text {

  /** `Char.IsWhiteSpace`: the Unicode separator categories (Zs, Zl, Zp), the
      control characters U+0009..U+000D and U+0085. The regex class `\s` is the
      same set. */
  predicate IsWhiteSpace(c: char) {
    || c == ' ' || '\t' <= c <= '\r' || c == '\U{85}' || c == '\U{A0}' || c == '\U{1680}'
    || '\U{2000}' <= c <= '\U{200A}' || c == '\U{2028}' || c == '\U{2029}'
    || c == '\U{202F}' || c == '\U{205F}' || c == '\U{3000}'
  }

  /** `String.IsNullOrWhiteSpace` for a non-null string. */
  predicate AllWhiteSpace(s: string) {
    forall i :: 0 <= i < |s| ==> IsWhiteSpace(s[i])
  }

  /** `String.TrimStart()`: drops the longest all-white-space prefix. */
  function TrimStart(s: string): (r: string)
    ensures |r| <= |s| && r == s[|s| - |r|..]
    ensures forall i :: 0 <= i < |s| - |r| ==> IsWhiteSpace(s[i])
    ensures r == [] || !IsWhiteSpace(r[0])
  {
    if |s| > 0 && IsWhiteSpace(s[0]) then TrimStart(s[1..]) else s
  }

  /** `String.TrimEnd()`: drops the longest all-white-space suffix. */
  function TrimEnd(s: string): (r: string)
    ensures |r| <= |s| && r == s[..|r|]
    ensures forall i :: |r| <= i < |s| ==> IsWhiteSpace(s[i])
    ensures r == [] || !IsWhiteSpace(r[|r| - 1])
  {
    if |s| > 0 && IsWhiteSpace(s[|s| - 1]) then TrimEnd(s[..|s| - 1]) else s
  }

  /** `r` is `s` with white space only removed before offset `lo` and after `lo + |r|`. */
  ghost predicate TrimmedAt(s: string, r: string, lo: nat) {
    && lo + |r| <= |s|
    && r == s[lo..lo + |r|]
    && (forall i :: 0 <= i < lo ==> IsWhiteSpace(s[i]))
    && (forall i :: lo + |r| <= i < |s| ==> IsWhiteSpace(s[i]))
  }

  /** `String.Trim()`. */
  function Trim(s: string): (r: string)
    ensures exists lo: nat :: TrimmedAt(s, r, lo)
    ensures r == [] || (!IsWhiteSpace(r[0]) && !IsWhiteSpace(r[|r| - 1]))
    ensures r == [] <==> AllWhiteSpace(s)
  {
    var t := TrimStart(s);
    var u := TrimEnd(t);
    TrimBothEnds(s, t, u);
    assert TrimmedAt(s, u, |s| - |t|);
    u
  }

  /** A white-space prefix dropped, then a white-space suffix, from strings that
      then start and end with something else. */
  lemma TrimBothEnds(s: string, t: string, r: string)
    requires |t| <= |s| && t == s[|s| - |t|..]
    requires forall i :: 0 <= i < |s| - |t| ==> IsWhiteSpace(s[i])
    requires t == [] || !IsWhiteSpace(t[0])
    requires |r| <= |t| && r == t[..|r|]
    requires forall i :: |r| <= i < |t| ==> IsWhiteSpace(t[i])
    requires r == [] || !IsWhiteSpace(r[|r| - 1])
    ensures TrimmedAt(s, r, |s| - |t|)
    ensures r == [] || (!IsWhiteSpace(r[0]) && !IsWhiteSpace(r[|r| - 1]))
    ensures r == [] <==> AllWhiteSpace(s)
  {
    var lo := |s| - |t|;
    forall i | lo + |r| <= i < |s|
      ensures IsWhiteSpace(s[i])
    {
      assert s[i] == t[i - lo];
    }
    if r != [] {
      assert r[0] == t[0] == s[lo];
    }
  }

  /** Trimming a string with no white space at either end changes nothing. */
  lemma TrimOfTrimmed(s: string)
    requires s == [] || (!IsWhiteSpace(s[0]) && !IsWhiteSpace(s[|s| - 1]))
    ensures Trim(s) == s
  {
    assert TrimStart(s) == s;
  }

  /** The offset of the first `c` in `s`. */
  function IndexOf(s: string, c: char): (i: nat)
    requires c in s
    ensures i < |s| && s[i] == c && c !in s[..i]
  {
    if s[0] == c then 0
    else
      var j := IndexOf(s[1..], c);
      assert s[..j + 1] == [s[0]] + s[1..][..j];
      1 + j
  }

  /** None of the first `n` parts holds the separator. */
  predicate SeparatorFree(parts: seq<string>, sep: char, n: int) {
    forall i :: 0 <= i < n && i < |parts| ==> sep !in parts[i]
  }

  /** `String.Split(sep)` with no options: every occurrence splits, empty parts are kept. */
  function Split(s: string, sep: char): (parts: seq<string>)
    ensures |parts| >= 1
    ensures SeparatorFree(parts, sep, |parts|)
    decreases |s|
  {
    if sep !in s then [s]
    else
      var i := IndexOf(s, sep);
      [s[..i]] + Split(s[i + 1..], sep)
  }

  /** `String.Join(sep, parts)`. */
  function Join(parts: seq<string>, sep: char): string
    requires |parts| >= 1
  {
    if |parts| == 1 then parts[0] else parts[0] + [sep] + Join(parts[1..], sep)
  }

  /** Splitting loses nothing: joining the parts back gives the original string. */
  lemma {:induction false} JoinSplit(s: string, sep: char)
    ensures Join(Split(s, sep), sep) == s
    decreases |s|
  {
    if sep in s {
      var i := IndexOf(s, sep);
      var tail := s[i + 1..];
      JoinSplit(tail, sep);
      assert Split(s, sep) == [s[..i]] + Split(tail, sep);
      JoinCons(s[..i], Split(tail, sep), sep);
      assert s == s[..i] + [sep] + tail by { SliceAround(s, i); }
    }
  }

  lemma JoinCons(head: string, rest: seq<string>, sep: char)
    requires |rest| >= 1
    ensures Join([head] + rest, sep) == head + [sep] + Join(rest, sep)
  {
    assert ([head] + rest)[1..] == rest;
  }

  /** The join of several parts is the first part, the separator, then the join of
      the rest. */
  lemma JoinHead(parts: seq<string>, sep: char)
    requires |parts| > 1
    ensures var s, h := Join(parts, sep), |parts[0]|;
      h < |s| && s[..h] == parts[0] && s[h] == sep && s[h + 1..] == Join(parts[1..], sep)
  {
    var s, h := Join(parts, sep), |parts[0]|;
    assert s == parts[0] + [sep] + Join(parts[1..], sep);
    assert s[..h] == parts[0];
    assert s[h + 1..] == Join(parts[1..], sep);
  }

  /** Dropping the first part keeps the remaining parts separator-free. */
  lemma SeparatorFreeTail(parts: seq<string>, sep: char, n: int)
    requires |parts| >= 1 && SeparatorFree(parts, sep, n)
    ensures SeparatorFree(parts[1..], sep, n - 1)
  {
    forall i | 0 <= i < n - 1 && i < |parts[1..]|
      ensures sep !in parts[1..][i]
    {
      assert parts[1..][i] == parts[i + 1];
    }
  }

  /** Joining parts free of the separator and splitting again gives the parts back. */
  lemma {:induction false} SplitJoin(parts: seq<string>, sep: char)
    requires |parts| >= 1
    requires SeparatorFree(parts, sep, |parts|)
    ensures Split(Join(parts, sep), sep) == parts
    decreases |parts|
  {
    if |parts| > 1 {
      var head, tail := parts[0], parts[1..];
      JoinHead(parts, sep);
      SplitAt(Join(parts, sep), sep, |head|);
      SeparatorFreeTail(parts, sep, |parts|);
      SplitJoin(tail, sep);
      assert parts == [head] + tail;
    }
  }

  /** `String.Split(sep, count)`: at most `count` parts, the last one keeps the
      remaining separators. */
  function SplitN(s: string, sep: char, count: nat): (parts: seq<string>)
    requires count >= 1
    ensures 1 <= |parts| <= count
    ensures SeparatorFree(parts, sep, |parts| - 1)
    decreases count
  {
    if count == 1 || sep !in s then [s]
    else
      var i := IndexOf(s, sep);
      [s[..i]] + SplitN(s[i + 1..], sep, count - 1)
  }

  /** The counted split yields as many parts as the full split, up to the count,
      and agrees with it on every part but the last. */
  lemma {:induction false} SplitNLength(s: string, sep: char, count: nat)
    requires count >= 1
    ensures |SplitN(s, sep, count)| == if |Split(s, sep)| < count then |Split(s, sep)| else count
    ensures AgreeBelow(SplitN(s, sep, count), Split(s, sep), |SplitN(s, sep, count)| - 1)
    decreases count
  {
    if count > 1 && sep in s {
      var i := IndexOf(s, sep);
      var tail := s[i + 1..];
      var a, b := SplitN(tail, sep, count - 1), Split(tail, sep);
      SplitNLength(tail, sep, count - 1);
      var x, y := [s[..i]] + a, [s[..i]] + b;
      SplitNAt(s, sep, count, i);
      SplitAt(s, sep, i);
      assert |x| == |a| + 1 && |y| == |b| + 1;
      assert |x| == if |y| < count then |y| else count;
      AgreeBelowCons(s[..i], a, b);
      assert AgreeBelow(x, y, |x| - 1);
    } else {
      assert SplitN(s, sep, count) == [s];
    }
  }

  /** The first `n` elements of `a` and `b` are the same. */
  predicate AgreeBelow<T(==)>(a: seq<T>, b: seq<T>, n: int) {
    forall j :: 0 <= j < n && j < |a| && j < |b| ==> a[j] == b[j]
  }

  lemma AgreeBelowCons<T>(h: T, a: seq<T>, b: seq<T>)
    requires AgreeBelow(a, b, |a| - 1)
    ensures AgreeBelow([h] + a, [h] + b, |a|)
  {
    forall j | 0 <= j < |a| && j < |[h] + a| && j < |[h] + b|
      ensures ([h] + a)[j] == ([h] + b)[j]
    {
      if j > 0 {
        assert ([h] + a)[j] == a[j - 1] && ([h] + b)[j] == b[j - 1];
      }
    }
  }

  /** The split cuts at the first separator, wherever that is. */
  lemma SplitAt(s: string, sep: char, i: nat)
    requires i < |s| && s[i] == sep && sep !in s[..i]
    ensures Split(s, sep) == [s[..i]] + Split(s[i + 1..], sep)
  {
    IndexOfUnique(s, sep, i);
  }

  /** The counted split cuts at the first separator, wherever that is. */
  lemma SplitNAt(s: string, sep: char, count: nat, i: nat)
    requires count > 1 && i < |s| && s[i] == sep && sep !in s[..i]
    ensures SplitN(s, sep, count) == [s[..i]] + SplitN(s[i + 1..], sep, count - 1)
  {
    IndexOfUnique(s, sep, i);
  }

  /** The first `c` is the one with no `c` before it. */
  lemma IndexOfUnique(s: string, c: char, i: nat)
    requires i < |s| && s[i] == c && c !in s[..i]
    ensures c in s && IndexOf(s, c) == i
  {
    assert s[i] in s;
    var j := IndexOf(s, c);
    NoneBefore(s, c, i);
    NoneBefore(s, c, j);
  }

  lemma NoneBefore(s: string, c: char, i: nat)
    requires i <= |s| && c !in s[..i]
    ensures forall k :: 0 <= k < i ==> s[k] != c
  {
    forall k | 0 <= k < i
      ensures s[k] != c
    {
      assert s[k] == s[..i][k];
    }
  }

  /** The counted split loses nothing either. */
  lemma {:induction false} JoinSplitN(s: string, sep: char, count: nat)
    requires count >= 1
    ensures Join(SplitN(s, sep, count), sep) == s
    decreases count
  {
    if count > 1 && sep in s {
      var i := IndexOf(s, sep);
      var tail := s[i + 1..];
      JoinSplitN(tail, sep, count - 1);
      assert SplitN(s, sep, count) == [s[..i]] + SplitN(tail, sep, count - 1);
      JoinCons(s[..i], SplitN(tail, sep, count - 1), sep);
      assert s == s[..i] + [sep] + tail by { SliceAround(s, i); }
    }
  }

  /** Joining `count` parts, the separator only in the last, and splitting with
      that count gives the parts back. */
  lemma {:induction false} SplitNJoin(parts: seq<string>, sep: char, count: nat)
    requires |parts| == count >= 1
    requires SeparatorFree(parts, sep, |parts| - 1)
    ensures SplitN(Join(parts, sep), sep, count) == parts
    decreases count
  {
    if count > 1 {
      var head, tail := parts[0], parts[1..];
      JoinHead(parts, sep);
      SplitNAt(Join(parts, sep), sep, count, |head|);
      SeparatorFreeTail(parts, sep, |parts| - 1);
      SplitNJoin(tail, sep, count - 1);
      assert parts == [head] + tail;
    }
  }

  /** Upper-casing restricted to ASCII letters. */
  function ToUpperAscii(c: char): char {
    if 'a' <= c <= 'z' then (c as int - 32) as char else c
  }

  /** A string upper-cased letter by letter, ASCII letters only. */
  function UpperAscii(s: string): (r: string)
    ensures |r| == |s| && forall i :: 0 <= i < |s| ==> r[i] == ToUpperAscii(s[i])
  {
    seq(|s|, i requires 0 <= i < |s| => ToUpperAscii(s[i]))
  }

  /** `s.StartsWith(prefix, StringComparison.OrdinalIgnoreCase)`, with case folding
      restricted to ASCII letters: the prefix of `s` of the same length equals
      `prefix` once both are upper-cased. */
  predicate StartsWithIgnoreCase(s: string, prefix: string)
    ensures StartsWithIgnoreCase(s, prefix) <==> |prefix| <= |s| && UpperAscii(s[..|prefix|]) == UpperAscii(prefix)
  {
    var r := |prefix| <= |s| && forall i :: 0 <= i < |prefix| ==> ToUpperAscii(s[i]) == ToUpperAscii(prefix[i]);
    assert |prefix| <= |s| && UpperAscii(s[..|prefix|]) == UpperAscii(prefix) ==> r by {
      if |prefix| <= |s| && UpperAscii(s[..|prefix|]) == UpperAscii(prefix) {
        forall i | 0 <= i < |prefix| ensures ToUpperAscii(s[i]) == ToUpperAscii(prefix[i]) {
          assert UpperAscii(s[..|prefix|])[i] == UpperAscii(prefix)[i];
          assert s[..|prefix|][i] == s[i];
        }
      }
    }
    r
  }

  function Digit(d: nat): (c: char)
    requires d < 10
    ensures IsDigit(c) && DigitValue(c) == d
  {
    ('0' as int + d) as char
  }

  predicate IsDigit(c: char) {
    '0' <= c <= '9'
  }

  function DigitValue(c: char): int {
    c as int - '0' as int
  }

  predicate AllDigits(t: string) {
    forall i :: 0 <= i < |t| ==> IsDigit(t[i])
  }

  /** A reference reading of decimal digits, most significant first. */
  function DecimalValue(t: string): int {
    if t == [] then 0 else 10 * DecimalValue(t[..|t| - 1]) + DigitValue(t[|t| - 1])
  }

  /** A reference reading of `Int32.ToString()`'s output: an optional `-`, then the
      decimal digits. */
  function IntegerValue(t: string): int {
    if t != [] && t[0] == '-' then -DecimalValue(t[1..]) else DecimalValue(t)
  }

  /** The decimal digits of `n`: at least one, no leading zero, reading back as `n`. */
  function NaturalText(n: nat): (r: string)
    ensures |r| >= 1 && AllDigits(r) && DecimalValue(r) == n
    ensures |r| > 1 ==> r[0] != '0'
  {
    if n < 10 then [Digit(n)]
    else
      var a := NaturalText(n / 10);
      var r := a + [Digit(n % 10)];
      assert r[..|r| - 1] == a;
      r
  }

  /** `Int32.ToString()` under the invariant culture: a `-` exactly for a negative
      number, then its magnitude's digits, reading back as the number. */
  function IntegerText(i: int): (r: string)
    ensures r != [] && (r[0] == '-' <==> i < 0)
    ensures AllDigits(if i < 0 then r[1..] else r)
    ensures IntegerValue(r) == i
  {
    if i < 0 then
      var r := "-" + NaturalText(-i);
      assert r[1..] == NaturalText(-i);
      r
    else NaturalText(i)
  }

  /** A suffix cut in three. */
  lemma SliceThree<T>(s: seq<T>, i: nat, j: nat, k: nat)
    requires i <= j <= k <= |s|
    ensures s[i..] == s[i..j] + s[j..k] + s[k..]
  {
  }

  /** A suffix cut in two. */
  lemma SliceAround<T>(s: seq<T>, i: nat)
    requires i < |s|
    ensures s == s[..i] + [s[i]] + s[i + 1..]
  {
  }

  /** A slice of a slice is a slice of the whole. */
  lemma SliceOfSlice<T>(s: seq<T>, p: nat, q: nat, i: nat, j: nat)
    requires p <= q <= |s| && i <= j <= q - p
    ensures s[p..q][i..j] == s[p + i..p + j]
  {
    var a, b, c := s[p..q], s[p..q][i..j], s[p + i..p + j];
    assert |b| == |c|;
    forall k | 0 <= k < |b|
      ensures b[k] == c[k]
    {
      assert b[k] == a[i + k] == s[p + i + k];
    }
  }

  lemma SliceSplit<T>(s: seq<T>, i: nat, j: nat)
    requires i <= j <= |s|
    ensures s[i..] == s[i..j] + s[j..]
  {
  }

  /** A sequence cut at six points is its seven pieces put back together. */
  lemma JoinSeven<T>(s: seq<T>, i1: nat, i2: nat, i3: nat, i4: nat, i5: nat, i6: nat,
                     x1: seq<T>, x2: seq<T>, x3: seq<T>, x4: seq<T>, x5: seq<T>, x6: seq<T>, x7: seq<T>)
    requires i1 <= i2 <= i3 <= i4 <= i5 <= i6 <= |s|
    requires s[..i1] == x1 && s[i1..i2] == x2 && s[i2..i3] == x3 && s[i3..i4] == x4
    requires s[i4..i5] == x5 && s[i5..i6] == x6 && s[i6..] == x7
    ensures s == x1 + x2 + x3 + x4 + x5 + x6 + x7
  {
    assert s == s[..i1] + s[i1..i2] + s[i2..i3] + s[i3..i4] + s[i4..i5] + s[i5..i6] + s[i6..];
  }
}

=== FILE: tokens.dfy ===
/** The directive scan of `ParseSectionIntoItems` (DevDotNetSdk.Templating/TemplateBase.cs):
    `\{\{(.*?)\}\}` in single-line mode, applied left to right, with the text
    between and after matches kept as literal text. */
module Tokens {
  import opened Runtime
  import opened Text

  /** A piece of a section: literal text, or the inside of one `{{ … }}` match. */
  datatype Token = Literal(text: string) | Directive(body: string)

  /** The characters of the section a token stands for. */
  function Raw(t: Token): string {
    match t
    case Literal(text) => text
    case Directive(body) => "{{" + body + "}}"
  }

  function RawText(tokens: seq<Token>): string {
    if |tokens| == 0 then [] else Raw(tokens[0]) + RawText(tokens[1..])
  }

  /** `c c` starts at `k`. */
  predicate PairAt(s: string, k: nat, c: char) {
    k + 1 < |s| && s[k] == c && s[k + 1] == c
  }

  /** No `c c` starts in `[from, to)`. */
  ghost predicate NoPairBetween(s: string, from: nat, to: nat, c: char) {
    forall k :: from <= k < to ==> !PairAt(s, k, c)
  }

  /** The first `c c` at or after `from`. */
  function FindPair(s: string, from: nat, c: char): (r: Nullable<nat>)
    requires from <= |s|
    ensures r.NonNull? ==> from <= r.value && PairAt(s, r.value, c)
    decreases |s| - from
  {
    if from + 1 >= |s| then Null
    else if PairAt(s, from, c) then NonNull(from)
    else FindPair(s, from + 1, c)
  }

  /** What `FindPair` finds is the first pair from `from`; when it finds none,
      there is none. */
  lemma {:induction false} FindPairFirst(s: string, from: nat, c: char)
    requires from <= |s|
    ensures var r := FindPair(s, from, c);
      && (r.NonNull? ==> NoPairBetween(s, from, r.value, c))
      && (r.Null? ==> NoPairBetween(s, from, |s|, c))
    decreases |s| - from
  {
    if from + 1 < |s| && !PairAt(s, from, c) {
      FindPairFirst(s, from + 1, c);
    }
  }

  /** The scan from `pos`: the leftmost `{{`, then the nearest `}}` after it. When
      either is missing, what is left is literal text (none when it is empty). */
  function Tokenize(s: string, pos: nat): (tokens: seq<Token>)
    requires pos <= |s|
    decreases |s| - pos
  {
    match FindPair(s, pos, '{')
    case Null => if pos < |s| then [Literal(s[pos..])] else []
    case NonNull(i) =>
      match FindPair(s, i + 2, '}')
      case Null => if pos < |s| then [Literal(s[pos..])] else []
      case NonNull(k) =>
        (if pos < i then [Literal(s[pos..i])] else []) + [Directive(s[i + 2..k])] + Tokenize(s, k + 2)
  }

  /** The scan stops only at the end of the text. Its first token is either
      literal text ahead of the rest, or a directive opening right there. */
  lemma TokenizeHead(s: string, pos: nat)
    requires pos <= |s|
    ensures Tokenize(s, pos) == [] <==> pos == |s|
    ensures var tokens := Tokenize(s, pos);
      tokens != [] && tokens[0].Literal? ==> tokens[0].text != [] && tokens[0].text <= s[pos..]
    ensures var tokens := Tokenize(s, pos); tokens != [] && tokens[0].Directive? ==> PairAt(s, pos, '{')
  {
    match FindPair(s, pos, '{')
    case Null =>
    case NonNull(i) =>
      match FindPair(s, i + 2, '}')
      case Null =>
      case NonNull(k) =>
        if pos < i {
          assert s[pos..i] <= s[pos..];
        }
  }

  /** No `c c` anywhere in `t`. */
  ghost predicate NoPairIn(t: string, c: char) {
    forall k :: !PairAt(t, k, c)
  }

  /** No `{{` in `t` is followed by a `}}`. */
  ghost predicate NoMatchIn(t: string) {
    forall i, j :: PairAt(t, i, '{') && i + 2 <= j ==> !PairAt(t, j, '}')
  }

  /** What the scan guarantees of the token at index `n`: literal text is never
      empty; a directive body stops at the first `}}` (laziness); literal text
      before a directive holds no `{{`, not even one completed by the directive's
      opening brace (a match starts at the leftmost `{{`); literal text at the end
      holds no complete match. */
  ghost predicate TokenOk(tokens: seq<Token>, n: nat)
    requires n < |tokens|
  {
    match tokens[n]
    case Literal(text) =>
      && text != []
      && (if n + 1 < |tokens| then tokens[n + 1].Directive? && NoPairIn(text + "{", '{') else NoMatchIn(text))
    case Directive(body) => NoPairIn(body + "}", '}')
  }

  /** A reference definition of the scan: a tiling of `t` into tokens each meeting
      `TokenOk`. */
  ghost predicate Scans(t: string, tokens: seq<Token>) {
    RawText(tokens) == t && forall n :: 0 <= n < |tokens| ==> TokenOk(tokens, n)
  }

  lemma RawTextAppend(a: seq<Token>, b: seq<Token>)
    ensures RawText(a + b) == RawText(a) + RawText(b)
  {
    if |a| > 0 {
      assert (a + b)[0] == a[0];
      assert (a + b)[1..] == a[1..] + b;
      RawTextAppend(a[1..], b);
    } else {
      assert a + b == b;
    }
  }

  /** `FindPair` finds a pair preceded by none. */
  lemma {:induction false} FindPairAt(s: string, from: nat, c: char, i: nat)
    requires from <= i && PairAt(s, i, c)
    requires forall k :: from <= k < i ==> !PairAt(s, k, c)
    ensures FindPair(s, from, c) == NonNull(i)
    decreases i - from
  {
    if from < i {
      FindPairAt(s, from + 1, c, i);
    }
  }

  /** Cutting `s[pos..]` where it is known to be `a + b`. */
  lemma SliceParts(s: string, pos: nat, j: nat, a: string, b: string)
    requires pos <= |s| && s[pos..] == a + b && j == pos + |a|
    ensures j <= |s| && s[pos..j] == a && s[j..] == b
  {
    assert s[pos..][..|a|] == a;
    assert s[pos..][|a|..] == b;
  }

  /** `s[i..]` starting with a directive's characters. */
  lemma DirectiveSlice(s: string, i: nat, k: nat, body: string, rest: string)
    requires i <= |s| && s[i..] == Raw(Directive(body)) + rest && k == i + 2 + |body|
    ensures k + 2 <= |s| && PairAt(s, i, '{') && PairAt(s, k, '}')
    ensures s[i + 2..k] == body && s[i + 2..k + 1] == body + "}" && s[k + 2..] == rest
  {
    var r := Raw(Directive(body));
    RawShape(body);
    SliceParts(s, i, k + 2, r, rest);
    var w := s[i..k + 2];
    assert s[i] == w[0] && s[i + 1] == w[1] && s[k] == w[k - i] && s[k + 1] == w[k + 1 - i];
    assert s[i + 2..k] == w[2..k - i];
    assert s[i + 2..k + 1] == w[2..k + 1 - i];
  }

  /** Where a directive's characters put its braces and its body. */
  lemma RawShape(body: string)
    ensures var r := Raw(Directive(body));
      && |r| == |body| + 4 && r[0] == '{' && r[1] == '{' && r[|body| + 2] == '}' && r[|body| + 3] == '}'
      && r[2..|body| + 2] == body && r[2..|body| + 3] == body + "}"
  {
  }

  /** Up to the first pair from `from`, a slice ending just after the pair's first
      character holds none. */
  lemma NoPairBefore(s: string, from: nat, i: nat, c: char)
    requires from <= i && PairAt(s, i, c)
    requires forall k :: from <= k < i ==> !PairAt(s, k, c)
    ensures NoPairIn(s[from..i + 1], c)
  {
    var t := s[from..i + 1];
    forall k: nat
      ensures !PairAt(t, k, c)
    {
      if k + 1 < |t| {
        assert !PairAt(s, from + k, c);
      }
    }
  }

  /** The text between `from` and the first pair, with the pair's first
      character, holds none. */
  lemma NoPairBeforeFirst(s: string, from: nat, i: nat, c: char)
    requires from <= i && PairAt(s, i, c)
    requires forall k :: from <= k < i ==> !PairAt(s, k, c)
    ensures NoPairIn(s[from..i] + [c], c)
  {
    NoPairBefore(s, from, i, c);
    assert s[from..i] + [c] == s[from..i + 1];
  }

  /** Conversely, a slice holding no pair means none starts before its last
      character. */
  lemma NoPairUpTo(s: string, from: nat, i: nat, c: char)
    requires from <= i < |s| && NoPairIn(s[from..i + 1], c)
    ensures forall k :: from <= k < i ==> !PairAt(s, k, c)
  {
    var t := s[from..i + 1];
    forall k | from <= k < i
      ensures !PairAt(s, k, c)
    {
      assert !PairAt(t, k - from, c);
    }
  }

  /** When the scan stops, the rest of the section holds no complete match. */
  lemma TailHasNoMatch(s: string, pos: nat)
    requires pos < |s|
    requires FindPair(s, pos, '{').Null? || FindPair(s, FindPair(s, pos, '{').value + 2, '}').Null?
    ensures NoMatchIn(s[pos..])
  {
    FindPairFirst(s, pos, '{');
    if FindPair(s, pos, '{').NonNull? {
      FindPairFirst(s, FindPair(s, pos, '{').value + 2, '}');
    }
    var t := s[pos..];
    assert forall k :: PairAt(t, k, '{') ==> PairAt(s, pos + k, '{');
    assert forall k :: PairAt(t, k, '}') ==> PairAt(s, pos + k, '}');
  }

  /** Literal text with no complete match, at the end of the section, is what the
      scan leaves as its last token. */
  lemma LiteralTail(s: string, pos: nat)
    requires pos < |s| && NoMatchIn(s[pos..])
    ensures Tokenize(s, pos) == [Literal(s[pos..])]
  {
    var t := s[pos..];
    assert forall k :: pos <= k ==> PairAt(s, k, '{') ==> PairAt(t, k - pos, '{');
    assert forall k :: pos <= k ==> PairAt(s, k, '}') ==> PairAt(t, k - pos, '}');
  }

  /** The scan meets its reference definition. */
  lemma {:induction false} TokenizeScans(s: string, pos: nat)
    requires pos <= |s|
    ensures Scans(s[pos..], Tokenize(s, pos))
    decreases |s| - pos
  {
    match FindPair(s, pos, '{')
    case Null => LastScans(s, pos);
    case NonNull(i) =>
      match FindPair(s, i + 2, '}')
      case Null => LastScans(s, pos);
      case NonNull(k) =>
        TokenizeScans(s, k + 2);
        StepScans(s, pos, i, k);
  }

  /** The end of the scan: no directive left, so the rest is one literal, if any. */
  lemma LastScans(s: string, pos: nat)
    requires pos <= |s|
    requires var open := FindPair(s, pos, '{'); open.Null? || FindPair(s, open.value + 2, '}').Null?
    ensures Scans(s[pos..], Tokenize(s, pos))
  {
    if pos < |s| {
      TailHasNoMatch(s, pos);
      LiteralTail(s, pos);
      OneLiteralScans(s[pos..]);
    } else {
      assert Tokenize(s, pos) == [];
    }
  }

  lemma OneLiteralScans(t: string)
    requires t != [] && NoMatchIn(t)
    ensures Scans(t, [Literal(t)])
  {
    assert RawText([Literal(t)]) == t + RawText([]);
    assert TokenOk([Literal(t)], 0);
  }

  /** One step of the scan: literal text (when there is any), one directive, and
      the scan of the rest. */
  lemma StepScans(s: string, pos: nat, i: nat, k: nat)
    requires pos <= |s| && FindPair(s, pos, '{') == NonNull(i) && FindPair(s, i + 2, '}') == NonNull(k)
    requires Scans(s[k + 2..], Tokenize(s, k + 2))
    ensures Scans(s[pos..], Tokenize(s, pos))
  {
    var lead: seq<Token> := if pos < i then [Literal(s[pos..i])] else [];
    var d := Directive(s[i + 2..k]);
    var rest := Tokenize(s, k + 2);
    TokenizeStep(s, pos, i, k, lead, d.body, rest);
    StepTiles(s, pos, i, k, lead, d, rest);
    StepOk(s, pos, i, k, lead, d, rest);
  }

  /** Each token of one step of the scan meets the reference conditions. */
  lemma StepOk(s: string, pos: nat, i: nat, k: nat, lead: seq<Token>, d: Token, rest: seq<Token>)
    requires pos <= |s| && FindPair(s, pos, '{') == NonNull(i) && FindPair(s, i + 2, '}') == NonNull(k)
    requires lead == (if pos < i then [Literal(s[pos..i])] else []) && d == Directive(s[i + 2..k])
    requires forall n :: 0 <= n < |rest| ==> TokenOk(rest, n)
    ensures forall n :: 0 <= n < |lead + ([d] + rest)| ==> TokenOk(lead + ([d] + rest), n)
  {
    FindPairFirst(s, pos, '{');
    FindPairFirst(s, i + 2, '}');
    NoPairBeforeFirst(s, i + 2, k, '}');
    NoPairBeforeFirst(s, pos, i, '{');
    StepTokensOk(lead, d, rest);
  }

  /** One step of the scan, as the scan computes it. */
  lemma TokenizeStep(s: string, pos: nat, i: nat, k: nat, lead: seq<Token>, body: string, rest: seq<Token>)
    requires pos <= |s| && FindPair(s, pos, '{') == NonNull(i) && FindPair(s, i + 2, '}') == NonNull(k)
    requires pos <= i && i + 2 <= k && k + 2 <= |s|
    requires lead == (if pos < i then [Literal(s[pos..i])] else []) && body == s[i + 2..k]
    requires rest == Tokenize(s, k + 2)
    ensures Tokenize(s, pos) == lead + ([Directive(body)] + rest)
  {
    assert lead + [Directive(body)] + rest == lead + ([Directive(body)] + rest);
  }

  lemma StepTiles(s: string, pos: nat, i: nat, k: nat, lead: seq<Token>, d: Token, rest: seq<Token>)
    requires pos <= i && i + 2 <= k && k + 2 <= |s|
    requires lead == (if pos < i then [Literal(s[pos..i])] else [])
    requires d == Directive(s[i + 2..k]) && PairAt(s, i, '{') && PairAt(s, k, '}')
    requires RawText(rest) == s[k + 2..]
    ensures RawText(lead + ([d] + rest)) == s[pos..]
  {
    LeadRaw(s, pos, i, lead);
    DirectiveRaw(s, i, k);
    TilesThree(s, pos, i, k + 2, lead, d, rest);
  }

  /** Tokens tiling three consecutive slices tile their union. */
  lemma TilesThree(s: string, pos: nat, i: nat, j: nat, lead: seq<Token>, d: Token, rest: seq<Token>)
    requires pos <= i <= j <= |s|
    requires RawText(lead) == s[pos..i] && Raw(d) == s[i..j] && RawText(rest) == s[j..]
    ensures RawText(lead + ([d] + rest)) == s[pos..]
  {
    RawTextOfThree(lead, d, rest, s[pos..i], s[i..j], s[j..]);
    SliceSplit(s, i, j);
    SliceSplit(s, pos, i);
  }

  lemma RawTextOfThree(lead: seq<Token>, d: Token, rest: seq<Token>, x: string, y: string, z: string)
    requires RawText(lead) == x && Raw(d) == y && RawText(rest) == z
    ensures RawText(lead + ([d] + rest)) == x + (y + z)
  {
    RawTextAppend(lead, [d] + rest);
    RawTextCons(d, rest);
  }

  lemma RawTextCons(d: Token, rest: seq<Token>)
    ensures RawText([d] + rest) == Raw(d) + RawText(rest)
  {
    assert ([d] + rest)[0] == d;
    assert ([d] + rest)[1..] == rest;
  }

  lemma LeadRaw(s: string, pos: nat, i: nat, lead: seq<Token>)
    requires pos <= i <= |s|
    requires lead == (if pos < i then [Literal(s[pos..i])] else [])
    ensures RawText(lead) == s[pos..i]
  {
    if pos < i {
      assert RawText(lead) == s[pos..i] + RawText([]);
    }
  }

  lemma DirectiveRaw(s: string, i: nat, k: nat)
    requires i + 2 <= k && PairAt(s, i, '{') && PairAt(s, k, '}')
    ensures Raw(Directive(s[i + 2..k])) == s[i..k + 2]
  {
    var open, close := s[i..i + 2], s[k..k + 2];
    assert open == "{{" by {
      assert |open| == 2 && open[0] == '{' && open[1] == '{';
    }
    assert close == "}}" by {
      assert |close| == 2 && close[0] == '}' && close[1] == '}';
    }
    assert s[i..k + 2] == open + s[i + 2..k] + close;
  }

  lemma StepTokensOk(lead: seq<Token>, d: Token, rest: seq<Token>)
    requires |lead| <= 1 && d.Directive? && NoPairIn(d.body + "}", '}')
    requires |lead| == 1 ==> lead[0].Literal? && lead[0].text != [] && NoPairIn(lead[0].text + "{", '{')
    requires forall n :: 0 <= n < |rest| ==> TokenOk(rest, n)
    ensures forall n :: 0 <= n < |lead + ([d] + rest)| ==> TokenOk(lead + ([d] + rest), n)
  {
    var tokens := lead + ([d] + rest);
    forall n | 0 <= n < |tokens|
      ensures TokenOk(tokens, n)
    {
      if n >= |lead| + 1 {
        assert tokens[n] == rest[n - |lead| - 1];
        assert TokenOk(rest, n - |lead| - 1);
        if n + 1 < |tokens| {
          assert tokens[n + 1] == rest[n - |lead|];
        }
      } else if n == |lead| {
        assert tokens[n] == d;
      } else {
        assert tokens[n] == lead[0] && tokens[n + 1] == d;
      }
    }
  }

  /** A tail of a reference scan is a reference scan of the rest of the text. */
  lemma ScansRest(tokens: seq<Token>, m: nat)
    requires m <= |tokens|
    requires forall n :: 0 <= n < |tokens| ==> TokenOk(tokens, n)
    ensures forall n :: 0 <= n < |tokens[m..]| ==> TokenOk(tokens[m..], n)
  {
    forall n | 0 <= n < |tokens[m..]|
      ensures TokenOk(tokens[m..], n)
    {
      assert TokenOk(tokens, n + m);
      assert tokens[m..][n] == tokens[n + m];
      if n + 1 < |tokens[m..]| {
        assert tokens[m..][n + 1] == tokens[n + m + 1];
      }
    }
  }

  lemma FindDirective(s: string, pos: nat, i: nat, k: nat)
    requires pos <= i && i + 2 <= k && k + 2 <= |s| && PairAt(s, i, '{') && PairAt(s, k, '}')
    requires NoPairIn(s[pos..i + 1], '{') && NoPairIn(s[i + 2..k + 1], '}')
    ensures FindPair(s, pos, '{') == NonNull(i) && FindPair(s, i + 2, '}') == NonNull(k)
  {
    NoPairUpTo(s, pos, i, '{');
    FindPairAt(s, pos, '{', i);
    NoPairUpTo(s, i + 2, k, '}');
    FindPairAt(s, i + 2, '}', k);
  }

  /** The reference definition determines the tokens: every scan of `s[pos..]`
      that meets it is the one `Tokenize` computes. */
  lemma {:induction false} ScansUnique(s: string, pos: nat, tokens: seq<Token>)
    requires pos <= |s|
    requires Scans(s[pos..], tokens)
    ensures tokens == Tokenize(s, pos)
    decreases |tokens|, 1
  {
    if |tokens| == 0 {
      assert s[pos..] == [];
    } else {
      ScansCons(s[pos..], tokens);
      var rest := tokens[1..];
      if tokens[0].Directive? {
        UniqueFromDirective(s, pos, tokens[0].body, rest);
        assert tokens == [tokens[0]] + rest;
      } else if |tokens| == 1 {
        var text := tokens[0].text;
        assert rest == [];
        assert s[pos..] == text;
        LiteralTail(s, pos);
        assert tokens == [Literal(s[pos..])];
      } else {
        ScansCons(RawText(rest), rest);
        UniqueFromLiteral(s, pos, tokens[0].text, rest[0].body, rest[1..]);
        assert tokens == [tokens[0]] + ([rest[0]] + rest[1..]);
      }
    }
  }

  /** A directive first, then a reference scan of the rest. */
  lemma {:induction false} UniqueFromDirective(s: string, pos: nat, body: string, rest: seq<Token>)
    requires pos <= |s| && s[pos..] == Raw(Directive(body)) + RawText(rest)
    requires NoPairIn(body + "}", '}') && Scans(RawText(rest), rest)
    ensures [Directive(body)] + rest == Tokenize(s, pos)
    decreases |rest| + 1, 0
  {
    var k := pos + 2 + |body|;
    assert k + 2 <= |s| && s[k + 2..] == RawText(rest) by {
      DirectiveSlice(s, pos, k, body, RawText(rest));
    }
    var j := k + 2;
    RestUnique(s, j, rest);
    DirectiveFirstStep(s, pos, k, j, body, RawText(rest), rest);
  }

  /** Literal text and a directive first, then a reference scan of the rest. */
  lemma {:induction false} UniqueFromLiteral(s: string, pos: nat, text: string, body: string, rest: seq<Token>)
    requires pos <= |s| && s[pos..] == text + (Raw(Directive(body)) + RawText(rest))
    requires text != [] && NoPairIn(text + "{", '{')
    requires NoPairIn(body + "}", '}') && Scans(RawText(rest), rest)
    ensures [Literal(text)] + ([Directive(body)] + rest) == Tokenize(s, pos)
    decreases |rest| + 2, 0
  {
    var i := pos + |text|;
    var k := i + 2 + |body|;
    assert k + 2 <= |s| && s[k + 2..] == RawText(rest) by {
      SliceParts(s, pos, i, text, Raw(Directive(body)) + RawText(rest));
      DirectiveSlice(s, i, k, body, RawText(rest));
    }
    RestUnique(s, k + 2, rest);
    LiteralFirstStep(s, pos, i, k, text, body, RawText(rest), rest);
  }

  /** The scan after the first directive is the one `Tokenize` computes there. */
  lemma {:induction false} RestUnique(s: string, j: nat, rest: seq<Token>)
    requires j <= |s| && s[j..] == RawText(rest) && Scans(RawText(rest), rest)
    ensures rest == Tokenize(s, j)
    decreases |rest|, 2
  {
    ScansAt(s, j, RawText(rest), rest);
    ScansUnique(s, j, rest);
  }

  lemma ScansAt(s: string, pos: nat, t: string, tokens: seq<Token>)
    requires pos <= |s| && s[pos..] == t && Scans(t, tokens)
    ensures Scans(s[pos..], tokens)
  {
  }

  lemma DirectiveFirstStep(s: string, pos: nat, k: nat, j: nat, body: string, after: string, rest: seq<Token>)
    requires pos <= |s| && s[pos..] == Raw(Directive(body)) + after
    requires NoPairIn(body + "}", '}')
    requires k == pos + 2 + |body| && j == k + 2 && j <= |s| && rest == Tokenize(s, j)
    ensures [Directive(body)] + rest == Tokenize(s, pos)
  {
    assert FindPair(s, pos, '{') == NonNull(pos) && FindPair(s, pos + 2, '}') == NonNull(k) && s[pos + 2..k] == body by {
      NoPairInOne("{", '{');
      DirectiveAfter(s, pos, pos, k, [], body, after);
    }
    assert Tokenize(s, pos) == [Directive(body)] + rest by {
      TokenizeStep(s, pos, pos, k, [], body, rest);
      assert [] + ([Directive(body)] + rest) == [Directive(body)] + rest;
    }
  }

  lemma LiteralFirstStep(s: string, pos: nat, i: nat, k: nat, text: string, body: string, after: string, rest: seq<Token>)
    requires pos <= |s| && s[pos..] == text + (Raw(Directive(body)) + after)
    requires text != [] && NoPairIn(text + "{", '{') && NoPairIn(body + "}", '}')
    requires i == pos + |text| && k == i + 2 + |body| && k + 2 <= |s| && rest == Tokenize(s, k + 2)
    ensures [Literal(text)] + ([Directive(body)] + rest) == Tokenize(s, pos)
  {
    var tail := Raw(Directive(body)) + after;
    assert s[pos..i] == text && s[i..] == tail by {
      SliceParts(s, pos, i, text, tail);
    }
    assert FindPair(s, pos, '{') == NonNull(i) && FindPair(s, i + 2, '}') == NonNull(k) && s[i + 2..k] == body by {
      DirectiveAfter(s, pos, i, k, text, body, after);
    }
    assert Tokenize(s, pos) == [Literal(text)] + ([Directive(body)] + rest) by {
      TokenizeStep(s, pos, i, k, [Literal(text)], body, rest);
    }
  }

  /** A directive at `i` after text `text` from `pos` is what the scan finds next
      when neither the text nor the body holds a pair that would end it early. */
  lemma DirectiveAfter(s: string, pos: nat, i: nat, k: nat, text: string, body: string, after: string)
    requires pos <= i <= |s| && s[pos..i] == text && s[i..] == Raw(Directive(body)) + after && k == i + 2 + |body|
    requires NoPairIn(text + "{", '{') && NoPairIn(body + "}", '}')
    ensures k + 2 <= |s| && s[i + 2..k] == body
    ensures FindPair(s, pos, '{') == NonNull(i) && FindPair(s, i + 2, '}') == NonNull(k)
  {
    DirectiveSlice(s, i, k, body, after);
    assert s[pos..i + 1] == text + "{" by {
      assert s[pos..i + 1] == s[pos..i] + [s[i]];
    }
    FindDirective(s, pos, i, k);
  }

  /** A reference scan is its first token followed by a reference scan of the
      rest of the text. */
  lemma ScansCons(t: string, tokens: seq<Token>)
    requires Scans(t, tokens) && |tokens| > 0
    ensures t == Raw(tokens[0]) + RawText(tokens[1..])
    ensures TokenOk(tokens, 0)
    ensures |tokens| > 1 ==> TokenOk(tokens, 1)
    ensures Scans(RawText(tokens[1..]), tokens[1..])
  {
    assert TokenOk(tokens, 0);
    if |tokens| > 1 {
      assert TokenOk(tokens, 1);
    }
    ScansRest(tokens, 1);
  }

  lemma NoPairInOne(t: string, c: char)
    requires |t| <= 1
    ensures NoPairIn(t, c)
  {
  }

  /** The scan of a whole section: it meets the reference definition, so the
      tokens tile the section. */
  function Scan(section: string): (tokens: seq<Token>)
    ensures Scans(section, tokens)
  {
    TokenizeScans(section, 0);
    assert section[0..] == section;
    Tokenize(section, 0)
  }

  /** A token sequence is the scan of a section exactly when it tiles the section
      and meets the reference conditions. */
  lemma ScanCharacterized(section: string, tokens: seq<Token>)
    ensures Scans(section, tokens) <==> tokens == Scan(section)
  {
    assert section[0..] == section;
    if Scans(section, tokens) {
      ScansUnique(section, 0, tokens);
    }
    if tokens == Scan(section) {
      TokenizeScans(section, 0);
    }
  }
}

=== FILE: values.dfy ===
/** The runtime values a template is rendered against, and `GetValueFromInput`
    (DevDotNetSdk.Templating/TemplateBase.cs): the resolution of a dotted property
    path by reflection. A C# `object?` is a `Nullable<Value>`. */
module Values {
  import opened Runtime
  import opened Text

  /** The shapes of runtime value the engine distinguishes. An `Object` carries its
      type name, what its `ToString()` returns, its public instance properties and,
      when its type is enumerable, the sequence its enumerator yields (a dictionary
      yields `Pair` values). A string is enumerable too, yielding its characters. */
  datatype Value =
    | Bool(b: bool)
    | Int(i: int)
    | Char(c: char)
    | Str(s: string)
    | Pair(key: Nullable<Value>, val: Nullable<Value>)
    | Object(typeName: string, text: string, properties: map<string, Getter>,
             elements: Nullable<seq<Nullable<Value>>>)

  /** What reading a public instance property of a given name does. It returns a
      value; or the property is an indexer, which `PropertyInfo.GetValue` without
      index arguments refuses; or the property has no get accessor, which
      `PropertyInfo.GetValue` refuses as well; or several properties share the name,
      which `Type.GetProperty` refuses; or the getter itself throws. */
  datatype Getter = Returns(value: Nullable<Value>) | Indexer | SetOnly | Overloaded | Throws(inner: Error)

  /** `GetType().Name`, as used in the missing-property message. */
  function TypeName(v: Value): string {
    match v
    case Bool(_) => "Boolean"
    case Int(_) => "Int32"
    case Char(_) => "Char"
    case Str(_) => "String"
    case Pair(_, _) => "KeyValuePair`2"
    case Object(name, _, _, _) => name
  }

  /** Every character of `s` lies in the Basic Multilingual Plane, so it is a single
      UTF-16 code unit. */
  predicate BasicPlane(s: string) {
    forall i :: 0 <= i < |s| ==> s[i] as int <= 0xFFFF
  }

  /** `String.Length`: the number of UTF-16 code units, so a character above U+FFFF
      (a surrogate pair) counts twice. */
  function Utf16Length(s: string): (n: nat)
    ensures |s| <= n <= 2 * |s|
    ensures n == |s| <==> BasicPlane(s)
  {
    if |s| == 0 then 0
    else
      var n := (if s[0] as int <= 0xFFFF then 1 else 2) + Utf16Length(s[1..]);
      assert BasicPlane(s) <==> s[0] as int <= 0xFFFF && BasicPlane(s[1..]) by {
        assert forall i :: 0 < i < |s| ==> s[i] == s[1..][i - 1];
      }
      n
  }

  /** The outcome of asking a value's type for a public instance property. */
  datatype Member = NoSuchMember | Member(getter: Getter)

  /** The property lookup of `GetValueFromInput`. A key/value pair exposes only
      `Key` and `Value`; a string has `Length` and the indexer `Chars`; `Boolean`,
      `Int32` and `Char` have no public instance properties. */
  function Property(v: Value, name: string): (m: Member)
    ensures v.Pair? && name == "Key" ==> m == Member(Returns(v.key))
    ensures v.Pair? && name == "Value" ==> m == Member(Returns(v.val))
    ensures v.Pair? && name != "Key" && name != "Value" ==> m == NoSuchMember
    ensures v.Str? && name == "Length" ==> m == Member(Returns(NonNull(Int(Utf16Length(v.s)))))
    ensures v.Str? && name == "Chars" ==> m == Member(Indexer)
    ensures v.Str? && name != "Length" && name != "Chars" ==> m == NoSuchMember
    ensures v.Object? ==> (m.Member? <==> name in v.properties)
    ensures v.Object? && m.Member? ==> m.getter == v.properties[name]
    ensures (v.Bool? || v.Int? || v.Char?) ==> m == NoSuchMember
  {
    match v
    case Pair(k, w) =>
      if name == "Key" then Member(Returns(k)) else if name == "Value" then Member(Returns(w)) else NoSuchMember
    case Str(s) =>
      if name == "Length" then Member(Returns(NonNull(Int(Utf16Length(s)))))
      else if name == "Chars" then Member(Indexer)
      else NoSuchMember
    case Object(_, _, props, _) => if name in props then Member(props[name]) else NoSuchMember
    case _ => NoSuchMember
  }

  /** The exceptions one step of the walk can throw. */
  predicate AccessError(e: Error) {
    e.PropertyNotFound? || e.AmbiguousMatch? || e == ParameterCountMismatch || e == GetMethodNotFound
    || e.GetterFailed?
  }

  /** One step of the walk from a present value: look the property up, then read it
      with `PropertyInfo.GetValue`, which wraps a getter's exception in a
      `TargetInvocationException` but throws its own refusals unwrapped. */
  function Access(v: Value, name: string): (r: Outcome<Nullable<Value>>)
    ensures r.Done? <==> Property(v, name).Member? && Property(v, name).getter.Returns?
    ensures r.Done? ==> r.value == Property(v, name).getter.value
    ensures Property(v, name) == NoSuchMember ==> r == Thrown(PropertyNotFound(name, TypeName(v)))
    ensures Property(v, name) == Member(Indexer) ==> r == Thrown(ParameterCountMismatch)
    ensures Property(v, name) == Member(SetOnly) ==> r == Thrown(GetMethodNotFound)
    ensures Property(v, name) == Member(Overloaded) ==> r == Thrown(AmbiguousMatch(name))
    ensures Property(v, name).Member? && Property(v, name).getter.Throws? ==>
      r == Thrown(GetterFailed(Property(v, name).getter.inner))
    ensures r.Thrown? ==> AccessError(r.error)
  {
    match Property(v, name)
    case NoSuchMember => Thrown(PropertyNotFound(name, TypeName(v)))
    case Member(Returns(next)) => Done(next)
    case Member(Indexer) => Thrown(ParameterCountMismatch)
    case Member(SetOnly) => Thrown(GetMethodNotFound)
    case Member(Overloaded) => Thrown(AmbiguousMatch(name))
    case Member(Throws(e)) => Thrown(GetterFailed(e))
  }

  /** The property walk of `GetValueFromInput`, one path segment at a time. */
  function Walk(segments: seq<string>, current: Nullable<Value>): (r: Outcome<Nullable<Value>>)
    ensures current.Null? ==> r == Done(Null)
    ensures segments == [] ==> r == Done(current)
    ensures r.Thrown? ==> AccessError(r.error)
  {
    if |segments| == 0 then Done(current)
    else match current
      case Null => Done(Null)
      case NonNull(v) =>
        var next :- Access(v, segments[0]);
        Walk(segments[1..], next)
  }

  /** `GetValueFromInput(expression, input)`: the path is split on every `.` with
      no trimming, and walked from the input. A null input gives null; a path
      without a dot is a single property read; every exception is an access error. */
  function Resolve(expression: string, input: Nullable<Value>): (r: Outcome<Nullable<Value>>)
    ensures input.Null? ==> r == Done(Null)
    ensures '.' !in expression && input.NonNull? ==> r == Access(input.value, expression)
    ensures r.Thrown? ==> AccessError(r.error)
  {
    var segments := Split(expression, '.');
    assert '.' !in expression ==> segments == [expression];
    Walk(segments, input)
  }

  /** A reference definition of the walk: the value reached after following the
      first `n` segments, as long as every value on the way is present and its
      property reads without an exception. */
  ghost predicate Reaches(segments: seq<string>, current: Nullable<Value>, n: nat, v: Nullable<Value>)
    decreases n
  {
    if n == 0 then v == current
    else
      && |segments| > 0 && current.NonNull?
      && Access(current.value, segments[0]).Done?
      && Reaches(segments[1..], Access(current.value, segments[0]).value, n - 1, v)
  }

  /** The walk meets a null after fewer than all the segments. */
  ghost predicate MeetsNull(segments: seq<string>, current: Nullable<Value>) {
    exists n: nat :: n < |segments| && Reaches(segments, current, n, Null)
  }

  /** The walk meets a present value whose next property is missing, ambiguous, an
      indexer, without a get accessor or has a throwing getter, and `e` is what that
      step throws. */
  ghost predicate MeetsFailure(segments: seq<string>, current: Nullable<Value>, e: Error) {
    exists n: nat, v :: n < |segments| && Reaches(segments, current, n, NonNull(v))
      && Access(v, segments[n]) == Thrown(e)
  }

  /** How the walk ends: with the value after all segments; with null as soon as a
      null is reached, whatever the remaining segments say; or with the exception
      of the first step that fails, naming the segment and the type of the present
      value when the property is missing. */
  lemma {:induction false} WalkCharacterized(segments: seq<string>, current: Nullable<Value>)
    ensures var r := Walk(segments, current);
      || (r.Done? && Reaches(segments, current, |segments|, r.value))
      || (r == Done(Null) && MeetsNull(segments, current))
      || (r.Thrown? && MeetsFailure(segments, current, r.error))
    decreases |segments|
  {
    var r := Walk(segments, current);
    if |segments| == 0 {
      assert Reaches(segments, current, 0, current);
    } else if current.Null? {
      assert Reaches(segments, current, 0, Null);
      assert MeetsNull(segments, current);
    } else {
      var v := current.value;
      var step := Access(v, segments[0]);
      if step.Thrown? {
        assert Reaches(segments, current, 0, NonNull(v));
        assert MeetsFailure(segments, current, r.error);
      } else {
        var next := step.value;
        WalkCharacterized(segments[1..], next);
        var r' := Walk(segments[1..], next);
        assert r == r';
        if r'.Done? && Reaches(segments[1..], next, |segments[1..]|, r'.value) {
          assert Reaches(segments, current, |segments|, r.value);
        } else if r' == Done(Null) && MeetsNull(segments[1..], next) {
          var n: nat :| n < |segments[1..]| && Reaches(segments[1..], next, n, Null);
          assert Reaches(segments, current, n + 1, Null);
          assert MeetsNull(segments, current);
        } else {
          assert MeetsFailure(segments[1..], next, r'.error);
          var n: nat, w :| n < |segments[1..]| && Reaches(segments[1..], next, n, NonNull(w))
            && Access(w, segments[1..][n]) == Thrown(r'.error);
          assert Reaches(segments, current, n + 1, NonNull(w));
          assert segments[n + 1] == segments[1..][n];
          assert MeetsFailure(segments, current, r.error);
        }
      }
    }
  }

  /** A null reached anywhere on the path short-circuits the walk to null: the
      remaining segments are not looked at. */
  lemma {:induction false} NullShortCircuits(segments: seq<string>, n: nat)
    requires n < |segments|
    ensures forall current: Nullable<Value> :: Reaches(segments, current, n, Null) ==> Walk(segments, current) == Done(Null)
    decreases n
  {
    forall current: Nullable<Value> | Reaches(segments, current, n, Null)
      ensures Walk(segments, current) == Done(Null)
    {
      if n > 0 {
        NullShortCircuits(segments[1..], n - 1);
      }
    }
  }

  /** `GetValueFromInput` on the dotted path: the segments are the text between the
      dots, and the walk over them ends in the reached value, a null met on the
      way, or the first failing property read. */
  lemma ResolveCharacterized(expression: string, input: Nullable<Value>)
    ensures var segments := Split(expression, '.');
      && Join(segments, '.') == expression
      && SeparatorFree(segments, '.', |segments|)
      && var r := Resolve(expression, input);
        || (r.Done? && Reaches(segments, input, |segments|, r.value))
        || (r == Done(Null) && MeetsNull(segments, input))
        || (r.Thrown? && MeetsFailure(segments, input, r.error))
  {
    JoinSplit(expression, '.');
    WalkCharacterized(Split(expression, '.'), input);
  }

  /** A null reached after `n` of the dotted segments makes the whole path null. */
  lemma ResolveNullShortCircuits(expression: string, n: nat)
    requires n < |Split(expression, '.')|
    ensures forall input: Nullable<Value> :: Reaches(Split(expression, '.'), input, n, Null) ==> Resolve(expression, input) == Done(Null)
  {
    NullShortCircuits(Split(expression, '.'), n);
  }

  /** `ToString()` of a value, as the variable directive appends it: `True` or
      `False`, the decimal text of an integer, the character or string itself, a
      bracketed pair, or an object's own text. */
  function ToText(v: Value): (r: string)
    ensures v.Bool? ==> (r == "True" <==> v.b) && (r == "False" <==> !v.b)
    ensures v.Int? ==> IntegerValue(r) == v.i && r != []
    ensures v.Char? ==> r == [v.c]
    ensures v.Str? ==> r == v.s
    ensures v.Pair? ==> |r| >= 4 && r[0] == '[' && r[|r| - 1] == ']'
    ensures v.Object? ==> r == v.text
    decreases v
  {
    match v
    case Bool(b) => if b then "True" else "False"
    case Int(i) => IntegerText(i)
    case Char(c) => [c]
    case Str(s) => s
    case Pair(k, w) => "[" + NullableText(k) + ", " + NullableText(w) + "]"
    case Object(_, text, _, _) => text
  }

  /** `KeyValuePair.ToString()` prints a null component as nothing. */
  function NullableText(v: Nullable<Value>): string
    decreases v
  {
    match v
    case Null => ""
    case NonNull(x) => ToText(x)
  }

  /** `value as IEnumerable`: the elements of an enumerable value, or null for a
      null reference and for a value that is not enumerable. */
  function Elements(v: Nullable<Value>): (r: Nullable<seq<Nullable<Value>>>)
    ensures v.Null? ==> r.Null?
    ensures v.NonNull? && v.value.Str? ==>
      (r.NonNull? && |r.value| == |v.value.s| && forall i :: 0 <= i < |v.value.s| ==> r.value[i] == NonNull(Char(v.value.s[i])))
    ensures v.NonNull? && v.value.Str? && BasicPlane(v.value.s) ==> |r.value| == Utf16Length(v.value.s)
    ensures v.NonNull? && v.value.Object? ==> r == v.value.elements
    ensures v.NonNull? && (v.value.Bool? || v.value.Int? || v.value.Char? || v.value.Pair?) ==> r.Null?
  {
    match v
    case Null => Null
    case NonNull(Str(s)) => NonNull(seq(|s|, i requires 0 <= i < |s| => NonNull(Char(s[i]))))
    case NonNull(Object(_, _, _, elements)) => elements
    case NonNull(_) => Null
  }
}

=== FILE: variants.dfy ===
/** `Variant<T1, T2>` and `Variant<T1, T2, T3>` of DevDotNetSdk/Models/Variant.cs,
    modelled as one datatype whose `arity` is 2 or 3. The slots hold the boxed
    values (the code casts through `object`), so one carrier type, `Ref`, serves all
    positions. A type argument `T` of `Is<T>`, `Get<T>` and `TryGet<T>` is modelled
    by the set of 1-based positions `k` whose declared `Tk` is `T`: `{1}` when `T`
    is `T1` only, `{}` for an unrelated type, `{1, 2}` when `T1` and `T2` coincide.
    Type arguments are taken to be reference types, so `default` is null. */
module Variants {
  import opened Runtime

  datatype Variant = Variant(arity: nat, tag: nat, slots: seq<Nullable<Ref>>)

  /** Every struct value satisfies this: the tag is 0 (the default struct) or a
      position, and only the tagged slot may be non-null. */
  predicate Valid(v: Variant) {
    && (v.arity == 2 || v.arity == 3)
    && |v.slots| == v.arity
    && v.tag <= v.arity
    && forall k :: 0 <= k < v.arity && k + 1 != v.tag ==> v.slots[k] == Null
  }

  /** `Is<T>()` checks the positions in order from `k`. */
  function IsFrom(v: Variant, t: set<nat>, k: nat): (r: bool)
    requires k >= 1
    ensures r <==> k <= v.tag <= v.arity && v.tag in t
    decreases v.arity + 1 - k
  {
    if k > v.arity then false
    else if k in t && v.tag == k then true
    else IsFrom(v, t, k + 1)
  }

  /** `Is<T>()`: true exactly when `T` is the type at the tag's position, which
      the default struct (tag 0) never has. */
  function Is(v: Variant, t: set<nat>): (r: bool)
    ensures r <==> 1 <= v.tag <= v.arity && v.tag in t
  {
    IsFrom(v, t, 1)
  }

  /** The non-null checks of `Get<T>()`, in position order from `k`. */
  function GetFrom(v: Variant, t: set<nat>, k: nat): (r: Outcome<Ref>)
    requires Valid(v) && k >= 1
    ensures r.Done? <==> k <= v.tag && v.tag in t && v.slots[v.tag - 1].NonNull?
    ensures r.Done? ==> v.slots[v.tag - 1] == NonNull(r.value)
    ensures r.Thrown? ==> r.error == VariantValueNull
    decreases v.arity + 1 - k
  {
    if k > v.arity then Thrown(VariantValueNull)
    else if k in t && v.slots[k - 1].NonNull? then Done(v.slots[k - 1].value)
    else GetFrom(v, t, k + 1)
  }

  /** `Get<T>()`: the stored value when `Is<T>()` holds and it is non-null. */
  function Get(v: Variant, t: set<nat>): (r: Outcome<Ref>)
    requires Valid(v)
    ensures r == Thrown(VariantDoesNotHold) <==> !Is(v, t)
    ensures r == Thrown(VariantValueNull) <==> Is(v, t) && v.slots[v.tag - 1].Null?
    ensures r.Done? <==> Is(v, t) && v.slots[v.tag - 1].NonNull?
    ensures r.Done? ==> v.slots[v.tag - 1] == NonNull(r.value)
  {
    if !Is(v, t) then Thrown(VariantDoesNotHold) else GetFrom(v, t, 1)
  }

  /** `TryGet<T>(out value)`: false with a default (null) value when `Is<T>()`
      fails; otherwise `Get<T>()`'s value, or its exception on a stored null. */
  function TryGet(v: Variant, t: set<nat>): (r: Outcome<(bool, Nullable<Ref>)>)
    requires Valid(v)
    ensures r == Done((false, Null)) <==> !Is(v, t)
    ensures r.Thrown? <==> Is(v, t) && v.slots[v.tag - 1].Null?
    ensures r.Thrown? ==> r.error == VariantValueNull
    ensures r.Done? && r.value.0 ==> r.value.1 == v.slots[v.tag - 1] && r.value.1.NonNull?
    ensures Is(v, t) && v.slots[v.tag - 1].NonNull? ==> r == Done((true, v.slots[v.tag - 1]))
    ensures Is(v, t) ==> (r.Done? <==> Get(v, t).Done?) && (r.Done? ==> r.value == (true, NonNull(Get(v, t).value)))
  {
    if Is(v, t) then
      var x :- Get(v, t);
      Done((true, NonNull(x)))
    else
      Done((false, Null))
  }

  /** The default struct: tag 0, every slot null, holding nothing. */
  function DefaultVariant(arity: nat): (r: Variant)
    requires arity == 2 || arity == 3
    ensures Valid(r) && r.arity == arity
    ensures forall t :: !Is(r, t)
  {
    Variant(arity, 0, seq(arity, _ => Null))
  }

  /** The constructor taking a `T{position}` value: it sets the tag to the position
      and leaves the other slots at their default. */
  function Construct(arity: nat, position: nat, value: Nullable<Ref>): (r: Variant)
    requires arity == 2 || arity == 3
    requires 1 <= position <= arity
    ensures Valid(r) && r.arity == arity && r.tag == position
    ensures forall t :: Is(r, t) <==> position in t
  {
    Variant(arity, position, seq(arity, k => if k + 1 == position then value else Null))
  }

  /** Round trip: what a constructor stores, `Get` of that position returns, and a
      stored null makes `Get` throw. */
  lemma GetAfterConstruct(arity: nat, position: nat, value: Nullable<Ref>, t: set<nat>)
    requires arity == 2 || arity == 3
    requires 1 <= position <= arity
    requires position in t
    ensures value.NonNull? ==> Get(Construct(arity, position, value), t) == Done(value.value)
    ensures value.Null? ==> Get(Construct(arity, position, value), t) == Thrown(VariantValueNull)
  {
  }
}
